=== FILE: README.md ===
# FinSight statements, warehouse, query and analysis page — a Dafny model

FinSight is the financial-analysis section of a portfolio site. Its React
components take flat rows from a backend and shape them for display. This
project models that shaping as pure Dafny functions over immutable data and
proves what the components promise about it.

- **Statements** (`app/finsight/FinancialStatements.tsx`). Line items are
  grouped by their normalized label into one node per label. Each node is
  linked under its parent label when that label is present, and is a root
  otherwise. The forest is sorted at every level by order index, then
  hierarchy level (descending), then display label, and flattened in
  pre-order. Each flat entry becomes a row: top and bottom rules, spacing,
  emphasis, indent and one formatted cell per year.
- **Formatting** (same file). The accounting number format picks a divisor
  (none for per-share units, millions for DKK and EUR, otherwise by the
  1e9/1e6/1e3 ladder) and wraps negatives in parentheses. Labels are
  humanized: the camel-case concept name is split and title-cased, a
  redundant prefix and a trailing "Header" are stripped, and snake case is
  the fallback. The common unit and the "(scale unit)" caption of a
  statement are modelled too.
- **Equity matrix.** Items are recorded as movement → year → component
  cells, the last write winning. Movements are ordered by order index, then
  label. A missing Total is the sum of the four components, and shows
  nothing when that sum is 0.
- **Balance sheet.** Assets and liabilities-and-equity are each drawn from
  only their own side's items.
- **Warehouse view** (`DataWarehouseView.tsx`).
  - Keyword-precedence classification of metrics into statement types, and
    the B/M/K formatter.
  - The cross-company comparison: first row wins per (metric, company), one
    sorted section per statement type, and the total and indent rule of a row.
  - The single-company listing cut at 100 rows.
  - The per-year merge that feeds the time-series chart.
- **Query view** (`NaturalLanguageQuery.tsx`). Submitting a question and
  classifying the failures. Choosing the drawn view from the selected
  format and the result's shape: number, list, line or bar chart, or table.
  Picking the time column and the value columns, and the `$` B/M/K value
  format.
- **Analysis page** (`page.tsx`).
  - Loading the company list and its error texts.
  - The ticker → default-year selection.
  - The Analyze button's enable rule.
  - The outcome and error notice of an analysis.
  - The B/M/K formatter.

Clocks, fetches and component state are replaced by parameters. A reply to
a request is a datatype value (`Threw`, `Responded(...)`), and the `years`
list the tree builder reads from component state is an argument.

Numbers are `real`. Strings are `seq<char>` over ASCII. `localeCompare` and
the default array sort are lexicographic order on characters
(`Text.LexLe`). `Object.keys` order is the order of first insertion, which
holds for labels that are not integer-like.

Line 291 of FinancialStatements.tsx adds "level ≥ 3 and the label contains
`total`", which the plain `total` pattern already covers, so the stored total
flag ignores the level (`Labels.TotalLabelIgnoresLevel`).

## Model

| member | source | states |
|---|---|---|
| Numbers.FormatAccounting | app/finsight/FinancialStatements.tsx:131-180 | Null gives the dash. A value is shown as its absolute value over the chosen divisor (amount × divisor = abs value), parenthesised exactly when negative. It has two decimals exactly for per-share units and never a unit suffix. |
| Numbers.AccountingSignSymmetric | app/finsight/FinancialStatements.tsx:153-179 | v and −v get the same scale, amount and decimals, and only −v is parenthesised. |
| Numbers.UnitTestsRedundant | app/finsight/FinancialStatements.tsx:135-160 | The per-share test and the DKK/EUR test on the normalized unit (lower- and upper-cased `includes`) are exactly the model's unit predicates. The redundant `share`/`shares` and `=== 'DKK'` clauses add nothing. |
| Numbers.PureFollowsLadder | app/finsight/FinancialStatements.tsx:135-173 | Unit `pure` becomes `%` before any other test, so it is neither per-share nor a millions currency and is scaled by the ordinary ladder. |
| Numbers.ThresholdScaleBounds | app/finsight/FinancialStatements.tsx:163-173 | The ladder leaves a scaled magnitude below 1000 unless it is billions, and at least 1 unless it is unscaled. |
| Numbers.FormatWarehouse | app/finsight/DataWarehouseView.tsx:127-148 | Null gives N/A. Otherwise the signed value is divided by the ladder's divisor for its magnitude, and the unit is always appended, with `pure` shown as `%`. |
| Numbers.FormatPage | app/finsight/page.tsx:158-171 | Null gives N/A. Otherwise the signed value is divided by the ladder's divisor, and the unit is appended unchanged. |
| Numbers.CompactFormattersAgree | app/finsight/page.tsx:158-171 | The page and warehouse formatters agree on every input except unit `pure`, where they differ only in the unit shown. |
| Numbers.FormatQueryValue | app/finsight/NaturalLanguageQuery.tsx:70-84 | Missing gives N/A and a non-number gives its text. A number below 1000 in magnitude is shown plain; any other is a dollar amount with a B/M/K scale whose amount × divisor is the value. |
| Numbers.QueryAgreesWithWarehouse | app/finsight/NaturalLanguageQuery.tsx:74-80 | For magnitudes of at least 1000 the query format picks the same scale and amount as the warehouse format. |
| StatementUnits.CommonUnit | app/finsight/FinancialStatements.tsx:973-980 | The unit is USD when no item has a countable unit (non-empty, not `pure`). Otherwise it is the first unit of maximal frequency, and it is never `pure`. |
| StatementUnits.CommonUnitUnique | app/finsight/FinancialStatements.tsx:976-978 | Any position holding the first most frequent unit yields the same common unit, so the reduce's result is well defined. |
| StatementUnits.UnitScale | app/finsight/FinancialStatements.tsx:110-128 | This is the "(scale unit)" caption drawn under a statement's title. No items gives (millions, USD). Otherwise the unit is the common unit. The scale is millions without a non-zero value, else billions, millions or thousands by the first non-zero value's magnitude. |
| StatementUnits.CaptionMatchesLadder | app/finsight/FinancialStatements.tsx:120-127 | From 1000 upwards the caption's scale is the cell ladder's scale. |
| StatementUnits.DkkCaptionDisagrees | app/finsight/FinancialStatements.tsx:121-122 | One DKK item of 232,261,000,000 gets a "billions" caption while its cell is divided into millions. |
| StatementUnits.FixedCaptionMatchesCells | app/finsight/FinancialStatements.tsx:159-162 | With the corrected caption, every non-per-share cell in a DKK or EUR statement's own unit is in the scale the caption names. |
| Labels.ReplaceLowerUpperIsPositional | app/finsight/FinancialStatements.tsx:195 | The left-to-right rewrite of lower→upper pairs equals inserting a space at every lower→upper boundary of the original. |
| Labels.ReplaceUpperRunIsPositional | app/finsight/FinancialStatements.tsx:196 | The left-to-right rewrite equals inserting a space between the two capitals of every capital-capital-lower triple of the original. |
| Labels.SplitCamel | app/finsight/FinancialStatements.tsx:194-197 | The split concept name is trimmed, and it is empty exactly when the concept name is blank. |
| Labels.StripNetOfTaxNeverEmpties | app/finsight/FinancialStatements.tsx:202-220 | Stripping the net-of-tax prefix never leaves an empty label for a non-blank concept name, so the restore branch at line 215 never runs. |
| Labels.StripHeaderWord | app/finsight/FinancialStatements.tsx:224 | The result is trimmed and contained in the input. Without a whitespace-preceded trailing "Header" it is the trimmed input; with one it is at least 7 characters shorter. |
| Labels.StripHeaderWordKeepsText | app/finsight/FinancialStatements.tsx:224 | A trimmed non-empty label is never emptied by removing "Header", because the word needs whitespace before it. |
| Labels.TitleCase | app/finsight/FinancialStatements.tsx:227-230 | Length is kept. Each character is upper-cased at a word start and lower-cased elsewhere, words being split on single spaces. |
| Labels.TitleCaseIdempotent | app/finsight/FinancialStatements.tsx:227-230 | Title-casing a title-cased label changes nothing. |
| Labels.SnakeToTitle | app/finsight/FinancialStatements.tsx:237-239 | Every underscore becomes a space. Another character is kept or, when lower-case, upper-cased. No word start is left lower-case. |
| Labels.SnakeToTitleIdempotent | app/finsight/FinancialStatements.tsx:237-239 | Applying the snake-case fallback twice equals applying it once. |
| Labels.HumanizeFromConcept | app/finsight/FinancialStatements.tsx:182-240 | Outside the EPS header, a non-blank concept name gives a non-empty title-cased label, and a blank one gives the snake-case fallback of the normalized label. |
| Labels.HumanizeLabel | app/finsight/FinancialStatements.tsx:184-186 | The earnings-per-share header label is always "Earnings per share". |
| Labels.TotalLabelIgnoresLevel | app/finsight/FinancialStatements.tsx:280-291 | The stored total flag holds exactly when the lower-cased label contains "total" or is one of the eight subtotal names; the hierarchy level never matters. The same holds for the render-time test. |
| Labels.TotalLabelIsTotalRow | app/finsight/FinancialStatements.tsx:386-400 | Every label flagged as a total when built is also drawn as a total. |
| Labels.FinalAndSectionTotalsAreTotals | app/finsight/FinancialStatements.tsx:413-423 | Final totals and section totals always pass the total test, so their rules are always reached. |
| Statement.LabelsOf | app/finsight/FinancialStatements.tsx:247-260 | The group keys have no repeats, and a label is a key exactly when some item carries it. |
| Statement.FindInGroup | app/finsight/FinancialStatements.tsx:268 | Finding the year in a label's group is finding the first item with that label and year in the whole item list. |
| Statement.UnitOverYears | app/finsight/FinancialStatements.tsx:266-271 | The node's unit is the first item's unit unless a year's matching item has a unit. Then it is the unit of the last such year in the years list. |
| Statement.YearValues | app/finsight/FinancialStatements.tsx:265-269 | The value map has exactly the displayed years as keys. |
| Statement.NodeOf | app/finsight/FinancialStatements.tsx:260-320 | The node of a label takes each year's value from the first item of that label and year, and its level from the label's first item. Its order index is the first item's, or 999999 when missing. It is a section boundary exactly at level 3 or 4, and a header exactly when the first item is flagged or the first value and every year's value are null. Its caption is the preferred label, else the humanized one, and its total flag is the total test on that caption. |
| StatementTree.TreeLeTotalPreorder | app/finsight/FinancialStatements.tsx:338-351 | The comparator (order index ascending, level descending with null as 0, then label) is a total preorder, so the sort is well defined. |
| Sorting.SortBy | app/finsight/FinancialStatements.tsx:338 | The result is sorted by the comparator and is a permutation of the input. |
| StatementTree.SortForest | app/finsight/FinancialStatements.tsx:337-361 | Every level of the result (the roots and each child list) is sorted. The multisets of top labels and of all labels are kept. |
| StatementTree.SortKeepsKeys | app/finsight/FinancialStatements.tsx:337-363 | Sorting keeps the multiset of all labels in the forest and of its roots. |
| StatementTree.FlattenPreorder | app/finsight/FinancialStatements.tsx:367-376 | The flat list is the earlier siblings' flat lists, then the node, then its descendants, then the later siblings'. So a node precedes all its descendants and siblings keep their order. |
| StatementLink.ChildrenOf | app/finsight/FinancialStatements.tsx:323-334 | A label is listed as a child of p exactly when it is a label whose resolved parent is p, with no repeats. |
| StatementLink.Built | app/finsight/FinancialStatements.tsx:323-334 | The top labels are exactly the roots (labels whose parent is missing or names no present label). The tree links every node to its resolved children. Labels have no repeats and all come from the items. |
| StatementLink.BuiltIsReachable | app/finsight/FinancialStatements.tsx:323-334 | A label appears in the tree exactly when its parent chain reaches a root. |
| StatementLink.CycleHidden | app/finsight/FinancialStatements.tsx:327-329 | A label whose parent chain returns to itself, self-parenting included, never appears. |
| StatementLink.AcyclicAllShown | app/finsight/FinancialStatements.tsx:323-334 | When no parent chain loops, every label appears exactly once. |
| BuildTree.GraphOf | app/finsight/FinancialStatements.tsx:256-334 | The graph's labels are the group keys and each node is that label's node. A label has a parent edge exactly when its first item names a non-empty parent that is present. |
| BuildTree.Build | app/finsight/FinancialStatements.tsx:243-364 | The built forest is sorted at every level, and empty for no items. |
| BuildTree.BuildLinked | app/finsight/FinancialStatements.tsx:323-363 | The sorted forest's roots are the graph's roots, as a multiset, and every child list is the parent's resolved children. |
| BuildTree.BuildShows | app/finsight/FinancialStatements.tsx:243-364 | Labels appear at most once, and a label appears exactly when its parent chain reaches a root. |
| BuildTree.BuildShowsAll | app/finsight/FinancialStatements.tsx:243-364 | Without parent cycles, the shown labels are exactly the distinct labels of the items, once each. |
| RowPolicy.TopRule | app/finsight/FinancialStatements.tsx:425-431 | Only total rows get a top rule. It is the heaviest exactly for a final total at a section boundary, and thin exactly for a non-final total off a boundary. |
| RowPolicy.BottomRule | app/finsight/FinancialStatements.tsx:433-477 | A total row gets a thin bottom rule exactly when it is a section total, else none. A non-total row gets a bottom rule exactly when the next flat entry is a total. |
| RowPolicy.BottomMatchesNextTop | app/finsight/FinancialStatements.tsx:466-475 | The rule under a non-total row is the weight the next row would draw above itself. |
| RowPolicy.SpacingByLevel | app/finsight/FinancialStatements.tsx:481-487 | For nodes built by the tree builder, the spacing is wide exactly at level 4, narrow exactly at level 3, and none off a section boundary. |
| RowPolicy.EmphasisMatchesCells | app/finsight/FinancialStatements.tsx:488-526 | The label cell's style agrees with the year cells. A header row has only blank cells, a header whose label reads as a total included. A total row has only bold figures and a plain row only regular figures. |
| RowPolicy.Cells | app/finsight/FinancialStatements.tsx:513-533 | There is one cell per year. It is blank exactly in header rows. Otherwise it holds the accounting format of that year's value, and is red exactly for a negative value, bold exactly in a total row, and highlighted exactly in the selected year. |
| RowPolicy.RedIffParenthesised | app/finsight/FinancialStatements.tsx:521-530 | A cell is red exactly when its amount is parenthesised. |
| RowPolicy.RowFor | app/finsight/FinancialStatements.tsx:378-510 | The left padding is 16 + 24 × depth, and the label is indented exactly below the roots. |
| RowPolicy.FlaggedTotalIsDrawnTotal | app/finsight/FinancialStatements.tsx:280-291 | A node flagged as a total by the builder is drawn bold with a top rule. |
| RowPolicy.FindOwnPosition | app/finsight/FinancialStatements.tsx:539 | In a flat list without repeated labels, looking a node up by label finds its own position. |
| RowPolicy.FixedRowsFollowFlatList | app/finsight/FinancialStatements.tsx:537-541 | With distinct labels, the corrected walk draws row k for flat entry k, at its depth, looking ahead to flat entry k+1. |
| RowPolicy.FixedRuleBeforeTotal | app/finsight/FinancialStatements.tsx:439-477 | In the corrected walk, a non-total row followed by a total gets a bottom rule matching that total's top rule. |
| RowPolicy.RowsFollowFlatList | app/finsight/FinancialStatements.tsx:925-926 | As written, with distinct labels, there is one row per flat entry, in flat order and at its depth. A row below the roots looks ahead to the next flat entry. A root looks ahead from its position among the roots. |
| RowPolicy.LeafRootsAgree | app/finsight/FinancialStatements.tsx:925-926 | When no root has children, the root index and the flat position coincide, and the as-written walk equals the corrected one. |
| RowPolicy.RootIndexMissesRule | app/finsight/FinancialStatements.tsx:818-819 | For roots Land(Plot), Cash, Total assets, the as-written walk leaves Cash, the last item before the total, without its rule. The corrected walk draws the heaviest rule. |
| StatementEquity.Record | app/finsight/FinancialStatements.tsx:556-578 | A (movement, year, component) cell exists exactly when some item writes it, and holds the last such item's value (null for a header). A (movement, year) pair is recorded exactly when some item has that label and year. |
| StatementEquity.Movements | app/finsight/FinancialStatements.tsx:591-611 | The movements are the distinct item labels, each once, sorted by first item's order index (999999 when missing) and then by label. |
| StatementEquity.MovementOrderUnique | app/finsight/FinancialStatements.tsx:605-611 | Any sorted arrangement of the movement labels is the model's order, so the order is fully determined. |
| StatementEquity.MovementsOrdered | app/finsight/FinancialStatements.tsx:605-611 | Of two movements, the earlier has a smaller order index, or the same index and a strictly smaller label. |
| StatementEquity.ComponentCellIsLastWrite | app/finsight/FinancialStatements.tsx:556-578 | A component cell shows the value of the last item writing it, or null when none does. |
| StatementEquity.TotalIsSumOfComponents | app/finsight/FinancialStatements.tsx:706-714 | Without an explicit total value, the Total cell is the sum of the four component cells (missing as 0), and null exactly when that sum is 0. |
| StatementEquity.ExplicitTotalWins | app/finsight/FinancialStatements.tsx:704-707 | A recorded non-null total is shown as is. |
| StatementEquity.MissingYearIsEmpty | app/finsight/FinancialStatements.tsx:703-707 | For a year the movement has no item in, every cell, the Total included, is null. |
| StatementEquity.EquityTable | app/finsight/FinancialStatements.tsx:547-741 | There is no table for no items. Otherwise there is one row per movement in movement order, with the first item's caption and header flag. Each year has five cells: blank throughout a header row, else the formatted cell values. In every row, header rows included, exactly the selected year's Total cell is highlighted. |
| StatementEquity.OneRowPerMovement | app/finsight/FinancialStatements.tsx:591-611 | A label has a row exactly when some item carries it, and no two rows share a movement. |
| StatementView.StatementBody | app/finsight/FinancialStatements.tsx:743-934 | There is no body for no items. Otherwise there is one row per entry of the flattened built tree, in flat order and at its depth. A row below the roots is ruled against the next flat entry. A root is ruled against the flat entry after its position among the roots. |
| StatementView.StatementBodyFixed | app/finsight/FinancialStatements.tsx:537-541 | With the root lookahead corrected, every row, roots included, is ruled against the next flat entry, as child rows already are. |
| StatementView.BodiesAgreeOnLeafRoots | app/finsight/FinancialStatements.tsx:925-926 | When no root has children, the body as drawn equals the corrected body. |
| StatementView.BodyShowsEachLabelOnce | app/finsight/FinancialStatements.tsx:243-376 | Body rows carry distinct item labels. Without parent cycles, every label of the items has exactly one row. |
| StatementView.SideItems | app/finsight/FinancialStatements.tsx:750-751 | A side keeps exactly the items on that side, with their multiplicities and order. |
| StatementView.BalanceSheet | app/finsight/FinancialStatements.tsx:749-756 | The left body is the statement body of the assets items alone, and the right that of the liabilities-and-equity items alone, each drawn with the root lookahead as written. |
| StatementView.SidesPartition | app/finsight/FinancialStatements.tsx:750-751 | Assets, liabilities-and-equity and off-sheet items split the items exactly, as multisets. |
| StatementView.SideRowsComeFromSide | app/finsight/FinancialStatements.tsx:750-754 | Every row of a side's body is the label of some item on that side. |
| Warehouse.InferStatementType | app/finsight/DataWarehouseView.tsx:387-404 | The empty label is Other and an `instant` period is Balance Sheet. Income Statement needs income words and no balance words; Cash Flow needs cash-flow words and neither of the others; Balance Sheet needs `instant` or balance words; Other has none of the words. |
| Warehouse.CashIsBalanceSheet | app/finsight/DataWarehouseView.tsx:392-395 | Any label containing "cash" is classed as Balance Sheet. |
| Warehouse.CashFlowOnlyByCapex | app/finsight/DataWarehouseView.tsx:400-402 | The Cash Flow type is reached only through "capex", never through "cash_flow" or "cashflow". |
| Warehouse.OperatingCashFlowMisclassed | app/finsight/DataWarehouseView.tsx:387-404 | The metric `operating_cash_flow` is classed as Balance Sheet. |
| Warehouse.FixedAgreesElsewhere | app/finsight/DataWarehouseView.tsx:387-404 | The corrected classifier differs from the code only on labels that name a cash flow. |
| Warehouse.OperatingCashFlowFixed | app/finsight/DataWarehouseView.tsx:400-402 | The corrected classifier classes `operating_cash_flow` as Cash Flow. |
| Warehouse.HumanizeWarehouseShape | app/finsight/DataWarehouseView.tsx:150-154 | No underscore remains, and only case changes apart from underscores. Upper-case letters stay upper-case (nothing is lower-cased), and no word starts with a lower-case letter. |
| Warehouse.HumanizeWarehouseIdempotent | app/finsight/DataWarehouseView.tsx:150-154 | Humanizing twice equals humanizing once. |
| Warehouse.HumanizedIsNeverYear | app/finsight/DataWarehouseView.tsx:188-191 | A humanized metric is never the key `year`, so a chart record's year is never overwritten by a series. |
| Warehouse.CellMap | app/finsight/DataWarehouseView.tsx:407-416 | A (metric, company) cell exists exactly when a row has that pair, and holds the first such row. |
| Warehouse.FirstRowIsFirst | app/finsight/DataWarehouseView.tsx:421 | The row standing for a metric is its first row overall. |
| Warehouse.TypeOrder | app/finsight/DataWarehouseView.tsx:419-427 | The statement types are listed without repeats, and a type is listed exactly when some metric has it. |
| Warehouse.SectionMetrics | app/finsight/DataWarehouseView.tsx:429-432 | A section's metrics are distinct and sorted, and are exactly the metrics of that type. |
| Warehouse.CrossCompany | app/finsight/DataWarehouseView.tsx:434 | There is one section per listed statement type, in order, holding that type's sorted metrics. |
| Warehouse.CashMetricsGroupedAsBalanceSheet | app/finsight/DataWarehouseView.tsx:419-434 | A metric whose name contains "cash", a cash flow included, is grouped in the Balance Sheet section of the comparison and the Balance Sheet block of the listing, and never under Cash Flow. |
| Warehouse.CrossCompanyPartition | app/finsight/DataWarehouseView.tsx:407-434 | Each metric appears in exactly one section, the one of its type, and sections hold nothing else. Sections are non-empty, sorted and repeat-free, and no two share a type. |
| Warehouse.LevelStyle | app/finsight/DataWarehouseView.tsx:461-462 | A row is a total exactly when its level is null or at least 3. The indent is 16 × (4 − level) for every non-zero level below 4, negative levels included (−1 gives 80), and 0 for null, 0 or ≥ 4. |
| Warehouse.LevelStyleOrder | app/finsight/DataWarehouseView.tsx:461-462 | Deeper levels are indented strictly less, and a total is indented no more than 16 while any non-total is indented more. |
| Warehouse.Truncate | app/finsight/DataWarehouseView.tsx:542 | The shown rows are a prefix of at most 100 rows, are all rows exactly when there are at most 100, and exactly 100 otherwise. |
| Warehouse.Listing | app/finsight/DataWarehouseView.tsx:524-561 | There is one block per statement type in order of first row. Each block carries its full row count, the first 100 of its rows in input order, and the "Showing first 100" note exactly when it has more than 100. |
| Warehouse.ListingPartition | app/finsight/DataWarehouseView.tsx:524-561 | Every row lands in the block of its type and no other, with its multiplicity. No two blocks share a type, and a block shows all its rows exactly when it has no note. |
| Warehouse.Entries | app/finsight/DataWarehouseView.tsx:186-191 | The chart entries are exactly the rows with a value and a selected metric, each as (year, humanized metric, value). |
| Warehouse.Merge | app/finsight/DataWarehouseView.tsx:192-200 | The merged records have one record per distinct year in order of first appearance. Each series value is the value of the last entry for that year and series. |
| Warehouse.TimeSeries | app/finsight/DataWarehouseView.tsx:185-201 | The chart data is empty unless exactly one company and at least one metric are selected. Then it is the merge of the charted entries. |
| Warehouse.TimeSeriesYears | app/finsight/DataWarehouseView.tsx:185-201 | Record years have no repeats, and a year has a record exactly when some charted row has that year. |
| Warehouse.TimeSeriesSeries | app/finsight/DataWarehouseView.tsx:185-201 | A record holds series s exactly when some charted row of its year has a metric humanizing to s. |
| Query.Submit | app/finsight/NaturalLanguageQuery.tsx:32-68 | A blank question is ignored. Otherwise the trimmed question is sent. The result loads exactly when the response is ok and its body has no error, and then the result's own type becomes the selected format. |
| Query.FailureMessages | app/finsight/NaturalLanguageQuery.tsx:52-64 | A failure never shows an empty message. A body error is shown as given, and a non-ok response without one shows "API error: status". |
| Query.LoadedShowsOwnType | app/finsight/NaturalLanguageQuery.tsx:61-89 | Right after loading, the displayed format is the result's type. |
| Query.TimeColumn | app/finsight/NaturalLanguageQuery.tsx:131-133 | There is no time column for no columns. Otherwise it is the first time-named column, or the first column when none is time-named. |
| Query.TimeColumnIsFirstTimeNamed | app/finsight/NaturalLanguageQuery.tsx:131-133 | With a time-named column, the time column is time-named and no column before it is. |
| Query.TimeColumnDefaultsToFirst | app/finsight/NaturalLanguageQuery.tsx:133 | Without a time-named column, the time column is the first column. |
| Query.ValueColumns | app/finsight/NaturalLanguageQuery.tsx:136 | A column is a value column exactly when it is a column other than the time column. |
| Query.ValueColumnsCount | app/finsight/NaturalLanguageQuery.tsx:136 | With distinct column names, exactly one column is not a value column. |
| Query.XValue | app/finsight/NaturalLanguageQuery.tsx:142-145 | The chart's x axis never receives a falsy value (missing, 0 or empty text). A value that is not falsy is charted as itself, and a falsy one as N/A. |
| Query.ChartView | app/finsight/NaturalLanguageQuery.tsx:128-190 | The table is drawn when no value column is left. One value column gives a line chart and more than one a bar chart, both over the time column's x values. |
| Query.Render | app/finsight/NaturalLanguageQuery.tsx:86-194 | There is nothing without a result, and "No results" for empty data whatever the format. A number needs one row and one column, a list one column, and a chart the chart or time_series format. Conversely, a non-empty result with one column in the list format is drawn as the list of its cells, and a non-empty result in the chart or time_series format is drawn as its chart view. |
| Query.NumberShapeFallsThrough | app/finsight/NaturalLanguageQuery.tsx:101-193 | With the number format and not exactly one column, the table is drawn. |
| Query.ListShapeFallsThrough | app/finsight/NaturalLanguageQuery.tsx:114-193 | With the list format and not exactly one column, the table is drawn. |
| Query.UnknownFormatIsTable | app/finsight/NaturalLanguageQuery.tsx:192-193 | A non-empty result in a format the view does not know is drawn as the table. |
| Query.NumberViewShowsTheCell | app/finsight/NaturalLanguageQuery.tsx:101-110 | A one-cell result with the number format shows that cell's formatted value under its column name. |
| AnalyzePage.SelectTicker | app/finsight/page.tsx:262-266 | The ticker is always set. The year becomes the first listed year of the first company with that ticker, and is unchanged when no company has it. |
| AnalyzePage.SelectedYearIsListed | app/finsight/page.tsx:264-265 | Picking a company's ticker selects that company's first year. |
| AnalyzePage.SelectTickerIdempotent | app/finsight/page.tsx:262-266 | Picking the same ticker twice equals picking it once. |
| AnalyzePage.LoadCompanies | app/finsight/page.tsx:53-84 | A fetched list clears the error and sets the companies (empty when absent) and the quota. It selects the first company and its first year when there is one, and otherwise keeps the selection. A failure only sets the classified error. |
| AnalyzePage.LoadSelectsAsPicking | app/finsight/page.tsx:69-72 | The initial load selects exactly what picking the first company's ticker would. |
| AnalyzePage.LoadErrorNamesCause | app/finsight/page.tsx:78-82 | A network failure shows the backend-unavailable text, and the analysis catch reads the same message as the backend being down. Any other message is shown inside a text that starts "Connection issue: " and quotes it. |
| AnalyzePage.StatusIsConnectionIssue | app/finsight/page.tsx:57-82 | A non-ok status, 5xx included, is never read as a network failure, so it is shown as a connection issue. |
| AnalyzePage.AnalyzeDisabled | app/finsight/page.tsx:359 | The button is enabled exactly when not loading, and in custom mode only with a non-empty ticker and an available quota. |
| AnalyzePage.PreloadedIgnoresQuota | app/finsight/page.tsx:359 | In preloaded mode only loading disables the button. |
| AnalyzePage.CustomNeedsTickerAndQuota | app/finsight/page.tsx:359 | When idle in custom mode, the button is enabled exactly with a ticker and an available quota. |
| AnalyzePage.CaughtIsStable | app/finsight/page.tsx:147-152 | The catch never shows an empty text. It shows the message itself, the live-analysis backend text or the generic text, and catching the shown text again shows the same thing. |
| AnalyzePage.Analyze | app/finsight/page.tsx:99-156 | The analysis is shown exactly when the response is ok. A thrown error goes through the catch, and so does the not-deployed text of a preloaded 404. Other preloaded failures show the body message or "Failed to fetch data". Custom failures give the quota notice with its counts, the storage notice with its message and contact, or the body message or "Analysis failed". |
| AnalyzePage.NotFoundShownAsIs | app/finsight/page.tsx:109-151 | The not-deployed error of a preloaded 404 is not a fetch failure, so it is shown word for word. |
| AnalyzePage.AnalyzeMessageNonEmpty | app/finsight/page.tsx:119-151 | A failed analysis never shows an empty message. |
| AnalyzePage.QuotaNoticesOnlyInCustom | app/finsight/page.tsx:137-141 | The quota and storage notices appear exactly for a refused custom analysis whose body names them. |

## Left out

- Fetching, `useEffect`/`useState` lifecycles, the loading flags and the elapsed-time counter are left out. Replies are parameters and state is a value.
- JSX markup and class strings are left out. Row styles are modelled as values: rule weights, spacing, emphasis, padding and highlight.
- `toFixed` and `toLocaleString` digit rendering and rounding are left out. Formatters return the divisor choice, the scaled amount, the decimals, the sign wrapper, the suffix and the unit.
- Thrown error messages are taken as given strings; only the status code in the company-list errors is rendered, by `AnalyzePage.Decimal`.
- Number-to-text conversion of `String(value)` for non-numeric query values is left out. Such values are kept as their text.
- `localeCompare` and the default array sort are lexicographic order over characters. There is no locale collation.
- Case mapping and word boundaries (`\b\w`) are ASCII only. There is no Unicode.
- `Object.keys` order is assumed to be first-insertion order. Integer-like labels, which JS lists first, are not modelled.
- Labels, parents, metrics and companies are assumed not to name an `Object.prototype` member such as `constructor`, `toString` or `__proto__`. The code keys plain objects by them (FinancialStatements.tsx:247-256 and 327-329, DataWarehouseView.tsx:384 and 409-414). For such a name the code throws a TypeError, or writes onto the shared prototype. The model instead makes a root or groups the rows normally.
- Sorting.SortBy: states that the result is sorted and a permutation of the input, but not that elements the comparator ties keep their input order, as the stable `Array.prototype.sort` does. Ties under `StatementTree.TreeLe` are nodes with equal order index, level and label text.
- `formatFiscalYearEnd` is left out because it parses a `Date` and uses locale month names.
- AnalyzePage.Analyze: the "Resets on" date of the quota notice is kept as the backend's string, because `toLocaleDateString` is locale-dependent. The quota refresh after a successful custom analysis, and a failure inside it, are not modelled; that is a second request whose reply only replaces the quota.
- A response body that is not JSON makes `res.json()` throw. It is modelled as a thrown reply (`Threw`) with its message.
- CSV and JSON export are left out (DOM downloads and `JSON.stringify` of floats).
- The recharts components and the `crossCompanyData` chart series are left out (chart drawing).
- The expand and collapse state of statement sections is left out (UI state).
- Query.Render: the table itself (`renderTable`) is a single `Table` view with no contents, because it only lays out the result's rows.
- The other pages, proxies and components of the site are not part of this model.

## Findings

| source | as written | input that shows it | evidently intended | confidence | as-written member | corrected member |
|---|---|---|---|---|---|---|
| app/finsight/FinancialStatements.tsx:818-819 | Each root row is rendered with `index` (its position among the roots) as its position in the flat list, so its lookahead reads the wrong entry once an earlier root has children (also at 925-926). | Roots Land (with child Plot), Cash, Total assets. Cash is root 1 but flat entry 2, so it looks ahead to itself and draws no rule above Total assets. | A root's lookahead uses its position in the flattened list, as children already do (line 539). | high (not executed) | RowPolicy.RootIndexMissesRule | RowPolicy.FixedRowsFollowFlatList |
| app/finsight/DataWarehouseView.tsx:392-402 | "cash" is matched in the Balance Sheet clause before the Cash Flow clause, so "cash_flow" and "cashflow" can never reach Cash Flow (also at 510-520). | `operating_cash_flow` is classed as Balance Sheet. | Labels naming a cash flow are classed as Cash Flow. | medium (not executed) | Warehouse.OperatingCashFlowMisclassed | Warehouse.OperatingCashFlowFixed |
| app/finsight/FinancialStatements.tsx:110-127 | The caption scale follows the first non-zero value's magnitude even for DKK and EUR statements, whose cells are always divided into millions (line 159-162). | One DKK item of 232,261,000,000 is captioned "billions DKK" while its cell reads 232,261 (millions). | DKK and EUR statements are captioned in millions, matching their cells. | medium (not executed) | StatementUnits.DkkCaptionDisagrees | StatementUnits.FixedCaptionMatchesCells |

The views are modelled as the code draws them, and each correction is a separate definition:

- `StatementView.StatementBody` and `StatementView.BalanceSheet` use the root index as written. The corrected body is `StatementView.StatementBodyFixed`, drawn by `RowPolicy.RenderStatementFixed`.
- The warehouse groups by `Warehouse.InferStatementType` as written. The corrected classifier is `Warehouse.FixedInferStatementType`.
- The statement caption is `StatementUnits.UnitScale` as written. The corrected caption is `StatementUnits.FixedUnitScale`.

=== FILE: build.dfy ===
/**
 * `buildTree` end to end: the label graph of a list of items, the forest
 * hanging from its roots, and the recursive sort. Sorting reorders every
 * level, so after it each node's children are its linked children up to
 * order.
 */
module BuildTree {
  import opened Wrappers
  import opened Seqs
  import opened Sorting
  import opened Statement
  import opened StatementTree
  import opened StatementLink

  /** The first item of `l` names a parent that is itself one of the labels. */
  predicate HasParent(items: seq<Item>, labels: seq<string>, l: string)
    requires l in LabelsOf(items)
  {
    Truthy(First(items, l).parentLabel) && First(items, l).parentLabel.value in labels
  }

  /** The label graph `buildTree` links: parents from each label's first item, nodes from the first pass. */
  function GraphOf(items: seq<Item>, years: seq<int>): (g: Graph)
    ensures g.labels == LabelsOf(items)
    ensures forall l :: l in g.nodes <==> l in g.labels
    ensures forall l :: l in g.labels ==> g.nodes[l] == NodeOf(items, years, l)
    ensures forall l :: l in g.up <==> l in g.labels && HasParent(items, g.labels, l)
    ensures forall l :: l in g.up ==> Some(g.up[l]) == First(items, l).parentLabel
  {
    var labels := LabelsOf(items);
    var up := map l | l in labels && HasParent(items, labels, l) :: First(items, l).parentLabel.value;
    var nodes := map l | l in labels :: NodeOf(items, years, l);
    assert forall x :: x in up ==> x in labels && up[x] in labels by {
      forall x | x in up ensures x in labels && up[x] in labels {
        assert HasParent(items, labels, x);
      }
    }
    assert forall x :: x in nodes ==> nodes[x].normalizedLabel == x by {
      forall x | x in nodes ensures nodes[x].normalizedLabel == x {
        var n := NodeOf(items, years, x);
        assert n.normalizedLabel == x;
      }
    }
    Graph(labels, up, nodes)
  }

  /** The graph of any item list is well formed. */
  lemma GraphOfWf(items: seq<Item>, years: seq<int>)
    ensures Wf(GraphOf(items, years))
  {
    var g := GraphOf(items, years);
    assert Distinct(g.labels);
    assert (forall x :: x in g.nodes <==> x in g.labels);
    assert (forall x :: x in g.up ==> x in g.nodes && g.up[x] in g.nodes);
    forall x | x in g.nodes ensures g.nodes[x].normalizedLabel == x {
      assert g.nodes[x] == NodeOf(items, years, x);
    }
  }

  /**
   * Like `Linked`, but each node's children are its linked children in any
   * order: what survives sorting.
   */
  ghost predicate LinkedUpTo(g: Graph, ts: seq<Tree>)
    decreases ts, 1
  {
    forall i :: 0 <= i < |ts| ==> LinkedTreeUpTo(g, ts[i])
  }

  ghost predicate LinkedTreeUpTo(g: Graph, t: Tree)
    decreases t, 0
  {
    && Label(t) in g.nodes
    && t.node == g.nodes[Label(t)]
    && multiset(Tops(t.children)) == multiset(ChildrenOf(g, Label(t)))
    && LinkedUpTo(g, t.children)
  }

  lemma {:induction false} LinkedIsLinkedUpTo(g: Graph, ts: seq<Tree>)
    requires Linked(g, ts)
    ensures LinkedUpTo(g, ts)
    decreases ts, 1
  {
    forall i | 0 <= i < |ts| ensures LinkedTreeUpTo(g, ts[i]) {
      LinkedTreeIsLinkedTreeUpTo(g, ts[i]);
    }
  }

  lemma {:induction false} LinkedTreeIsLinkedTreeUpTo(g: Graph, t: Tree)
    requires LinkedTree(g, t)
    ensures LinkedTreeUpTo(g, t)
    decreases t, 0
  {
    LinkedIsLinkedUpTo(g, t.children);
  }

  /** Sorting a forest keeps every node linked to its own children. */
  lemma {:induction false} SortForestLinked(g: Graph, ts: seq<Tree>)
    requires LinkedUpTo(g, ts)
    ensures LinkedUpTo(g, SortForest(ts))
    decreases ts, 1
  {
    SortEachLinked(g, ts);
    var each := SortEach(ts);
    var r := SortForest(ts);
    TreeLeTotalPreorder();
    assert r == SortBy(each, TreeLe);
    forall i | 0 <= i < |r| ensures LinkedTreeUpTo(g, r[i]) {
      assert r[i] in multiset(each);
      var j :| 0 <= j < |each| && each[j] == r[i];
    }
  }

  lemma {:induction false} SortEachLinked(g: Graph, ts: seq<Tree>)
    requires LinkedUpTo(g, ts)
    ensures LinkedUpTo(g, SortEach(ts))
    decreases ts, 0
  {
    if ts != [] {
      SortTreeLinked(g, ts[0]);
      assert LinkedUpTo(g, ts[1..]) by {
        forall i | 0 <= i < |ts[1..]| ensures ts[1..][i] == ts[i + 1] { }
      }
      SortEachLinked(g, ts[1..]);
      var r := SortEach(ts);
      assert r == [SortTree(ts[0])] + SortEach(ts[1..]);
      forall i | 0 <= i < |r| ensures LinkedTreeUpTo(g, r[i]) {
        if i > 0 {
          assert r[i] == SortEach(ts[1..])[i - 1];
        }
      }
    }
  }

  lemma {:induction false} SortTreeLinked(g: Graph, t: Tree)
    requires LinkedTreeUpTo(g, t)
    ensures LinkedTreeUpTo(g, SortTree(t))
    decreases t
  {
    SortForestLinked(g, t.children);
    SortKeepsKeys(t.children);
  }

  /** `buildTree(items)`: the sorted forest of the items' label graph. */
  function Build(items: seq<Item>, years: seq<int>): (ts: seq<Tree>)
    ensures SortedEverywhere(ts)
    ensures items == [] ==> ts == []
  {
    if items == [] then []
    else
      GraphOfWf(items, years);
      SortForest(Built(GraphOf(items, years)))
  }

  /**
   * The built forest is the linked forest reordered: the roots are the
   * labels without an existing parent, each node is the first pass's node
   * of its label, and its children are the labels naming it as parent.
   */
  lemma BuildLinked(items: seq<Item>, years: seq<int>)
    ensures var g := GraphOf(items, years);
            && multiset(Tops(Build(items, years))) == multiset(Roots(g))
            && LinkedUpTo(g, Build(items, years))
  {
    var g := GraphOf(items, years);
    GraphOfWf(items, years);
    if items != [] {
      LinkedIsLinkedUpTo(g, Built(g));
      SortForestLinked(g, Built(g));
      SortKeepsKeys(Built(g));
    } else {
      assert LabelsOf(items) == [];
      assert Roots(g) == [];
    }
  }

  /**
   * Each label is shown at most once, and exactly when its parent chain
   * ends at a label without an existing parent.
   */
  lemma BuildShows(items: seq<Item>, years: seq<int>, l: string)
    ensures Distinct(Keys(Build(items, years)))
    ensures l in Keys(Build(items, years)) <==> Reachable(GraphOf(items, years), l)
  {
    var g := GraphOf(items, years);
    GraphOfWf(items, years);
    if items != [] {
      SortKeepsKeys(Built(g));
      DistinctPermutation(Keys(Built(g)), Keys(Build(items, years)));
      BuiltIsReachable(g, l);
      assert l in multiset(Keys(Build(items, years))) <==> l in multiset(Keys(Built(g)));
    } else {
      assert LabelsOf(items) == [];
    }
  }

  /** When no parent chain loops, every label of the items is shown exactly once. */
  lemma BuildShowsAll(items: seq<Item>, years: seq<int>)
    requires Acyclic(GraphOf(items, years))
    ensures multiset(Keys(Build(items, years))) == multiset(LabelsOf(items))
  {
    var g := GraphOf(items, years);
    GraphOfWf(items, years);
    if items != [] {
      SortKeepsKeys(Built(g));
      AcyclicAllShown(g);
    } else {
      assert LabelsOf(items) == [];
    }
  }
}

=== FILE: equity.dfy ===
/**
 * The statement of changes in equity, drawn as a matrix: one row per
 * movement, and for each displayed year one column per equity component
 * and a Total column. Also the split of the balance sheet into its assets
 * and its equity-and-liabilities sides.
 */
module StatementEquity {
  import opened Wrappers
  import opened Text
  import opened Seqs
  import opened Sorting
  import opened Labels
  import opened Statement
  import opened Numbers

  /** A cell of `movementMap`: movement, year, and component (`None` for the Total). */
  type CellKey = (string, int, Option<string>)

  /** The component an item records: `equity_component || null`, and the Total for a header. */
  function ComponentOf(it: Item): Option<string> {
    if it.isHeader then None
    else if Truthy(it.equityComponent) then Some(it.equityComponent.value)
    else None
  }

  /** The value an item records: nothing for a header. */
  function EntryValue(it: Item): Option<real> {
    if it.isHeader then None else it.value
  }

  function KeyOf(it: Item): CellKey {
    (it.normalizedLabel, it.periodYear, ComponentOf(it))
  }

  /** The last item that writes cell `key`, or -1. */
  function LastWrite(items: seq<Item>, key: CellKey): (k: int)
    ensures -1 <= k < |items|
    ensures k >= 0 ==> KeyOf(items[k]) == key && forall j :: k < j < |items| ==> KeyOf(items[j]) != key
    ensures k == -1 ==> forall j :: 0 <= j < |items| ==> KeyOf(items[j]) != key
    decreases |items|
  {
    if items == [] then -1
    else if KeyOf(items[|items| - 1]) == key then |items| - 1
    else LastWrite(items[..|items| - 1], key)
  }

  /** `movementMap` flattened: the recorded cells, and the (movement, year) pairs that have a component map. */
  datatype Ledger = Ledger(cells: map<CellKey, Option<real>>, years: set<(string, int)>)

  /** The `forEach` filling `movementMap`: each item sets its cell, a later item overwriting an earlier one. */
  function Record(items: seq<Item>): (l: Ledger)
    ensures forall key :: key in l.cells <==> LastWrite(items, key) >= 0
    ensures forall key :: key in l.cells ==> l.cells[key] == EntryValue(items[LastWrite(items, key)])
    ensures forall m, y :: (m, y) in l.years <==>
      exists i :: 0 <= i < |items| && items[i].normalizedLabel == m && items[i].periodYear == y
    decreases |items|
  {
    if items == [] then Ledger(map[], {})
    else
      var init := items[..|items| - 1];
      var it := items[|items| - 1];
      var prev := Record(init);
      var l := Ledger(prev.cells[KeyOf(it) := EntryValue(it)], prev.years + {(it.normalizedLabel, it.periodYear)});
      assert forall m, y :: (m, y) in l.years <==>
        exists i :: 0 <= i < |items| && items[i].normalizedLabel == m && items[i].periodYear == y by {
        forall m, y | (m, y) in prev.years
          ensures exists i :: 0 <= i < |items| && items[i].normalizedLabel == m && items[i].periodYear == y
        {
          var i :| 0 <= i < |init| && init[i].normalizedLabel == m && init[i].periodYear == y;
          assert items[i] == init[i];
        }
        forall m, y, i | 0 <= i < |items| - 1 && items[i].normalizedLabel == m && items[i].periodYear == y
          ensures (m, y) in prev.years
        {
          assert init[i] == items[i];
        }
      }
      l
  }

  /* ---------------- the movements ---------------- */

  /** `itemToUse?.presentation_order_index ?? 999999`, from the first item of the movement. */
  function OrderOf(items: seq<Item>, m: string): int {
    match Find(items, HasLabel(m))
    case None => MissingOrder
    case Some(it) => it.orderIndex.GetOr(MissingOrder)
  }

  /** The movement comparator: order index ascending, then normalized label. */
  function MovementLe(items: seq<Item>): (string, string) -> bool {
    (a: string, b: string) =>
      OrderOf(items, a) < OrderOf(items, b) || (OrderOf(items, a) == OrderOf(items, b) && LexLe(a, b))
  }

  /** The comparator is a total order on labels: no two distinct movements are level. */
  lemma MovementLeOrder(items: seq<Item>)
    ensures TotalPreorder(MovementLe(items)) && Antisymmetric(MovementLe(items))
  {
    var le := MovementLe(items);
    forall a, b ensures le(a, b) || le(b, a) {
      LexLeTotal(a, b);
    }
    forall a, b, c | le(a, b) && le(b, c) ensures le(a, c) {
      if OrderOf(items, a) == OrderOf(items, b) == OrderOf(items, c) {
        LexLeTransitive(a, b, c);
      }
    }
    forall a, b | le(a, b) && le(b, a) ensures a == b {
      LexLeAntisymmetric(a, b);
    }
  }

  /** The movements in display order: every label once, sorted by the comparator. */
  function Movements(items: seq<Item>): (ms: seq<string>)
    ensures multiset(ms) == multiset(LabelsOf(items))
    ensures Distinct(ms)
    ensures SortedBy(ms, MovementLe(items))
  {
    MovementLeOrder(items);
    var ms := SortBy(LabelsOf(items), MovementLe(items));
    DistinctPermutation(LabelsOf(items), ms);
    ms
  }

  /**
   * The display order is determined by the labels alone: any arrangement of
   * the movements that is sorted by the comparator is this one.
   */
  lemma MovementOrderUnique(items: seq<Item>, xs: seq<string>)
    requires multiset(xs) == multiset(LabelsOf(items))
    requires SortedBy(xs, MovementLe(items))
    ensures xs == Movements(items)
  {
    MovementLeOrder(items);
    SortedUnique(xs, Movements(items), MovementLe(items));
  }

  /** Of two movements, the earlier has a smaller order index, or the same and a smaller label. */
  lemma MovementsOrdered(items: seq<Item>, i: int, j: int)
    requires 0 <= i < j < |Movements(items)|
    ensures var ms := Movements(items);
            || OrderOf(items, ms[i]) < OrderOf(items, ms[j])
            || (OrderOf(items, ms[i]) == OrderOf(items, ms[j]) && LexLe(ms[i], ms[j]) && ms[i] != ms[j])
  {
    var ms := Movements(items);
    assert MovementLe(items)(ms[i], ms[j]);
  }

  /* ---------------- the cells ---------------- */

  /** The four components, in column order; the Total column follows them. */
  const ComponentKeys: seq<string> := ["share_capital", "treasury_shares", "retained_earnings", "other_reserves"]

  function Columns(): (cs: seq<Option<string>>)
    ensures |cs| == 5 && cs[4] == None
    ensures forall c :: 0 <= c < 4 ==> cs[c] == Some(ComponentKeys[c])
  {
    [Some(ComponentKeys[0]), Some(ComponentKeys[1]), Some(ComponentKeys[2]), Some(ComponentKeys[3]), None]
  }

  /** `componentMap?.get(key) ?? null` */
  function Lookup(l: Ledger, m: string, y: int, key: Option<string>): Option<real> {
    if (m, y, key) in l.cells then l.cells[(m, y, key)] else None
  }

  /** The sum of the given components of a movement's year, a missing or null one counting 0. */
  function SumOf(l: Ledger, m: string, y: int, ks: seq<string>): real
    decreases |ks|
  {
    if ks == [] then 0.0 else Lookup(l, m, y, Some(ks[0])).GetOr(0.0) + SumOf(l, m, y, ks[1..])
  }

  function ComponentSum(l: Ledger, m: string, y: int): real {
    SumOf(l, m, y, ComponentKeys)
  }

  /**
   * The value of a cell: the recorded one, and for a Total with none
   * recorded, when the movement has entries that year, the sum of the
   * components unless it is zero.
   */
  function CellValue(l: Ledger, m: string, y: int, key: Option<string>): (v: Option<real>)
    ensures key.Some? || Lookup(l, m, y, None).Some? || (m, y) !in l.years ==> v == Lookup(l, m, y, key)
    ensures key.None? && Lookup(l, m, y, None).None? && (m, y) in l.years ==>
      (v.Some? <==> ComponentSum(l, m, y) != 0.0) && (v.Some? ==> v.value == ComponentSum(l, m, y))
  {
    var v := Lookup(l, m, y, key);
    if key.None? && v.None? && (m, y) in l.years then
      var sum := ComponentSum(l, m, y);
      if sum != 0.0 then Some(sum) else None
    else v
  }

  /** A component cell shows the last value written to it, or nothing when none was. */
  lemma ComponentCellIsLastWrite(items: seq<Item>, m: string, y: int, c: string)
    ensures var k := LastWrite(items, (m, y, Some(c)));
            CellValue(Record(items), m, y, Some(c)) == if k >= 0 then EntryValue(items[k]) else None
  {
  }

  /** The four component cells of a movement's year as displayed, an empty one counting 0. */
  function ShownComponents(l: Ledger, m: string, y: int): real {
    CellValue(l, m, y, Some(ComponentKeys[0])).GetOr(0.0) + CellValue(l, m, y, Some(ComponentKeys[1])).GetOr(0.0)
      + CellValue(l, m, y, Some(ComponentKeys[2])).GetOr(0.0) + CellValue(l, m, y, Some(ComponentKeys[3])).GetOr(0.0)
  }

  /**
   * The Total cell of a year with entries but no non-null explicit total is
   * the sum of the four component cells, each as displayed, and is never
   * a zero.
   */
  lemma TotalIsSumOfComponents(items: seq<Item>, m: string, y: int)
    requires exists i :: 0 <= i < |items| && items[i].normalizedLabel == m && items[i].periodYear == y
    requires var k := LastWrite(items, (m, y, None)); k == -1 || EntryValue(items[k]).None?
    ensures CellValue(Record(items), m, y, None).Some? <==> ShownComponents(Record(items), m, y) != 0.0
    ensures CellValue(Record(items), m, y, None).Some? ==>
      CellValue(Record(items), m, y, None).value == ShownComponents(Record(items), m, y)
  {
    TotalFallsBack(items, m, y);
    FallbackIsSum(Record(items), m, y);
  }

  /** The fallback Total of a ledger is the displayed components' sum, and absent when that is zero. */
  lemma FallbackIsSum(l: Ledger, m: string, y: int)
    requires Lookup(l, m, y, None).None? && (m, y) in l.years
    ensures CellValue(l, m, y, None).Some? <==> ShownComponents(l, m, y) != 0.0
    ensures CellValue(l, m, y, None).Some? ==> CellValue(l, m, y, None).value == ShownComponents(l, m, y)
  {
    ComponentSumOfFour(l, m, y);
  }

  /** Under those conditions the Total has no recorded value and the year has entries. */
  lemma TotalFallsBack(items: seq<Item>, m: string, y: int)
    requires exists i :: 0 <= i < |items| && items[i].normalizedLabel == m && items[i].periodYear == y
    requires var k := LastWrite(items, (m, y, None)); k == -1 || EntryValue(items[k]).None?
    ensures Lookup(Record(items), m, y, None).None? && (m, y) in Record(items).years
  {
  }

  lemma ComponentSumOfFour(l: Ledger, m: string, y: int)
    ensures ComponentSum(l, m, y)
         == Lookup(l, m, y, Some(ComponentKeys[0])).GetOr(0.0) + Lookup(l, m, y, Some(ComponentKeys[1])).GetOr(0.0)
          + Lookup(l, m, y, Some(ComponentKeys[2])).GetOr(0.0) + Lookup(l, m, y, Some(ComponentKeys[3])).GetOr(0.0)
  {
    var ks := ComponentKeys;
    assert ks[1..] == ["treasury_shares", "retained_earnings", "other_reserves"];
    assert ks[1..][1..] == ["retained_earnings", "other_reserves"];
    assert ks[1..][1..][1..] == ["other_reserves"];
    assert ks[1..][1..][1..][1..] == [];
  }

  /** An explicit non-null Total is shown as recorded, whatever the components. */
  lemma ExplicitTotalWins(items: seq<Item>, m: string, y: int)
    requires var k := LastWrite(items, (m, y, None)); k >= 0 && EntryValue(items[k]).Some?
    ensures CellValue(Record(items), m, y, None) == EntryValue(items[LastWrite(items, (m, y, None))])
  {
  }

  /** A year in which the movement has no entry shows nothing in any column. */
  lemma MissingYearIsEmpty(items: seq<Item>, m: string, y: int, key: Option<string>)
    requires forall i :: 0 <= i < |items| ==> items[i].normalizedLabel != m || items[i].periodYear != y
    ensures CellValue(Record(items), m, y, key) == None
  {
    assert (m, y) !in Record(items).years;
    assert (m, y, key) !in Record(items).cells;
  }

  /* ---------------- the matrix ---------------- */

  /**
   * A cell of the matrix: blank in a header row, otherwise the formatted
   * value; either way whether it is highlighted.
   */
  datatype EquityCell = Blank(highlight: bool) | Amount(shown: Accounting, highlight: bool)

  /** A movement row: its label, caption, header flag, and for each year the five column cells. */
  datatype EquityRow = EquityRow(movement: string, caption: string, isHeader: bool, cells: seq<seq<EquityCell>>)

  /** The caption and header flag of a movement, from its first item. */
  function MovementCaption(items: seq<Item>, m: string): string
    requires m in LabelsOf(items)
  {
    var first := First(items, m);
    if Truthy(first.preferredLabel) then first.preferredLabel.value else HumanizeLabel(m, first.conceptName)
  }

  /**
   * The five cells of a year: blank throughout a header row, and only the
   * selected year's Total highlighted, in header rows too.
   */
  function YearCells(l: Ledger, m: string, isHeader: bool, y: int, selected: int, unit: string): (cs: seq<EquityCell>)
    ensures |cs| == 5
    ensures forall c :: 0 <= c < 5 ==> (cs[c].Blank? <==> isHeader)
    ensures forall c :: 0 <= c < 5 ==> (cs[c].highlight <==> y == selected && c == 4)
    ensures forall c :: 0 <= c < 5 && !isHeader ==>
      cs[c].shown == FormatAccounting(CellValue(l, m, y, Columns()[c]), unit)
  {
    seq(5, c requires 0 <= c < 5 =>
      var highlight := y == selected && Columns()[c].None?;
      if isHeader then Blank(highlight)
      else Amount(FormatAccounting(CellValue(l, m, y, Columns()[c]), unit), highlight))
  }

  lemma MovementsAreLabels(items: seq<Item>)
    ensures forall m :: m in Movements(items) <==> m in LabelsOf(items)
  {
    forall m ensures m in Movements(items) <==> m in LabelsOf(items) {
      assert m in Movements(items) <==> m in multiset(Movements(items));
      assert m in LabelsOf(items) <==> m in multiset(LabelsOf(items));
    }
  }

  /** `renderEquityStatement`: nothing for no items, else one row per movement in display order. */
  function EquityTable(items: seq<Item>, years: seq<int>, selected: int, unit: string): (r: Option<seq<EquityRow>>)
    ensures r.None? <==> items == []
    ensures r.Some? ==> |r.value| == |Movements(items)|
    ensures r.Some? ==> forall i :: 0 <= i < |r.value| ==>
      && r.value[i].movement == Movements(items)[i]
      && r.value[i].movement in LabelsOf(items)
      && r.value[i].isHeader == First(items, r.value[i].movement).isHeader
      && r.value[i].caption == MovementCaption(items, r.value[i].movement)
      && |r.value[i].cells| == |years|
      && forall j :: 0 <= j < |years| ==>
           r.value[i].cells[j] == YearCells(Record(items), r.value[i].movement, r.value[i].isHeader, years[j], selected, unit)
  {
    if items == [] then None
    else
      var l := Record(items);
      var ms := Movements(items);
      MovementsAreLabels(items);
      Some(seq(|ms|, i requires 0 <= i < |ms| =>
        var header := First(items, ms[i]).isHeader;
        EquityRow(ms[i], MovementCaption(items, ms[i]), header,
          seq(|years|, j requires 0 <= j < |years| => YearCells(l, ms[i], header, years[j], selected, unit)))))
  }

  /** Each label of the items has exactly one row. */
  lemma OneRowPerMovement(items: seq<Item>, years: seq<int>, selected: int, unit: string, m: string)
    requires items != []
    ensures var rows := EquityTable(items, years, selected, unit).value;
            (exists i :: 0 <= i < |items| && items[i].normalizedLabel == m)
            <==> exists r :: 0 <= r < |rows| && rows[r].movement == m
    ensures var rows := EquityTable(items, years, selected, unit).value;
            forall r, s :: 0 <= r < s < |rows| ==> rows[r].movement != rows[s].movement
  {
    var rows := EquityTable(items, years, selected, unit).value;
    var ms := Movements(items);
    MovementsAreLabels(items);
    if m in ms {
      var r :| 0 <= r < |ms| && ms[r] == m;
      assert rows[r].movement == m;
    }
    forall r | 0 <= r < |rows| ensures rows[r].movement == ms[r] { }
  }
}

=== FILE: labels.dfy ===
/**
 * Display labels of the statement rows: turning an XBRL concept name such as
 * `GainsLossesOnCashFlowHedgesBeforeTax` into "Gains Losses On Cash Flow
 * Hedges Before Tax", the snake-case fallback for a normalized label, and
 * the label patterns that mark a row as a total.
 */
module Labels {
  import opened Text
  import opened Seqs
  import opened Wrappers

  /* ---------------- splitting camel case ---------------- */

  /**
   * `s.replace(/([a-z])([A-Z])/g, '$1 $2')`: the scan consumes both letters
   * of a match, so it resumes after the upper-case letter.
   */
  function ReplaceLowerUpper(s: string): (r: string)
    ensures forall x :: x in s ==> x in r
    ensures forall x :: x in r ==> x in s || x == ' '
    decreases |s|
  {
    if |s| == 0 then []
    else if |s| >= 2 && IsLower(s[0]) && IsUpper(s[1]) then
      var rest := ReplaceLowerUpper(s[2..]);
      assert s == [s[0], s[1]] + s[2..];
      [s[0], ' ', s[1]] + rest
    else
      var rest := ReplaceLowerUpper(s[1..]);
      assert s == [s[0]] + s[1..];
      [s[0]] + rest
  }

  /** Position by position: a space after each lower-case letter that an upper-case letter follows. */
  function SpacedLowerUpper(s: string): string
    decreases |s|
  {
    if |s| == 0 then []
    else [s[0]] + (if |s| >= 2 && IsLower(s[0]) && IsUpper(s[1]) then " " else "") + SpacedLowerUpper(s[1..])
  }

  /** The consuming scan misses no boundary: it agrees with the position-wise rule. */
  lemma {:induction false} ReplaceLowerUpperIsPositional(s: string)
    ensures ReplaceLowerUpper(s) == SpacedLowerUpper(s)
    decreases |s|
  {
    if |s| >= 2 && IsLower(s[0]) && IsUpper(s[1]) {
      var tail := s[2..];
      ReplaceLowerUpperIsPositional(tail);
      assert s[1..][1..] == tail;
      assert !IsLower(s[1]);
      assert SpacedLowerUpper(s[1..]) == [s[1]] + SpacedLowerUpper(tail);
      assert SpacedLowerUpper(s) == [s[0]] + " " + SpacedLowerUpper(s[1..]);
      assert ReplaceLowerUpper(s) == [s[0], ' ', s[1]] + ReplaceLowerUpper(tail);
    } else if |s| > 0 {
      ReplaceLowerUpperIsPositional(s[1..]);
      assert SpacedLowerUpper(s) == [s[0]] + SpacedLowerUpper(s[1..]);
      assert ReplaceLowerUpper(s) == [s[0]] + ReplaceLowerUpper(s[1..]);
    }
  }

  /**
   * `s.replace(/([A-Z])([A-Z][a-z])/g, '$1 $2')`: the scan consumes three
   * characters per match and resumes after the lower-case letter.
   */
  function ReplaceUpperRun(s: string): (r: string)
    ensures forall x :: x in s ==> x in r
    ensures forall x :: x in r ==> x in s || x == ' '
    decreases |s|
  {
    if |s| == 0 then []
    else if |s| >= 3 && IsUpper(s[0]) && IsUpper(s[1]) && IsLower(s[2]) then
      var rest := ReplaceUpperRun(s[3..]);
      assert s == [s[0], s[1], s[2]] + s[3..];
      [s[0], ' ', s[1], s[2]] + rest
    else
      var rest := ReplaceUpperRun(s[1..]);
      assert s == [s[0]] + s[1..];
      [s[0]] + rest
  }

  /** Position by position: a space between the last two capitals of a run that a lower-case letter ends. */
  function SpacedUpperRun(s: string): string
    decreases |s|
  {
    if |s| == 0 then []
    else [s[0]] + (if |s| >= 3 && IsUpper(s[0]) && IsUpper(s[1]) && IsLower(s[2]) then " " else "") + SpacedUpperRun(s[1..])
  }

  lemma {:induction false} ReplaceUpperRunIsPositional(s: string)
    ensures ReplaceUpperRun(s) == SpacedUpperRun(s)
    decreases |s|
  {
    if |s| >= 3 && IsUpper(s[0]) && IsUpper(s[1]) && IsLower(s[2]) {
      ReplaceUpperRunIsPositional(s[3..]);
      assert s[1..][1..] == s[2..];
      assert s[2..][1..] == s[3..];
      assert SpacedUpperRun(s[2..]) == [s[2]] + SpacedUpperRun(s[3..]);
      assert SpacedUpperRun(s[1..]) == [s[1]] + SpacedUpperRun(s[2..]);
    } else if |s| > 0 {
      ReplaceUpperRunIsPositional(s[1..]);
    }
  }

  /** A string that keeps every character of a non-blank string is not blank. */
  lemma KeepsNonBlank(s: string, r: string)
    requires !IsBlank(s)
    requires forall x :: x in s ==> x in r
    ensures !IsBlank(r)
  {
    var i :| 0 <= i < |s| && !IsSpace(s[i]);
    assert s[i] in s;
    var j :| 0 <= j < |r| && r[j] == s[i];
  }

  predicate Trimmed(s: string) {
    s == [] || (!IsSpace(s[0]) && !IsSpace(s[|s| - 1]))
  }

  /** The two camel-case substitutions followed by `trim()`. */
  function SplitCamel(c: string): (r: string)
    ensures Trimmed(r)
    ensures r == [] <==> IsBlank(c)
  {
    var spaced := ReplaceUpperRun(ReplaceLowerUpper(c));
    assert Trim(spaced) == [] <==> IsBlank(c) by {
      TrimEmptyIffBlank(spaced);
      if IsBlank(c) {
        forall i | 0 <= i < |spaced| ensures IsSpace(spaced[i]) {
          assert spaced[i] in spaced;
          assert spaced[i] in c || spaced[i] == ' ';
        }
      } else {
        KeepsNonBlank(c, spaced);
      }
    }
    Trim(spaced)
  }

  /* ---------------- the redundant comprehensive-income prefix ---------------- */

  const NetOfTaxPrefix: string := "Other Comprehensive Income Net Of Tax"

  /**
   * The loop over the two redundant prefixes (with and without a trailing
   * space): the first that the label starts with and is strictly longer
   * than is cut off and the rest trimmed.
   */
  function StripNetOfTax(h: string): string {
    var spaced := NetOfTaxPrefix + " ";
    if StartsWith(h, spaced) && |h| > |spaced| then Trim(h[|spaced|..])
    else if StartsWith(h, NetOfTaxPrefix) && |h| > |NetOfTaxPrefix| then Trim(h[|NetOfTaxPrefix|..])
    else h
  }

  /** A leading space makes no difference to `trim()`. */
  lemma TrimDropsLeadingSpace(x: string)
    ensures Trim(" " + x) == Trim(x)
  {
    assert (" " + x)[1..] == x;
  }

  /**
   * The two prefixes act as one: the label loses the bare prefix exactly when
   * it is strictly longer than it, and the bare name itself is kept.
   */
  lemma StripNetOfTaxAsOnePrefix(h: string)
    ensures StripNetOfTax(h)
      == if StartsWith(h, NetOfTaxPrefix) && |h| > |NetOfTaxPrefix| then Trim(h[|NetOfTaxPrefix|..]) else h
  {
    var spaced := NetOfTaxPrefix + " ";
    var n := |NetOfTaxPrefix|;
    if StartsWith(h, spaced) && |h| > |spaced| {
      assert h[..n] == h[..|spaced|][..n];
      assert h[n..] == " " + h[|spaced|..] by {
        assert h[n] == spaced[n];
      }
      TrimDropsLeadingSpace(h[|spaced|..]);
    }
  }

  /**
   * After the camel-case split of a non-blank concept name the prefix cut
   * never leaves an empty label, so the code that restores the unstripped
   * label is never reached.
   */
  lemma StripNetOfTaxNeverEmpties(c: string)
    requires !IsBlank(c)
    ensures StripNetOfTax(SplitCamel(c)) != []
  {
    var h := SplitCamel(c);
    StripNetOfTaxAsOnePrefix(h);
    var n := |NetOfTaxPrefix|;
    if StartsWith(h, NetOfTaxPrefix) && |h| > n {
      var tail := h[n..];
      assert tail[|tail| - 1] == h[|h| - 1];
      TrimEmptyIffBlank(tail);
    }
  }

  /* ---------------- the trailing "Header" word ---------------- */

  /** The label ends, before any trailing whitespace, in whitespace followed by `Header` or `header`. */
  predicate HasHeaderWord(h: string) {
    var t := TrimEnd(h);
    |t| >= 7 && (t[|t| - 6..] == "Header" || t[|t| - 6..] == "header") && IsSpace(t[|t| - 7])
  }

  /**
   * `h.replace(/\s+[Hh]eader\s*$/, '').trim()`. The match runs from the
   * start of the whitespace before the word to the end of the string, and
   * that whitespace is trimmed away anyway, so the result is the text
   * before the word, trimmed.
   */
  function StripHeaderWord(h: string): (r: string)
    ensures Trimmed(r)
    ensures Contains(h, r)
    ensures !HasHeaderWord(h) ==> r == Trim(h)
    ensures HasHeaderWord(h) ==> |r| + 7 <= |h|
  {
    var x := HeaderCut(h);
    var r := Trim(x);
    TrimContained(x);
    ContainsInPrefix(h, |x|, r);
    r
  }

  /** The text before the header word and the whitespace ahead of it, or all of `h` without the word. */
  function HeaderCut(h: string): (x: string)
    ensures |x| <= |h| && x == h[..|x|]
    ensures !HasHeaderWord(h) ==> x == h
    ensures HasHeaderWord(h) ==> |x| + 6 <= |h| && x != [] && IsSpace(x[|x| - 1])
  {
    if HasHeaderWord(h) then
      var t := TrimEnd(h);
      t[..|t| - 6]
    else h
  }

  /** Stripping the header word from a non-empty trimmed text leaves some text. */
  lemma StripHeaderWordKeepsText(h: string)
    requires Trimmed(h) && h != []
    ensures StripHeaderWord(h) != []
  {
    var x := HeaderCut(h);
    if HasHeaderWord(h) {
      assert x[0] == h[0];
      TrimEmptyIffBlank(x);
    } else {
      TrimOfTrimmed(h);
    }
  }

  /* ---------------- title case ---------------- */

  /** `word.charAt(0).toUpperCase() + word.slice(1).toLowerCase()` */
  function TitleWord(w: string): (r: string)
    ensures |r| == |w|
    ensures forall i :: 0 < i < |w| ==> r[i] == LowerChar(w[i])
    ensures |w| > 0 ==> r[0] == UpperChar(w[0])
  {
    if w == [] then [] else [UpperChar(w[0])] + Lower(w[1..])
  }

  /** The title-cased form of the character at index `i`: raised at a word start, lowered elsewhere. */
  function TitleAt(s: string, i: int): char
    requires 0 <= i < |s|
  {
    if i == 0 || s[i - 1] == ' ' then UpperChar(s[i]) else LowerChar(s[i])
  }

  /**
   * `s.split(' ').map(TitleWord).join(' ')`: the first word up to the first
   * space, then the title case of what follows that space.
   */
  function TitleCase(s: string): (r: string)
    ensures |r| == |s|
    ensures forall i :: 0 <= i < |s| ==> r[i] == TitleAt(s, i)
    decreases |s|
  {
    var k := FindIndex(s, c => c == ' ');
    if k < 0 then TitleWord(s)
    else
      var word := TitleWord(s[..k]);
      var rest := TitleCase(s[k + 1..]);
      TitleCaseStep(s, k, word, rest);
      word + " " + rest
  }

  /** The first word title-cased, the space, and the title case of the rest give the title case position by position. */
  lemma TitleCaseStep(s: string, k: nat, word: string, rest: string)
    requires k < |s| && s[k] == ' ' && forall j :: 0 <= j < k ==> s[j] != ' '
    requires word == TitleWord(s[..k])
    requires |rest| == |s| - k - 1 && forall j :: 0 <= j < |rest| ==> rest[j] == TitleAt(s[k + 1..], j)
    ensures |word + " " + rest| == |s|
    ensures forall i :: 0 <= i < |s| ==> (word + " " + rest)[i] == TitleAt(s, i)
  {
    var r := word + " " + rest;
    forall i | 0 <= i < |s| ensures r[i] == TitleAt(s, i) {
      if i < k {
        assert r[i] == word[i];
      } else if i > k {
        assert r[i] == rest[i - k - 1];
        assert s[k + 1..][i - k - 1] == s[i];
        if i > k + 1 {
          assert s[k + 1..][i - k - 2] == s[i - 1];
        }
      }
    }
  }

  lemma UpperLowerFacts(c: char)
    ensures UpperChar(c) == ' ' <==> c == ' '
    ensures LowerChar(c) == ' ' <==> c == ' '
    ensures UpperChar(UpperChar(c)) == UpperChar(c)
    ensures LowerChar(LowerChar(c)) == LowerChar(c)
    ensures UpperChar(LowerChar(c)) == UpperChar(c)
    ensures LowerChar(UpperChar(c)) == LowerChar(c)
  {
  }

  /** Title-casing a title-cased label changes nothing. */
  lemma TitleCaseIdempotent(s: string)
    ensures TitleCase(TitleCase(s)) == TitleCase(s)
  {
    var r := TitleCase(s);
    var rr := TitleCase(r);
    forall i | 0 <= i < |s| ensures rr[i] == r[i] {
      assert rr[i] == TitleAt(r, i);
      assert r[i] == TitleAt(s, i);
      UpperLowerFacts(s[i]);
      if i > 0 {
        assert r[i - 1] == TitleAt(s, i - 1);
        UpperLowerFacts(s[i - 1]);
        assert r[i - 1] == ' ' <==> s[i - 1] == ' ';
      }
    }
  }

  /* ---------------- the snake-case fallback ---------------- */

  /** `label.replace(/_/g, ' ')` */
  function Unsnake(snake: string): (r: string)
    ensures |r| == |snake| && '_' !in r
  {
    seq(|snake|, i requires 0 <= i < |snake| => if snake[i] == '_' then ' ' else snake[i])
  }

  /** Index `i` of `s` starts a word in the sense of `\b\w`. */
  predicate WordStart(s: string, i: int)
    requires 0 <= i < |s|
  {
    IsWordChar(s[i]) && (i == 0 || !IsWordChar(s[i - 1]))
  }

  /** `s.replace(/\b\w/g, l => l.toUpperCase())` */
  function CapitalizeWordStarts(s: string): (r: string)
    ensures |r| == |s|
  {
    seq(|s|, i requires 0 <= i < |s| => if WordStart(s, i) then UpperChar(s[i]) else s[i])
  }

  /**
   * The fallback label built from the snake-case normalized label. It only
   * turns underscores into spaces and raises word-initial letters: nothing
   * else changes, nothing is lowered, and no word starts in lower case.
   */
  function SnakeToTitle(snake: string): (r: string)
    ensures |r| == |snake| && '_' !in r
    ensures forall i :: 0 <= i < |snake| ==>
      if snake[i] == '_' then r[i] == ' '
      else r[i] == snake[i] || (IsLower(snake[i]) && r[i] == UpperChar(snake[i]))
    ensures forall i :: 0 <= i < |r| && WordStart(r, i) ==> !IsLower(r[i])
  {
    var u := Unsnake(snake);
    var r := CapitalizeWordStarts(u);
    assert forall i :: 0 <= i < |r| && WordStart(r, i) ==> !IsLower(r[i]) by {
      forall i | 0 <= i < |r| && WordStart(r, i) ensures !IsLower(r[i]) {
        assert IsWordChar(r[i]) <==> IsWordChar(u[i]);
        if i > 0 {
          assert IsWordChar(r[i - 1]) <==> IsWordChar(u[i - 1]);
        }
      }
    }
    r
  }

  /** Applying the fallback to its own output changes nothing. */
  lemma SnakeToTitleIdempotent(snake: string)
    ensures SnakeToTitle(SnakeToTitle(snake)) == SnakeToTitle(snake)
  {
    var r := SnakeToTitle(snake);
    assert Unsnake(r) == r;
    var rr := SnakeToTitle(r);
    forall i | 0 <= i < |r| ensures rr[i] == r[i] {
      if WordStart(r, i) {
        assert !IsLower(r[i]);
      }
    }
  }

  /* ---------------- humanizeLabel ---------------- */

  const EpsHeaderLabel: string := "earnings_per_share_header"

  /**
   * The display label of a row without a preferred label: a fixed text for
   * the earnings-per-share header, the title-cased split of a non-blank
   * concept name, or else the snake-case fallback.
   */
  function HumanizeLabel(normalizedLabel: string, conceptName: string): (r: string)
    ensures normalizedLabel == EpsHeaderLabel ==> r == "Earnings per share"
  {
    if normalizedLabel == EpsHeaderLabel then "Earnings per share"
    else if !IsBlank(conceptName) then ConceptLabel(conceptName)
    else SnakeToTitle(normalizedLabel)
  }

  /** The label made from a concept name: split, stripped of its tax and header words, title-cased. */
  function ConceptLabel(conceptName: string): string {
    var split := SplitCamel(conceptName);
    var stripped := StripNetOfTax(split);
    var restored := if stripped == [] then split else stripped;
    TitleCase(StripHeaderWord(restored))
  }

  /**
   * A non-blank concept name always yields a non-empty label in title case,
   * and a blank one falls back to the normalized label.
   */
  lemma {:induction false} HumanizeFromConcept(normalizedLabel: string, conceptName: string)
    requires normalizedLabel != EpsHeaderLabel
    ensures !IsBlank(conceptName) ==>
      var r := HumanizeLabel(normalizedLabel, conceptName);
      r != [] && TitleCase(r) == r
    ensures IsBlank(conceptName) ==> HumanizeLabel(normalizedLabel, conceptName) == SnakeToTitle(normalizedLabel)
  {
    if !IsBlank(conceptName) {
      ConceptLabelIsTitled(conceptName);
    }
  }

  /** The label made from a non-blank concept name is non-empty and already in title case. */
  lemma ConceptLabelIsTitled(conceptName: string)
    requires !IsBlank(conceptName)
    ensures ConceptLabel(conceptName) != [] && TitleCase(ConceptLabel(conceptName)) == ConceptLabel(conceptName)
  {
    var split := SplitCamel(conceptName);
    var stripped := StripNetOfTax(split);
    StripNetOfTaxNeverEmpties(conceptName);
    assert Trimmed(stripped) by {
      StripNetOfTaxAsOnePrefix(split);
    }
    var cut := StripHeaderWord(stripped);
    StripHeaderWordKeepsText(stripped);
    TitleCaseIdempotent(cut);
  }

  /* ---------------- total patterns ---------------- */

  /** The subtotal captions recognised by their whole (lower-cased) text. */
  const SubtotalNames: seq<string> := [
    "gross profit", "operating profit", "operating income", "profit before income taxes",
    "income before tax", "net profit", "net income", "other comprehensive income"
  ]

  /** The cash-flow captions recognised as totals when rendering. */
  const CashFlowTotals: seq<string> := [
    "net cash flows from operating activities", "net cash flows from investing activities",
    "net cash flows from financing activities", "net increase decrease in cash and cash equivalents"
  ]

  /** The total flag stored on a tree node, from the lower-cased label and the hierarchy level. */
  predicate IsTotalLabel(lower: string, level: Option<int>) {
    || Contains(lower, "total")
    || Contains(lower, "subtotal")
    || lower in SubtotalNames
    || (level.Some? && level.value >= 3 && Contains(lower, "total"))
  }

  /** The total test of a rendered row: the node's test plus the cash-flow captions. */
  predicate IsTotalRowLabel(lower: string, level: Option<int>) {
    || Contains(lower, "total")
    || Contains(lower, "subtotal")
    || lower in SubtotalNames
    || (exists k | 0 <= k < |CashFlowTotals| :: Contains(lower, CashFlowTotals[k]))
    || (level.Some? && level.value >= 3 && Contains(lower, "total"))
  }

  /** A statement's closing total, drawn with the heaviest rule. */
  predicate IsFinalTotal(lower: string) {
    || Contains(lower, "total comprehensive income")
    || lower == "total assets"
    || lower == "total equity and liabilities"
    || lower == "total liabilities"
    || Contains(lower, "net increase decrease in cash and cash equivalents")
  }

  /** The balance-sheet section totals that get a rule below them. */
  predicate IsSectionTotal(lower: string) {
    lower in ["total non-current assets", "total current assets", "total non-current liabilities", "total current liabilities"]
  }

  /**
   * Neither the hierarchy level nor the word "subtotal" ever decides the
   * total flag: both clauses are covered by the plain "total" test.
   */
  lemma TotalLabelIgnoresLevel(lower: string, level: Option<int>)
    ensures IsTotalLabel(lower, level) <==> Contains(lower, "total") || lower in SubtotalNames
    ensures IsTotalRowLabel(lower, level) <==> IsTotalRowLabel(lower, None)
  {
    if Contains(lower, "subtotal") {
      assert OccursAt("subtotal", "total", 3);
      ContainsPart(lower, "subtotal", "total", 3);
    }
  }

  /** A row whose node is flagged total is also drawn as a total. */
  lemma TotalLabelIsTotalRow(lower: string, level: Option<int>)
    ensures IsTotalLabel(lower, level) ==> IsTotalRowLabel(lower, level)
  {
  }

  /** Every final total and every section total is drawn as a total. */
  lemma FinalAndSectionTotalsAreTotals(lower: string, level: Option<int>)
    ensures IsFinalTotal(lower) ==> IsTotalRowLabel(lower, level)
    ensures IsSectionTotal(lower) ==> IsTotalRowLabel(lower, level)
  {
    if Contains(lower, "total comprehensive income") {
      assert OccursAt("total comprehensive income", "total", 0);
      ContainsPart(lower, "total comprehensive income", "total", 0);
    }
    if Contains(lower, "net increase decrease in cash and cash equivalents") {
      assert Contains(lower, CashFlowTotals[3]);
    }
    if lower in ["total assets", "total equity and liabilities", "total liabilities"] || IsSectionTotal(lower) {
      assert OccursAt(lower, "total", 0);
    }
  }
}

=== FILE: link.dfy ===
/**
 * The second pass of `buildTree`: every label whose first item names an
 * existing parent is pushed onto that parent's children, every other label
 * becomes a root, and the forest shown is what hangs from the roots.
 *
 * The JavaScript builds a graph of shared node objects; the model unfolds
 * it from the roots, threading the set of labels not yet placed so that the
 * unfolding terminates. The lemmas below show the threading never drops a
 * child: each placed node's children are exactly the labels that name it
 * as parent, and a label is placed exactly when its parent chain ends at a
 * root.
 */
module StatementLink {
  import opened Wrappers
  import opened Seqs
  import opened Statement
  import opened StatementTree

  /**
   * The label graph of one statement: the labels in first-appearance order,
   * the parent of each label that has an existing one, and each label's node.
   */
  datatype Graph = Graph(labels: seq<string>, up: map<string, string>, nodes: map<string, Node>)

  ghost predicate Wf(g: Graph) {
    && Distinct(g.labels)
    && (forall x :: x in g.nodes <==> x in g.labels)
    && (forall x :: x in g.up ==> x in g.nodes && g.up[x] in g.nodes)
    && (forall x :: x in g.nodes ==> g.nodes[x].normalizedLabel == x)
  }

  function IsChildOf(up: map<string, string>, p: string): string -> bool {
    (x: string) => x in up && up[x] == p
  }

  function IsRoot(up: map<string, string>): string -> bool {
    (x: string) => x !in up
  }

  /** The children array of parent `p` before sorting: its children in label order. */
  function ChildrenOf(g: Graph, p: string): (r: seq<string>)
    ensures forall x :: x in r <==> x in g.labels && x in g.up && g.up[x] == p
    ensures Distinct(g.labels) ==> Distinct(r)
  {
    var r := Filter(g.labels, IsChildOf(g.up, p));
    assert forall x :: x in r <==> x in g.labels && x in g.up && g.up[x] == p by {
      forall x ensures x in r <==> x in g.labels && IsChildOf(g.up, p)(x) {
        FilterMembership(g.labels, IsChildOf(g.up, p), x);
      }
    }
    r
  }

  /** `rootNodes` before sorting: the labels without an existing parent, in label order. */
  function Roots(g: Graph): (r: seq<string>)
    ensures forall x :: x in r <==> x in g.labels && x !in g.up
    ensures Distinct(g.labels) ==> Distinct(r)
  {
    var r := Filter(g.labels, IsRoot(g.up));
    assert forall x :: x in r <==> x in g.labels && x !in g.up by {
      forall x ensures x in r <==> x in g.labels && IsRoot(g.up)(x) {
        FilterMembership(g.labels, IsRoot(g.up), x);
      }
    }
    r
  }

  /**
   * `ts` is a placement of the labels `ls` from `avail`, leaving `left`:
   * the placed labels are exactly the ones used up, each is placed once,
   * and each is one of `ls` or hangs below a placed parent.
   */
  ghost predicate Placed(g: Graph, ls: seq<string>, avail: set<string>, ts: seq<Tree>, left: set<string>) {
    && left <= avail
    && (forall x :: x in Keys(ts) <==> x in avail && x !in left)
    && Distinct(Keys(ts))
    && (forall x :: x in Keys(ts) ==> x in ls || (x in g.up && g.up[x] in Keys(ts)))
  }

  /**
   * Unfolds the trees of the labels `ls`, left to right, using only labels
   * still in `avail`; returns the trees and the labels left unplaced.
   */
  function Grow(g: Graph, ls: seq<string>, avail: set<string>): (res: (seq<Tree>, set<string>))
    requires forall x :: x in avail ==> x in g.nodes
    ensures res.1 <= avail
    decreases |avail|, |ls|
  {
    if ls == [] then ([], avail)
    else if ls[0] !in avail then Grow(g, ls[1..], avail)
    else
      var x := ls[0];
      var (cs, a1) := Grow(g, ChildrenOf(g, x), avail - {x});
      SubsetCardinality(a1, avail - {x});
      var (rest, a2) := Grow(g, ls[1..], a1);
      ([Tree(g.nodes[x], cs)] + rest, a2)
  }

  /** `Grow` places each available label once, and only labels hanging below `ls`. */
  lemma {:induction false} GrowPlaced(g: Graph, ls: seq<string>, avail: set<string>)
    requires Wf(g)
    requires forall x :: x in avail ==> x in g.nodes
    ensures Placed(g, ls, avail, Grow(g, ls, avail).0, Grow(g, ls, avail).1)
    decreases |avail|, |ls|
  {
    if ls == [] {
    } else if ls[0] !in avail {
      GrowPlaced(g, ls[1..], avail);
      var res := Grow(g, ls[1..], avail);
      PlacedSkip(g, ls, avail, res.0, res.1);
    } else {
      var x := ls[0];
      GrowPlaced(g, ChildrenOf(g, x), avail - {x});
      var (cs, a1) := Grow(g, ChildrenOf(g, x), avail - {x});
      SubsetCardinality(a1, avail - {x});
      GrowPlaced(g, ls[1..], a1);
      var (rest, a2) := Grow(g, ls[1..], a1);
      PlacedCons(g, ls, avail, Tree(g.nodes[x], cs), a1, rest, a2);
    }
  }

  /** A label no longer available is skipped. */
  lemma PlacedSkip(g: Graph, ls: seq<string>, avail: set<string>, ts: seq<Tree>, left: set<string>)
    requires ls != []
    requires Placed(g, ls[1..], avail, ts, left)
    ensures Placed(g, ls, avail, ts, left)
  {
    assert forall x :: x in ls[1..] ==> x in ls;
  }

  /** Placing the first label's tree and then the rest places the whole list. */
  lemma PlacedCons(g: Graph, ls: seq<string>, avail: set<string>, t: Tree, a1: set<string>,
                   rest: seq<Tree>, a2: set<string>)
    requires ls != [] && Label(t) == ls[0] && ls[0] in avail
    requires Placed(g, ChildrenOf(g, ls[0]), avail - {ls[0]}, t.children, a1)
    requires Placed(g, ls[1..], a1, rest, a2)
    ensures Placed(g, ls, avail, [t] + rest, a2)
  {
    var x := ls[0];
    var ts := [t] + rest;
    KeysCons(ts);
    assert ts[0] == t && ts[1..] == rest;
    var kc, kr := Keys(t.children), Keys(rest);
    assert Keys(ts) == [x] + kc + kr;
    DistinctConcat([x], kc);
    DistinctConcat([x] + kc, kr);
    forall y | y in Keys(ts) ensures y in ls || (y in g.up && g.up[y] in Keys(ts)) {
      if y in kc && y !in ChildrenOf(g, x) {
        assert g.up[y] in kc;
      } else if y in kr && y !in ls[1..] {
        assert g.up[y] in kr;
      } else if y in ls[1..] {
        var k :| 0 <= k < |ls[1..]| && ls[1..][k] == y;
        assert y == ls[k + 1];
      }
    }
  }

  /** Every label outside `avail` that has a parent has its parent outside `avail` too. */
  ghost predicate Closed(g: Graph, avail: set<string>) {
    forall x :: x in g.up && x !in avail ==> g.up[x] !in avail
  }

  /** Each label of `ls` is available, and is a root or has its parent already placed. */
  ghost predicate Ready(g: Graph, ls: seq<string>, avail: set<string>) {
    && Distinct(ls)
    && forall x :: x in ls ==> x in avail && (x !in g.up || g.up[x] !in avail)
  }

  /** Placing the trees of ready labels keeps the placed labels closed under parents. */
  lemma GrowKeepsClosed(g: Graph, ls: seq<string>, avail: set<string>)
    requires Wf(g)
    requires forall x :: x in avail ==> x in g.nodes
    requires Closed(g, avail) && Ready(g, ls, avail)
    ensures Closed(g, Grow(g, ls, avail).1)
  {
    GrowPlaced(g, ls, avail);
    var (ts, left) := Grow(g, ls, avail);
    forall x | x in g.up && x !in left ensures g.up[x] !in left {
      if x in avail {
        assert x in Keys(ts);
      }
    }
  }

  /**
   * Each placed tree carries its label's node, and each placed node's
   * children are exactly `ChildrenOf` its label, in order, all the way down.
   */
  ghost predicate Linked(g: Graph, ts: seq<Tree>)
    decreases ts, 1
  {
    forall i :: 0 <= i < |ts| ==> LinkedTree(g, ts[i])
  }

  ghost predicate LinkedTree(g: Graph, t: Tree)
    decreases t, 0
  {
    && Label(t) in g.nodes
    && t.node == g.nodes[Label(t)]
    && Tops(t.children) == ChildrenOf(g, Label(t))
    && Linked(g, t.children)
  }

  lemma LinkedCons(g: Graph, t: Tree, rest: seq<Tree>)
    requires LinkedTree(g, t) && Linked(g, rest)
    ensures Linked(g, [t] + rest)
  {
    var ts := [t] + rest;
    forall i | 0 <= i < |ts| ensures LinkedTree(g, ts[i]) {
      if i > 0 {
        assert ts[i] == rest[i - 1];
      }
    }
  }

  lemma LinkedTail(g: Graph, ts: seq<Tree>)
    requires Linked(g, ts) && ts != []
    ensures LinkedTree(g, ts[0]) && Linked(g, ts[1..])
  {
    assert forall i :: 0 <= i < |ts[1..]| ==> ts[1..][i] == ts[i + 1];
  }

  /** The children of a ready label are ready once it is placed. */
  lemma KidsReady(g: Graph, ls: seq<string>, avail: set<string>)
    requires Wf(g)
    requires Closed(g, avail) && Ready(g, ls, avail) && ls != []
    ensures Closed(g, avail - {ls[0]})
    ensures Ready(g, ChildrenOf(g, ls[0]), avail - {ls[0]})
  {
    var x := ls[0];
    forall c | c in ChildrenOf(g, x) ensures c in avail - {x} {
      assert g.up[c] == x && x in avail;
    }
  }

  /** The later labels of a ready list are still ready after the first one's tree is placed. */
  lemma RestReady(g: Graph, ls: seq<string>, avail: set<string>, cs: seq<Tree>, a1: set<string>)
    requires Ready(g, ls, avail) && ls != []
    requires Placed(g, ChildrenOf(g, ls[0]), avail - {ls[0]}, cs, a1)
    ensures Ready(g, ls[1..], a1)
  {
    var x := ls[0];
    forall y | y in ls[1..] ensures y in a1 && (y !in g.up || g.up[y] !in a1) {
      var k :| 0 <= k < |ls[1..]| && ls[1..][k] == y;
      assert y == ls[k + 1] && y != x && y in avail;
      assert y !in ChildrenOf(g, x) && !(y in g.up && g.up[y] in Keys(cs));
    }
  }

  /** `Grow` on an available first label: its tree, then the rest from what is left. */
  lemma GrowFirst(g: Graph, ls: seq<string>, avail: set<string>)
    requires forall x :: x in avail ==> x in g.nodes
    requires ls != [] && ls[0] in avail
    ensures var first := Grow(g, ChildrenOf(g, ls[0]), avail - {ls[0]});
            var rest := Grow(g, ls[1..], first.1);
            Grow(g, ls, avail) == ([Tree(g.nodes[ls[0]], first.0)] + rest.0, rest.1)
  {
  }

  /** The threading never drops a child: ready labels grow into fully linked trees. */
  lemma {:induction false} GrowLinked(g: Graph, ls: seq<string>, avail: set<string>)
    requires Wf(g)
    requires forall x :: x in avail ==> x in g.nodes
    requires Closed(g, avail) && Ready(g, ls, avail)
    ensures Tops(Grow(g, ls, avail).0) == ls
    ensures Linked(g, Grow(g, ls, avail).0)
    decreases |avail|, |ls|
  {
    if ls != [] {
      var x := ls[0];
      var kids := ChildrenOf(g, x);
      var avail0 := avail - {x};
      KidsReady(g, ls, avail);
      GrowLinked(g, kids, avail0);
      GrowKeepsClosed(g, kids, avail0);
      GrowPlaced(g, kids, avail0);
      var first := Grow(g, kids, avail0);
      SubsetCardinality(first.1, avail0);
      RestReady(g, ls, avail, first.0, first.1);
      GrowLinked(g, ls[1..], first.1);
      var rest := Grow(g, ls[1..], first.1);
      GrowFirst(g, ls, avail);
      LinkedStep(g, ls, Tree(g.nodes[x], first.0), rest.0);
    }
  }

  lemma LinkedStep(g: Graph, ls: seq<string>, t: Tree, rest: seq<Tree>)
    requires Wf(g) && ls != [] && ls[0] in g.nodes && t.node == g.nodes[ls[0]]
    requires Tops(t.children) == ChildrenOf(g, ls[0]) && Linked(g, t.children)
    requires Tops(rest) == ls[1..] && Linked(g, rest)
    ensures Tops([t] + rest) == ls && Linked(g, [t] + rest)
  {
    assert Label(t) == ls[0];
    assert ([t] + rest)[1..] == rest;
    TopsCons([t] + rest);
    assert ls == [ls[0]] + ls[1..];
    assert LinkedTree(g, t);
    LinkedCons(g, t, rest);
  }

  /* ---------------- reachability ---------------- */

  /** The label `n` steps up the parent chain of `x`, if the chain is that long. */
  function Up(g: Graph, x: string, n: nat): Option<string>
    decreases n
  {
    if n == 0 then Some(x)
    else if x in g.up then Up(g, g.up[x], n - 1)
    else None
  }

  /** The parent chain of `x` ends at a root after `d` steps. */
  ghost predicate RootedAt(g: Graph, x: string, d: nat) {
    Up(g, x, d).Some? && Up(g, x, d).value !in g.up
  }

  ghost predicate Reachable(g: Graph, x: string) {
    x in g.labels && exists d: nat :: RootedAt(g, x, d)
  }

  lemma UpStep(g: Graph, x: string, n: nat)
    requires x in g.up
    ensures Up(g, x, n + 1) == Up(g, g.up[x], n)
  {
  }

  /** One more step up a chain whose `d`-th label has a parent. */
  lemma {:induction false} UpThen(g: Graph, x: string, d: nat)
    requires Up(g, x, d).Some? && Up(g, x, d).value in g.up
    ensures Up(g, x, d + 1) == Some(g.up[Up(g, x, d).value])
    decreases d
  {
    if d > 0 {
      UpThen(g, g.up[x], d - 1);
    }
  }

  /** Every label of a linked tree reaches the tree's own label by its parent chain. */
  lemma {:induction false} LinkedTreeReachesTop(g: Graph, t: Tree, x: string)
    requires LinkedTree(g, t)
    requires x in KeyBag(t)
    ensures exists d: nat :: Up(g, x, d) == Some(Label(t))
    decreases t, 0
  {
    if x != Label(t) {
      var cs := t.children;
      LinkedKeysReachTops(g, cs, x);
      var d: nat :| Up(g, x, d).Some? && Up(g, x, d).value in Tops(cs);
      var c := Up(g, x, d).value;
      assert c in ChildrenOf(g, Label(t));
      UpThen(g, x, d);
      assert Up(g, x, d + 1) == Some(Label(t));
    } else {
      assert Up(g, x, 0) == Some(Label(t));
    }
  }

  /** Every label of a linked forest is a top label or reaches one by its parent chain. */
  lemma {:induction false} LinkedKeysReachTops(g: Graph, ts: seq<Tree>, x: string)
    requires Linked(g, ts)
    requires x in Keys(ts)
    ensures exists d: nat :: Up(g, x, d).Some? && Up(g, x, d).value in Tops(ts)
    decreases ts, 1
  {
    KeysMember(ts, x);
    LinkedTail(g, ts);
    TopsCons(ts);
    if x == Label(ts[0]) || x in Keys(ts[0].children) {
      LinkedTreeReachesTop(g, ts[0], x);
      var d: nat :| Up(g, x, d) == Some(Label(ts[0]));
      assert Up(g, x, d).value in Tops(ts);
    } else {
      LinkedKeysReachTops(g, ts[1..], x);
      var d: nat :| Up(g, x, d).Some? && Up(g, x, d).value in Tops(ts[1..]);
      assert Up(g, x, d).value in Tops(ts);
    }
  }

  /** A placed node's children are placed with it. */
  lemma {:induction false} LinkedChildIn(g: Graph, ts: seq<Tree>, p: string, c: string)
    requires Linked(g, ts)
    requires p in Keys(ts) && c in g.labels && c in g.up && g.up[c] == p
    ensures c in Keys(ts)
    decreases ts
  {
    KeysCons(ts);
    LinkedTail(g, ts);
    if p == Label(ts[0]) {
      assert c in Tops(ts[0].children);
      var k :| 0 <= k < |ts[0].children| && Tops(ts[0].children)[k] == c;
      TopsInKeys(ts[0].children, k);
    } else if p in Keys(ts[0].children) {
      LinkedChildIn(g, ts[0].children, p, c);
    } else {
      LinkedChildIn(g, ts[1..], p, c);
    }
  }

  /** A label whose chain reaches a placed label is placed. */
  lemma {:induction false} LinkedDescendantIn(g: Graph, ts: seq<Tree>, x: string, d: nat)
    requires Wf(g) && Linked(g, ts)
    requires x in g.labels && Up(g, x, d).Some? && Up(g, x, d).value in Keys(ts)
    ensures x in Keys(ts)
    decreases d
  {
    if d > 0 {
      assert x in g.up;
      var p := g.up[x];
      LinkedDescendantIn(g, ts, p, d - 1);
      LinkedChildIn(g, ts, p, x);
    }
  }

  /** The forest built from the roots, before sorting. */
  function Built(g: Graph): (ts: seq<Tree>)
    requires Wf(g)
    ensures Tops(ts) == Roots(g)
    ensures Linked(g, ts)
    ensures Distinct(Keys(ts))
    ensures forall x :: x in Keys(ts) ==> x in g.labels
  {
    var avail := LabelSet(g);
    RootsReady(g);
    GrowLinked(g, Roots(g), avail);
    GrowPlaced(g, Roots(g), avail);
    Grow(g, Roots(g), avail).0
  }

  function LabelSet(g: Graph): (r: set<string>)
    ensures forall x :: x in r <==> x in g.labels
  {
    set x | x in g.labels
  }

  /** At the start every label is available and the roots are ready. */
  lemma RootsReady(g: Graph)
    requires Wf(g)
    ensures forall x :: x in LabelSet(g) ==> x in g.nodes
    ensures Closed(g, LabelSet(g)) && Ready(g, Roots(g), LabelSet(g))
  {
  }

  /** A label is shown exactly when its parent chain ends at a root. */
  lemma BuiltIsReachable(g: Graph, x: string)
    requires Wf(g)
    ensures x in Keys(Built(g)) <==> Reachable(g, x)
  {
    if x in Keys(Built(g)) {
      ShownIsReachable(g, x);
    }
    if Reachable(g, x) {
      ReachableIsShown(g, x);
    }
  }

  lemma ShownIsReachable(g: Graph, x: string)
    requires Wf(g) && x in Keys(Built(g))
    ensures Reachable(g, x)
  {
    var ts := Built(g);
    LinkedKeysReachTops(g, ts, x);
    var d: nat :| Up(g, x, d).Some? && Up(g, x, d).value in Tops(ts);
    assert RootedAt(g, x, d);
  }

  lemma ReachableIsShown(g: Graph, x: string)
    requires Wf(g) && Reachable(g, x)
    ensures x in Keys(Built(g))
  {
    var ts := Built(g);
    var d: nat :| RootedAt(g, x, d);
    RootedInLabels(g, x, d);
    var r := Up(g, x, d).value;
    assert r in Roots(g);
    var k :| 0 <= k < |ts| && Tops(ts)[k] == r;
    TopsInKeys(ts, k);
    LinkedDescendantIn(g, ts, x, d);
  }

  /** The chain of a label stays among the labels. */
  lemma {:induction false} RootedInLabels(g: Graph, x: string, d: nat)
    requires Wf(g) && x in g.labels && Up(g, x, d).Some?
    ensures Up(g, x, d).value in g.labels
    decreases d
  {
    if d > 0 {
      RootedInLabels(g, g.up[x], d - 1);
    }
  }

  /** Walking `i` steps and then `k` more is walking `i + k` steps. */
  lemma {:induction false} UpAdd(g: Graph, x: string, i: nat, k: nat)
    requires Up(g, x, i).Some?
    ensures Up(g, x, i + k) == Up(g, Up(g, x, i).value, k)
    decreases i
  {
    if i > 0 {
      UpAdd(g, g.up[x], i - 1, k);
    }
  }

  /** A chain that ends at a root after `d` steps is no longer than `d`. */
  lemma RootedBound(g: Graph, x: string, d: nat, m: nat)
    requires RootedAt(g, x, d) && Up(g, x, m).Some?
    ensures m <= d
  {
    if m > d {
      UpAdd(g, x, d, m - d);
    }
  }

  /** Going round a cycle often enough gets as far up the chain as one likes. */
  lemma {:induction false} CycleBeyond(g: Graph, x: string, n: nat, d: nat) returns (m: nat)
    requires n > 0 && Up(g, x, n) == Some(x)
    ensures m > d && Up(g, x, m) == Some(x)
    decreases d
  {
    if d == 0 {
      m := n;
    } else {
      var k := CycleBeyond(g, x, n, d - 1);
      UpAdd(g, x, k, n);
      m := k + n;
    }
  }

  /**
   * A label on a cycle of parent links is never shown: `buildTree` links it
   * under its parent, but no root leads to it.
   */
  lemma CycleHidden(g: Graph, x: string, n: nat)
    requires Wf(g) && n > 0 && Up(g, x, n) == Some(x)
    ensures x !in Keys(Built(g))
  {
    if x in Keys(Built(g)) {
      ShownIsReachable(g, x);
      var d: nat :| RootedAt(g, x, d);
      var m := CycleBeyond(g, x, n, d);
      RootedBound(g, x, d, m);
    }
  }

  /** No label comes back to itself by following parent links. */
  ghost predicate Acyclic(g: Graph) {
    forall x, n: nat :: x in g.labels && n > 0 ==> Up(g, x, n) != Some(x)
  }

  /** A chain that has not met a root within `d` steps is defined for `d` steps. */
  lemma {:induction false} UnrootedChain(g: Graph, x: string, d: nat)
    requires forall k: nat :: k < d ==> !RootedAt(g, x, k)
    ensures Up(g, x, d).Some?
    decreases d
  {
    if d > 0 {
      UnrootedChain(g, x, d - 1);
      assert !RootedAt(g, x, d - 1);
      UpThen(g, x, d - 1);
    }
  }

  /** Without cycles every label's chain ends at a root within as many steps as there are labels. */
  lemma AcyclicReachable(g: Graph, x: string)
    requires Wf(g) && Acyclic(g) && x in g.labels
    ensures Reachable(g, x)
  {
    var N := |g.labels|;
    if !exists d: nat :: d <= N && RootedAt(g, x, d) {
      forall d: nat | d <= N + 1 ensures Up(g, x, d).Some? {
        UnrootedChain(g, x, d);
      }
      var chain := seq(N + 1, i requires 0 <= i <= N => Up(g, x, i).value);
      forall i | 0 <= i <= N ensures chain[i] in g.labels {
        RootedInLabels(g, x, i);
      }
      if Distinct(chain) {
        DistinctCardinality(chain);
        DistinctCardinality(g.labels);
        assert (set y | y in chain) <= (set y | y in g.labels);
        SubsetCardinality(set y | y in chain, set y | y in g.labels);
      } else {
        var i, j :| 0 <= i < j < |chain| && chain[i] == chain[j];
        UpAdd(g, x, i, j - i);
      }
    }
  }

  /** Without cycles every label is shown. */
  lemma AcyclicAllShown(g: Graph)
    requires Wf(g) && Acyclic(g)
    ensures multiset(Keys(Built(g))) == multiset(g.labels)
  {
    var ks := Keys(Built(g));
    forall v | v in g.labels ensures v in ks {
      AcyclicReachable(g, v);
      ReachableIsShown(g, v);
    }
    SameMembersSameBag(ks, g.labels);
  }
}

=== FILE: numbers.dfy ===
/**
 * The number formatters of the dashboard: the accounting format of the
 * statement tables, the compact "1.23M USD" format of the warehouse view and
 * the analysis page, and the "$1.23M" format of query results. Digits are
 * not rendered (`toFixed` / `toLocaleString` are left out): each format is
 * modelled by the amount it renders, the scale suffix it picks, and its
 * sign treatment.
 */
module Numbers {
  import opened Wrappers
  import opened Text

  /** A display scale; the compact formats mark it with the suffix "", "K", "M" or "B". */
  datatype Scale = Ones | Thousands | Millions | Billions

  function Divisor(s: Scale): real {
    match s
    case Ones => 1.0
    case Thousands => 1000.0
    case Millions => 1000000.0
    case Billions => 1000000000.0
  }

  function Abs(v: real): (r: real)
    ensures r >= 0.0 && (r == v || r == -v)
  {
    if v < 0.0 then -v else v
  }

  /**
   * The `>= 1e9`, `>= 1e6`, `>= 1e3` ladder shared by every formatter: the
   * largest scale whose divisor does not exceed the magnitude, or ones.
   */
  function ThresholdScale(a: real): (s: Scale)
    ensures s == Ones || Divisor(s) <= a
    ensures forall t: Scale :: Divisor(t) <= a ==> Divisor(t) <= Divisor(s)
  {
    if a >= 1000000000.0 then Billions
    else if a >= 1000000.0 then Millions
    else if a >= 1000.0 then Thousands
    else Ones
  }

  /** Below a billion, the ladder leaves fewer than a thousand units of the chosen scale. */
  lemma ThresholdScaleBounds(a: real)
    requires a >= 0.0
    ensures ThresholdScale(a) != Billions ==> a / Divisor(ThresholdScale(a)) < 1000.0
    ensures ThresholdScale(a) != Ones ==> a / Divisor(ThresholdScale(a)) >= 1.0
  {
  }

  /** `unit === 'pure' ? '%' : unit` */
  function NormalizeUnit(unit: string): (r: string)
    ensures unit == "pure" ==> r == "%"
    ensures unit != "pure" ==> r == unit
  {
    if unit == "pure" then "%" else unit
  }

  /* ---------------- the statement tables ---------------- */

  /**
   * A statement cell: an em dash for a missing value, or the magnitude in
   * the chosen scale with so many decimals, in parentheses when negative.
   */
  datatype Accounting = Dash | Figure(scale: Scale, amount: real, decimals: nat, parenthesised: bool)

  /** Units that hold per-share figures, which are never scaled. */
  predicate IsPerShareUnit(unit: string) {
    var nu := Lower(NormalizeUnit(unit));
    Contains(nu, "share") || Contains(nu, "shares")
  }

  /** Units of the currencies always shown in millions. */
  predicate IsMillionsCurrency(unit: string) {
    var nu := NormalizeUnit(unit);
    || nu == "DKK" || nu == "EUR"
    || Contains(Upper(nu), "DKK") || Contains(Upper(nu), "EUR")
  }

  /** The scale of a statement cell for a value of magnitude `a` in `unit`. */
  function CellScale(a: real, unit: string): Scale {
    if IsPerShareUnit(unit) then Ones
    else if IsMillionsCurrency(unit) then Millions
    else ThresholdScale(a)
  }

  /** `formatNumber` of the statement tables. */
  function FormatAccounting(value: Option<real>, unit: string): (r: Accounting)
    ensures value.None? <==> r == Dash
    ensures value.Some? ==> r.scale == CellScale(Abs(value.value), unit)
    ensures value.Some? ==> r.amount * Divisor(r.scale) == Abs(value.value)
    ensures value.Some? ==> (r.parenthesised <==> value.value < 0.0)
    ensures value.Some? ==> (r.decimals == 2 <==> IsPerShareUnit(unit)) && r.decimals <= 2
  {
    match value
    case None => Dash
    case Some(v) =>
      var a := Abs(v);
      var s := CellScale(a, unit);
      Figure(s, a / Divisor(s), if IsPerShareUnit(unit) then 2 else 0, v < 0.0)
  }

  /** A value and its negation render the same digits, one of them in parentheses. */
  lemma AccountingSignSymmetric(v: real, unit: string)
    requires v > 0.0
    ensures var p, n := FormatAccounting(Some(v), unit), FormatAccounting(Some(-v), unit);
            && p.Figure? && n.Figure?
            && p.scale == n.scale && p.amount == n.amount && p.decimals == n.decimals
            && !p.parenthesised && n.parenthesised
  {
  }

  /**
   * Two of the unit tests are subsumed by the others: a unit containing
   * "shares" contains "share", and the currency equalities imply the
   * substring tests.
   */
  lemma UnitTestsRedundant(unit: string)
    ensures IsPerShareUnit(unit) <==> Contains(Lower(NormalizeUnit(unit)), "share")
    ensures IsMillionsCurrency(unit)
            <==> Contains(Upper(NormalizeUnit(unit)), "DKK") || Contains(Upper(NormalizeUnit(unit)), "EUR")
  {
    var nu := NormalizeUnit(unit);
    if Contains(Lower(nu), "shares") {
      ContainsPart(Lower(nu), "shares", "share", 0);
    }
    if nu == "DKK" {
      assert Upper(nu) == "DKK";
      assert OccursAt(Upper(nu), "DKK", 0);
    }
    if nu == "EUR" {
      assert Upper(nu) == "EUR";
      assert OccursAt(Upper(nu), "EUR", 0);
    }
  }

  /** A percentage (`pure`) is neither per-share nor a millions currency, so it follows the ladder. */
  lemma PureFollowsLadder(a: real)
    ensures CellScale(a, "pure") == ThresholdScale(a)
  {
    assert NormalizeUnit("pure") == "%";
    AbsentFirstChar(Lower("%"), "share");
    AbsentFirstChar(Lower("%"), "shares");
    AbsentFirstChar(Upper("%"), "DKK");
    AbsentFirstChar(Upper("%"), "EUR");
  }

  /* ---------------- the compact formats ---------------- */

  /** `N/A`, or the signed amount in the ladder's scale with its suffix, then the unit. */
  datatype Compact = NotAvailable | Compact(amount: real, scale: Scale, unit: string)

  /** `formatNumber` of the warehouse view: `pure` is shown as `%`. */
  function FormatWarehouse(value: Option<real>, unit: string): (r: Compact)
    ensures value.None? <==> r == NotAvailable
    ensures value.Some? ==> r.amount * Divisor(r.scale) == value.value
    ensures value.Some? ==> r.scale == ThresholdScale(Abs(value.value))
    ensures value.Some? ==> r.unit == NormalizeUnit(unit)
  {
    match value
    case None => NotAvailable
    case Some(v) =>
      var s := ThresholdScale(Abs(v));
      Compact(v / Divisor(s), s, NormalizeUnit(unit))
  }

  /** `formatNumber` of the analysis page: the unit is shown as given. */
  function FormatPage(value: Option<real>, unit: string): (r: Compact)
    ensures value.None? <==> r == NotAvailable
    ensures value.Some? ==> r.amount * Divisor(r.scale) == value.value
    ensures value.Some? ==> r.scale == ThresholdScale(Abs(value.value))
    ensures value.Some? ==> r.unit == unit
  {
    match value
    case None => NotAvailable
    case Some(v) =>
      var s := ThresholdScale(Abs(v));
      Compact(v / Divisor(s), s, unit)
  }

  /** The two compact formatters differ only in how they show the unit `pure`. */
  lemma CompactFormattersAgree(value: Option<real>, unit: string)
    ensures unit != "pure" ==> FormatWarehouse(value, unit) == FormatPage(value, unit)
    ensures value.Some? && unit == "pure" ==>
      FormatPage(value, unit).Compact? && FormatWarehouse(value, unit) == FormatPage(value, unit).(unit := "%")
  {
  }

  /* ---------------- query results ---------------- */

  /** A cell of a query result: null, a number, or anything else. */
  datatype QueryValue = Missing | Number(n: real) | Other(text: string)

  /** `N/A`, a dollar amount with a suffix, a plain number, or the value as text. */
  datatype Shown = NA | Dollars(amount: real, scale: Scale) | Plain(n: real) | Text(s: string)

  /** `formatValue` of the query view. */
  function FormatQueryValue(value: QueryValue): (r: Shown)
    ensures value.Missing? <==> r == NA
    ensures value.Other? ==> r == Text(value.text)
    ensures value.Number? && Abs(value.n) < 1000.0 ==> r == Plain(value.n)
    ensures value.Number? && Abs(value.n) >= 1000.0 ==>
      r.Dollars? && r.scale != Ones && r.amount * Divisor(r.scale) == value.n
  {
    match value
    case Missing => NA
    case Other(t) => Text(t)
    case Number(v) =>
      var s := ThresholdScale(Abs(v));
      if s == Ones then Plain(v) else Dollars(v / Divisor(s), s)
  }

  /** Query results and the warehouse view scale a large number the same way. */
  lemma QueryAgreesWithWarehouse(v: real, unit: string)
    requires Abs(v) >= 1000.0
    ensures var q, w := FormatQueryValue(Number(v)), FormatWarehouse(Some(v), unit);
            q.Dollars? && q.amount == w.amount && q.scale == w.scale
  {
  }
}

=== FILE: page.dfy ===
/**
 * The analysis page: which company and year are selected, when the Analyze
 * button may be pressed, and what an analysis request leaves on the page (a
 * result, or an error message classified from the reply).
 */
module AnalyzePage {
  import opened Wrappers
  import opened Text
  import opened Seqs

  /** A preloaded company and the fiscal years it has data for, newest first as served. */
  datatype Company = Company(ticker: string, name: string, years: seq<int>)

  /** The usage counter of custom analyses. */
  datatype Quota = Quota(used: int, limit: int, available: bool)

  /** The selected ticker and year; the year is absent when it was read from an empty year list. */
  datatype Selection = Selection(ticker: string, year: Option<int>)

  /** The selection before the company list arrives. */
  const InitialSelection := Selection("", Some(2024))

  /** `c => c.ticker === t` */
  function TickerIs(t: string): Company -> bool {
    (c: Company) => c.ticker == t
  }

  /** `company.years[0]`, absent for an empty list. */
  function FirstYear(c: Company): (y: Option<int>)
    ensures y.Some? <==> c.years != []
    ensures y.Some? ==> y.value == c.years[0] && y.value in c.years
  {
    if c.years == [] then None else Some(c.years[0])
  }

  /* ---------------- selecting a company ---------------- */

  /**
   * Picking a ticker from the list: the ticker is always taken, and the year
   * jumps to the first year of the first company with that ticker, if any.
   */
  function SelectTicker(sel: Selection, companies: seq<Company>, t: string): (r: Selection)
    ensures r.ticker == t
    ensures FindIndex(companies, TickerIs(t)) >= 0 ==> r.year == FirstYear(companies[FindIndex(companies, TickerIs(t))])
    ensures FindIndex(companies, TickerIs(t)) < 0 ==> r.year == sel.year
  {
    match Find(companies, TickerIs(t))
    case Some(c) => Selection(t, FirstYear(c))
    case None => sel.(ticker := t)
  }

  /**
   * After picking a listed ticker whose company has years, the selected
   * year is one of that company's years; an unlisted ticker keeps the year.
   */
  lemma SelectedYearIsListed(sel: Selection, companies: seq<Company>, i: nat)
    requires i < |companies| && companies[i].years != []
    requires forall j :: 0 <= j < i ==> companies[j].ticker != companies[i].ticker
    ensures SelectTicker(sel, companies, companies[i].ticker).year == Some(companies[i].years[0])
  {
    var p := TickerIs(companies[i].ticker);
    assert p(companies[i]);
    assert forall j :: 0 <= j < i ==> !p(companies[j]);
    assert FindIndex(companies, p) == i;
  }

  /** Picking the same ticker twice is the same as picking it once. */
  lemma SelectTickerIdempotent(sel: Selection, companies: seq<Company>, t: string)
    ensures SelectTicker(SelectTicker(sel, companies, t), companies, t) == SelectTicker(sel, companies, t)
  {
  }

  /* ---------------- loading the company list ---------------- */

  /** What the company-list request produced. */
  datatype ListReply =
    | ListThrew(message: string)
    | ListStatus(status: int)
    | ListFetched(preloaded: Option<seq<Company>>, quota: Option<Quota>)

  /** What the page holds besides the analysis. */
  datatype PageState = PageState(companies: seq<Company>, quota: Option<Quota>, selection: Selection, error: Option<string>)

  const BackendDown := "Backend API is not available. The Flask API needs to be deployed to Railway."

  /** The decimal digits of a natural number. */
  function Digits(n: nat): (r: string)
    ensures r != [] && forall i :: 0 <= i < |r| ==> IsDigit(r[i])
    decreases n
  {
    var d := ['0' + (n % 10) as char];
    if n < 10 then d else Digits(n / 10) + d
  }

  /** An integer as JavaScript prints it in a template. */
  function Decimal(n: int): (r: string)
    ensures forall i :: 0 <= i < |r| ==> IsDigit(r[i]) || r[i] == '-'
  {
    if n < 0 then "-" + Digits(-n) else Digits(n)
  }

  /** The error thrown for a response that is not ok. */
  function StatusMessage(status: int): string {
    if status >= 500 then "Backend error (" + Decimal(status) + ") - please try again"
    else "API returned " + Decimal(status)
  }

  /** A thrown message that says the network, not the server, failed. */
  predicate IsNetworkFailure(m: string) {
    Contains(m, "Failed to fetch") || Contains(m, "NetworkError")
  }

  /** The error text for a failed company-list load. */
  function LoadErrorText(m: string): (r: string)
    ensures IsNetworkFailure(m) ==> r == BackendDown
    ensures !IsNetworkFailure(m) ==> r == "Connection issue: " + m + ". Please try again."
  {
    if IsNetworkFailure(m) then BackendDown else "Connection issue: " + m + ". Please try again."
  }

  /**
   * The load's error names its cause: the backend text exactly for a
   * network failure, which the analysis catch reads the same way, and
   * otherwise a text that quotes the message.
   */
  lemma LoadErrorNamesCause(m: string)
    ensures IsNetworkFailure(m) ==> LoadErrorText(m) == BackendDown && Caught(m) == Said(BackendDownLive)
    ensures !IsNetworkFailure(m) ==> StartsWith(LoadErrorText(m), "Connection issue: ") && Contains(LoadErrorText(m), m)
  {
    var pre := "Connection issue: ";
    if !IsNetworkFailure(m) {
      var r := LoadErrorText(m);
      assert r == pre + m + ". Please try again.";
      assert r[..|pre|] == pre;
      assert r[|pre|..|pre| + |m|] == m;
      assert OccursAt(r, m, |pre|);
    }
  }

  /** The message of the load, as what the request threw or the status error. */
  function ThrownByLoad(reply: ListReply): string
    requires !reply.ListFetched?
  {
    match reply
    case ListThrew(m) => m
    case ListStatus(s) => StatusMessage(s)
  }

  /**
   * The mount effect: a fetched list replaces the companies and quota,
   * selects the first company and its first year when the list is non-empty,
   * and clears the error; a failure only sets the error.
   */
  function LoadCompanies(st: PageState, reply: ListReply): (r: PageState)
    ensures reply.ListFetched? ==> r.error.None? && r.quota == reply.quota
    ensures reply.ListFetched? ==> r.companies == reply.preloaded.GetOr([])
    ensures reply.ListFetched? && r.companies != [] ==>
      r.selection == Selection(r.companies[0].ticker, FirstYear(r.companies[0]))
    ensures reply.ListFetched? && r.companies == [] ==> r.selection == st.selection
    ensures !reply.ListFetched? ==> r == st.(error := Some(LoadErrorText(ThrownByLoad(reply))))
  {
    match reply
    case ListFetched(preloaded, quota) =>
      var cs := preloaded.GetOr([]);
      var sel := if cs != [] then Selection(cs[0].ticker, FirstYear(cs[0])) else st.selection;
      PageState(cs, quota, sel, None)
    case _ => st.(error := Some(LoadErrorText(ThrownByLoad(reply))))
  }

  /**
   * The selection made on load is the one picking the first company's
   * ticker by hand would make.
   */
  lemma LoadSelectsAsPicking(st: PageState, preloaded: seq<Company>, quota: Option<Quota>)
    requires preloaded != []
    ensures LoadCompanies(st, ListFetched(Some(preloaded), quota)).selection
            == SelectTicker(st.selection, preloaded, preloaded[0].ticker)
  {
    assert TickerIs(preloaded[0].ticker)(preloaded[0]);
  }

  /** A status error never reads as a network failure: it is shown as a connection issue. */
  lemma StatusIsConnectionIssue(status: int)
    ensures LoadErrorText(StatusMessage(status)) == "Connection issue: " + StatusMessage(status) + ". Please try again."
  {
    var m := StatusMessage(status);
    var d := Decimal(status);
    assert 'F' !in d && 'N' !in d by {
      forall i | 0 <= i < |d| ensures d[i] != 'F' && d[i] != 'N' {
        assert IsDigit(d[i]) || d[i] == '-';
      }
    }
    assert 'F' !in "Backend error (" && 'N' !in "Backend error (";
    assert 'F' !in ") - please try again" && 'N' !in ") - please try again";
    assert 'F' !in "API returned " && 'N' !in "API returned ";
    AbsentFirstChar(m, "Failed to fetch");
    AbsentFirstChar(m, "NetworkError");
  }

  /* ---------------- the Analyze button ---------------- */

  datatype Mode = Preloaded | Custom

  /** The `disabled` attribute of the Analyze button. */
  function AnalyzeDisabled(loading: bool, mode: Mode, customTicker: string, quota: Option<Quota>): (d: bool)
    ensures !d <==> !loading && (mode == Preloaded || (customTicker != [] && quota.Some? && quota.value.available))
  {
    loading || (mode == Custom && (customTicker == "" || quota.None? || !quota.value.available))
  }

  /** A preloaded analysis is blocked only while one is running: neither ticker text nor quota matter. */
  lemma PreloadedIgnoresQuota(loading: bool, t1: string, t2: string, q1: Option<Quota>, q2: Option<Quota>)
    ensures AnalyzeDisabled(loading, Preloaded, t1, q1) == AnalyzeDisabled(loading, Preloaded, t2, q2) == loading
  {
  }

  /** A custom analysis can start only with a ticker typed and a quota known to be available. */
  lemma CustomNeedsTickerAndQuota(customTicker: string, quota: Option<Quota>)
    ensures !AnalyzeDisabled(false, Custom, customTicker, quota) <==>
            customTicker != [] && quota.Some? && quota.value.available
  {
  }

  /* ---------------- running an analysis ---------------- */

  /** The fields of a response body the page reads. */
  datatype Body = Body(message: Option<string>, error: Option<string>, quotaUsed: int, quotaLimit: int,
                       resetsOn: string, contact: Option<string>)

  /** What the analysis request produced (a body that is not JSON throws, as any other error). */
  datatype Reply = Threw(message: string) | Responded(ok: bool, status: int, body: Body)

  /** The error shown after an analysis; the quota texts are kept as their parts. */
  datatype Notice =
    | Said(text: string)
    | QuotaExceeded(used: int, limit: int, resetsOn: string)
    | StorageLimit(message: Option<string>, contact: Option<string>)

  /** The analysis left on the page, or the error shown in its place. */
  datatype Outcome = Analysed(body: Body) | Failed(notice: Notice)

  const NotDeployed := "API not available. Backend needs to be deployed to Railway."
  const BackendDownLive := "Backend API is not available. The Flask API needs to be deployed to Railway to enable live analysis."
  const Unexpected := "An unexpected error occurred"

  /** Short pieces of the two catch texts, so that proofs about them stay small. */
  const LiveHead := "Backend API is not available. The "
  const LiveRest := "ask API needs to be " + "deployed to Railway " + "to enable " + "live analysis."

  /** A thrown message that the catch block reads as the backend being down. */
  predicate IsFetchFailure(m: string) {
    Contains(m, "Failed to fetch") || Contains(m, "fetch failed") || Contains(m, "NetworkError")
  }

  /** The catch block of `handleAnalyze`. */
  function Caught(m: string): (n: Notice)
    ensures IsFetchFailure(m) ==> n == Said(BackendDownLive)
    ensures !IsFetchFailure(m) ==> n == Said(if m == "" then Unexpected else m)
  {
    if IsFetchFailure(m) then Said(BackendDownLive) else Said(OrElse(Some(m), Unexpected))
  }

  /** The two texts the catch block puts in place of a message name no fetch failure. */
  lemma CatchTextsArePlain()
    ensures !IsFetchFailure(BackendDownLive) && !IsFetchFailure(Unexpected)
  {
    LiveTextIsPlain();
    UnexpectedIsPlain();
  }

  lemma LiveTextIsPlain()
    ensures !IsFetchFailure(BackendDownLive)
  {
    LiveTextSplits();
    HeadLacks();
    RestLacks();
    AbsentAfterJoin(LiveHead, "Fl", LiveRest, "Failed to fetch");
    AbsentFirstChar(BackendDownLive, "fetch failed");
    AbsentFirstChar(BackendDownLive, "NetworkError");
  }

  /** The live-analysis text is its two pieces joined by the "Fl" of "Flask". */
  lemma LiveTextSplits()
    ensures BackendDownLive == LiveHead + "Fl" + LiveRest
  {
    LivePeel1();
    LivePeel2();
    LivePeel3();
    LivePeel4();
    LivePeel5();
    Join4(LiveHead + "Fl", "ask API needs to be ", "deployed to Railway ", "to enable ", "live analysis.");
  }

  lemma LivePeel1()
    ensures BackendDownLive == "Backend API is not available. The Flask API needs to be deployed to Railway to enable " + "live analysis."
  {}

  lemma LivePeel2()
    ensures "Backend API is not available. The Flask API needs to be deployed to Railway to enable "
         == "Backend API is not available. The Flask API needs to be deployed to Railway " + "to enable "
  {}

  lemma LivePeel3()
    ensures "Backend API is not available. The Flask API needs to be deployed to Railway "
         == "Backend API is not available. The Flask API needs to be " + "deployed to Railway "
  {}

  lemma LivePeel4()
    ensures "Backend API is not available. The Flask API needs to be " == "Backend API is not available. The Fl" + "ask API needs to be "
  {}

  lemma LivePeel5()
    ensures "Backend API is not available. The Fl" == LiveHead + "Fl"
  {}

  lemma HeadLacks()
    ensures 'F' !in LiveHead && 'f' !in LiveHead && 'N' !in LiveHead
  {
    forall c | c in "FfN" ensures c !in LiveHead {
      assert c == 'F' || c == 'f' || c == 'N';
    }
  }

  lemma RestLacks()
    ensures 'F' !in LiveRest && 'f' !in LiveRest && 'N' !in LiveRest
  {
    RestStartLacks();
    RestEndLacks();
  }

  lemma RestStartLacks()
    ensures forall c :: c in "FfN" ==> c !in "ask API needs to be " && c !in "deployed to Railway "
  {
    forall c | c in "FfN" ensures c !in "ask API needs to be " && c !in "deployed to Railway " {
      assert c == 'F' || c == 'f' || c == 'N';
    }
  }

  lemma RestEndLacks()
    ensures forall c :: c in "FfN" ==> c !in "to enable " && c !in "live analysis."
  {
    forall c | c in "FfN" ensures c !in "to enable " && c !in "live analysis." {
      assert c == 'F' || c == 'f' || c == 'N';
    }
  }

  lemma UnexpectedIsPlain()
    ensures !IsFetchFailure(Unexpected)
  {
    assert Unexpected == "An unexpected " + "error occurred";
    forall c | c in "FfN" ensures c !in "An unexpected " && c !in "error occurred" {
      assert c == 'F' || c == 'f' || c == 'N';
    }
    AbsentFirstChar(Unexpected, "Failed to fetch");
    AbsentFirstChar(Unexpected, "fetch failed");
    AbsentFirstChar(Unexpected, "NetworkError");
  }

  /**
   * The catch block never shows an empty text, and what it shows is final:
   * catching the shown text again shows the same thing. So a message is
   * either shown word for word or replaced by one of two fixed texts.
   */
  lemma CaughtIsStable(m: string)
    ensures Caught(m).Said? && Caught(m).text != ""
    ensures Caught(m).text == m || Caught(m).text == BackendDownLive || Caught(m).text == Unexpected
    ensures Caught(Caught(m).text) == Caught(m)
  {
    CatchTextsArePlain();
  }

  /** `handleAnalyze`, with the reply to its request as a parameter. */
  function Analyze(mode: Mode, reply: Reply): (o: Outcome)
    ensures o.Analysed? <==> reply.Responded? && reply.ok
    ensures o.Analysed? ==> o.body == reply.body
    ensures reply.Threw? ==> o == Failed(Caught(reply.message))
    ensures mode == Preloaded && reply.Responded? && !reply.ok && reply.status == 404 ==> o == Failed(Caught(NotDeployed))
    ensures mode == Preloaded && reply.Responded? && !reply.ok && reply.status != 404 ==>
      o == Failed(Said(OrElse(reply.body.message, "Failed to fetch data")))
    ensures mode == Custom && reply.Responded? && !reply.ok && reply.body.error == Some("quota_exceeded") ==>
      o == Failed(QuotaExceeded(reply.body.quotaUsed, reply.body.quotaLimit, reply.body.resetsOn))
    ensures mode == Custom && reply.Responded? && !reply.ok && reply.body.error == Some("storage_quota_exceeded") ==>
      o == Failed(StorageLimit(reply.body.message, reply.body.contact))
    ensures mode == Custom && reply.Responded? && !reply.ok
            && reply.body.error != Some("quota_exceeded") && reply.body.error != Some("storage_quota_exceeded") ==>
      o == Failed(Said(OrElse(reply.body.message, "Analysis failed")))
  {
    match reply
    case Threw(m) => Failed(Caught(m))
    case Responded(ok, status, body) =>
      if ok then Analysed(body)
      else
        match mode
        case Preloaded =>
          if status == 404 then Failed(Caught(NotDeployed))
          else Failed(Said(OrElse(body.message, "Failed to fetch data")))
        case Custom =>
          if body.error == Some("quota_exceeded") then
            Failed(QuotaExceeded(body.quotaUsed, body.quotaLimit, body.resetsOn))
          else if body.error == Some("storage_quota_exceeded") then
            Failed(StorageLimit(body.message, body.contact))
          else Failed(Said(OrElse(body.message, "Analysis failed")))
  }

  /** The not-deployed error thrown for a 404 is not a fetch failure, so it is shown word for word. */
  lemma NotFoundShownAsIs(reply: Reply)
    requires reply.Responded? && !reply.ok && reply.status == 404
    ensures Analyze(Preloaded, reply) == Failed(Said(NotDeployed))
  {
    NotDeployedIsPlain();
    AbsentFirstChar(NotDeployed, "Failed to fetch");
    AbsentFirstChar(NotDeployed, "fetch failed");
    AbsentFirstChar(NotDeployed, "NetworkError");
  }

  /** The not-deployed text holds none of the first letters of the fetch-failure markers. */
  lemma NotDeployedIsPlain()
    ensures 'F' !in NotDeployed && 'f' !in NotDeployed && 'N' !in NotDeployed
  {
    NotDeployedSplits();
    forall c | c in "FfN" ensures c !in "API not available. " && c !in "Backend needs to be " && c !in "deployed to Railway." {
      assert c == 'F' || c == 'f' || c == 'N';
    }
  }

  lemma NotDeployedSplits()
    ensures NotDeployed == "API not available. " + "Backend needs to be " + "deployed to Railway."
  {
    NotDeployedTail();
    NotDeployedHead();
  }

  lemma NotDeployedTail()
    ensures NotDeployed == "API not available. Backend needs to be " + "deployed to Railway."
  {}

  lemma NotDeployedHead()
    ensures "API not available. Backend needs to be " == "API not available. " + "Backend needs to be "
  {}

  /** A failed analysis never leaves an empty message. */
  lemma AnalyzeMessageNonEmpty(mode: Mode, reply: Reply)
    requires Analyze(mode, reply).Failed? && Analyze(mode, reply).notice.Said?
    ensures Analyze(mode, reply).notice.text != ""
  {
  }

  /**
   * The quota notices come only from a refused custom analysis whose body
   * names the quota; a preloaded analysis never shows them.
   */
  lemma QuotaNoticesOnlyInCustom(mode: Mode, reply: Reply)
    requires Analyze(mode, reply).Failed?
    ensures Analyze(mode, reply).notice.QuotaExceeded? <==>
            mode == Custom && reply.Responded? && !reply.ok && reply.body.error == Some("quota_exceeded")
    ensures Analyze(mode, reply).notice.StorageLimit? <==>
            mode == Custom && reply.Responded? && !reply.ok && reply.body.error == Some("storage_quota_exceeded")
  {
  }
}

=== FILE: query.dfy ===
/**
 * The natural-language query view: submitting a question, and choosing how
 * the result is drawn (a single number, a list, a line or bar chart, or a
 * table) from the selected format and the shape of the result.
 */
module Query {
  import opened Wrappers
  import opened Text
  import opened Seqs
  import opened Numbers

  /** A row of a result: column name to cell. A column the row lacks reads as missing. */
  type ResultRow = map<string, QueryValue>

  /** The fields of a query result the view reads. */
  datatype QueryResult = QueryResult(resultType: string, data: seq<ResultRow>, columns: seq<string>)

  /* ---------------- submitting ---------------- */

  /** What the request produced: a thrown error, or a response with its status and body. */
  datatype Reply =
    | Threw(message: string)
    | Responded(ok: bool, status: int, error: Option<string>, body: QueryResult)

  /** An error shown to the user: a text, or `API error: <status>`. */
  datatype Message = Said(text: string) | ApiError(status: int)

  datatype Outcome = Failed(message: Message) | Loaded(result: QueryResult, format: Option<string>)

  /** A submission: ignored, or the trimmed question sent and what came of it. */
  datatype Submission = Ignored | Sent(question: string, outcome: Outcome)

  /** `err.message || 'Failed to execute query'` */
  function Caught(m: Message): Message {
    if m == Said("") then Said("Failed to execute query") else m
  }

  /** `handleSubmit`, with the reply to the request as a parameter. */
  function Submit(query: string, reply: Reply): (s: Submission)
    ensures s.Ignored? <==> IsBlank(query)
    ensures s.Sent? ==> s.question == Trim(query) && s.question != []
    ensures s.Sent? ==> (s.outcome.Loaded? <==> reply.Responded? && reply.ok && !Truthy(reply.error))
    ensures s.Sent? && s.outcome.Loaded? ==> s.outcome.result == reply.body && s.outcome.format == Some(reply.body.resultType)
  {
    TrimEmptyIffBlank(query);
    if Trim(query) == [] then Ignored
    else
      var outcome := match reply
        case Threw(m) => Failed(Caught(Said(m)))
        case Responded(ok, status, error, body) =>
          if !ok then Failed(Caught(if Truthy(error) then Said(error.value) else ApiError(status)))
          else if Truthy(error) then Failed(Caught(Said(error.value)))
          else Loaded(body, Some(body.resultType));
      Sent(Trim(query), outcome)
  }

  /** A failed submission always shows a non-empty message, and a body's error is shown as given. */
  lemma FailureMessages(query: string, reply: Reply)
    requires Submit(query, reply).Sent? && Submit(query, reply).outcome.Failed?
    ensures Submit(query, reply).outcome.message != Said("")
    ensures reply.Responded? && Truthy(reply.error) ==> Submit(query, reply).outcome.message == Said(reply.error.value)
    ensures reply.Responded? && !reply.ok && !Truthy(reply.error) ==> Submit(query, reply).outcome.message == ApiError(reply.status)
  {
  }

  /* ---------------- choosing the view ---------------- */

  /** Right after a result loads, the view uses the result's own type. */
  lemma LoadedShowsOwnType(query: string, reply: Reply)
    requires Submit(query, reply).Sent? && Submit(query, reply).outcome.Loaded?
    ensures var o := Submit(query, reply).outcome;
            OrElse(o.format, o.result.resultType) == o.result.resultType
  {
  }

  /** `row[col]`: a missing column reads as `undefined`. */
  function Cell(row: ResultRow, col: string): QueryValue {
    if col in row then row[col] else Missing
  }

  /** The column names taken as the time axis, lower-cased. */
  predicate IsTimeName(c: string) {
    c in ["fiscal_year", "year", "date", "period_label", "fiscal_quarter"]
  }

  function TimeNamed(): string -> bool {
    (c: string) => IsTimeName(Lower(c))
  }

  /** `columns.find(isTimeName) || columns[0]`, and nothing for no columns. */
  function TimeColumn(columns: seq<string>): (t: Option<string>)
    ensures t.None? <==> columns == []
    ensures t.Some? ==> t.value in columns
    ensures FindIndex(columns, TimeNamed()) >= 0 ==> t == Some(columns[FindIndex(columns, TimeNamed())])
    ensures columns != [] && FindIndex(columns, TimeNamed()) < 0 ==> t == Some(columns[0])
  {
    match Find(columns, TimeNamed())
    case Some(c) => Some(c)
    case None => if columns == [] then None else Some(columns[0])
  }

  /**
   * With a time-named column, the time column is the first of them: it has a
   * time name and no column before it has one.
   */
  lemma TimeColumnIsFirstTimeNamed(columns: seq<string>, i: nat)
    requires i < |columns| && IsTimeName(Lower(columns[i]))
    ensures exists k :: 0 <= k <= i && TimeColumn(columns) == Some(columns[k]) && IsTimeName(Lower(columns[k]))
                        && forall j :: 0 <= j < k ==> !IsTimeName(Lower(columns[j]))
  {
    var p := TimeNamed();
    assert p(columns[i]);
    var k := FindIndex(columns, p);
    assert 0 <= k <= i;
    assert p(columns[k]);
    assert forall j :: 0 <= j < k ==> !p(columns[j]);
  }

  /** Without a time-named column, the time column is the first column. */
  lemma TimeColumnDefaultsToFirst(columns: seq<string>)
    requires columns != [] && forall i :: 0 <= i < |columns| ==> !IsTimeName(Lower(columns[i]))
    ensures TimeColumn(columns) == Some(columns[0])
  {
    var p := TimeNamed();
    assert forall j :: 0 <= j < |columns| ==> !p(columns[j]);
  }

  /** `columns.filter(col => col !== timeCol)` */
  function ValueColumns(columns: seq<string>): (vs: seq<string>)
    ensures forall c :: c in vs <==> c in columns && Some(c) != TimeColumn(columns)
    ensures |vs| <= |columns|
  {
    match TimeColumn(columns)
    case None => []
    case Some(t) =>
      forall c ensures c in Filter(columns, Except(t)) <==> c in columns && Except(t)(c) {
        FilterMembership(columns, Except(t), c);
      }
      Filter(columns, Except(t))
  }

  /** With distinct column names, every column but the time column holds values. */
  lemma ValueColumnsCount(columns: seq<string>)
    requires Distinct(columns) && columns != []
    ensures |ValueColumns(columns)| == |columns| - 1
  {
    FilterExceptOne(columns, TimeColumn(columns).value);
  }

  /** A time value JavaScript reads as false: undefined, 0 or the empty string. */
  predicate Falsy(v: QueryValue) {
    v.Missing? || v == Number(0.0) || v == Other("")
  }

  /** `row[timeCol] || 'N/A'`: the chart's x axis never receives a falsy value. */
  function XValue(v: QueryValue): (x: QueryValue)
    ensures !Falsy(x)
    ensures !Falsy(v) ==> x == v
    ensures Falsy(v) ==> x == Other("N/A")
  {
    if Falsy(v) then Other("N/A") else v
  }

  /** The drawn result. */
  datatype View =
    | NothingYet
    | NoResults
    | NumberView(shown: Shown, caption: string)
    | ListView(items: seq<Shown>)
    | LineChart(time: string, line: string, xs: seq<QueryValue>)
    | BarChart(time: string, bars: seq<string>, xs: seq<QueryValue>)
    | Table

  function ListItems(data: seq<ResultRow>, col: string): (items: seq<Shown>)
    ensures |items| == |data|
    ensures forall i :: 0 <= i < |data| ==> items[i] == FormatQueryValue(Cell(data[i], col))
  {
    seq(|data|, i requires 0 <= i < |data| => FormatQueryValue(Cell(data[i], col)))
  }

  function XValues(data: seq<ResultRow>, col: string): (xs: seq<QueryValue>)
    ensures |xs| == |data|
    ensures forall i :: 0 <= i < |data| ==> xs[i] == XValue(Cell(data[i], col))
  {
    seq(|data|, i requires 0 <= i < |data| => XValue(Cell(data[i], col)))
  }

  /** A chart of the result, or the table when no column is left for values. */
  function ChartView(r: QueryResult): (v: View)
    ensures v.Table? <==> ValueColumns(r.columns) == []
    ensures v.LineChart? <==> |ValueColumns(r.columns)| == 1
    ensures v.BarChart? <==> |ValueColumns(r.columns)| > 1
    ensures v.LineChart? ==> Some(v.time) == TimeColumn(r.columns) && v.line == ValueColumns(r.columns)[0]
    ensures v.BarChart? ==> Some(v.time) == TimeColumn(r.columns) && v.bars == ValueColumns(r.columns)
    ensures v.LineChart? || v.BarChart? ==> v.xs == XValues(r.data, TimeColumn(r.columns).value)
  {
    var vs := ValueColumns(r.columns);
    if vs == [] then Table
    else
      var t := TimeColumn(r.columns).value;
      if |vs| == 1 then LineChart(t, vs[0], XValues(r.data, t))
      else BarChart(t, vs, XValues(r.data, t))
  }

  /** The formats drawn as a chart. */
  predicate IsChartFormat(f: string) {
    f == "chart" || f == "time_series"
  }

  /** `renderResult`, given the loaded result and the selected format. */
  function Render(result: Option<QueryResult>, selected: Option<string>): (v: View)
    ensures result.None? <==> v.NothingYet?
    ensures result.Some? && result.value.data == [] ==> v.NoResults?
    ensures v.NumberView? ==> |result.value.data| == 1 && |result.value.columns| == 1
                              && OrElse(selected, result.value.resultType) == "number"
    ensures v.ListView? ==> |result.value.columns| == 1 && OrElse(selected, result.value.resultType) == "list"
    ensures v.LineChart? || v.BarChart? ==> IsChartFormat(OrElse(selected, result.value.resultType))
    ensures result.Some? && result.value.data != [] && OrElse(selected, result.value.resultType) == "list"
            && |result.value.columns| == 1 ==>
      v == ListView(ListItems(result.value.data, result.value.columns[0]))
    ensures result.Some? && result.value.data != [] && IsChartFormat(OrElse(selected, result.value.resultType)) ==>
      v == ChartView(result.value)
  {
    match result
    case None => NothingYet
    case Some(r) =>
      var f := OrElse(selected, r.resultType);
      assert |"number"| == 6 && |"list"| == 4 && |"chart"| == 5 && |"time_series"| == 11;
      if r.data == [] then NoResults
      else if f == "number" && |r.data| == 1 && |r.columns| == 1 then
        NumberView(FormatQueryValue(Cell(r.data[0], r.columns[0])), r.columns[0])
      else if f == "list" && |r.columns| == 1 then ListView(ListItems(r.data, r.columns[0]))
      else if IsChartFormat(f) then ChartView(r)
      else Table
  }

  /** A number needs one row and one column: otherwise, with not exactly one column, the table is drawn. */
  lemma NumberShapeFallsThrough(r: QueryResult, selected: Option<string>)
    requires r.data != [] && OrElse(selected, r.resultType) == "number" && |r.columns| != 1
    ensures Render(Some(r), selected) == Table
  {
    assert "number" != "list" && "number" != "chart" && "number" != "time_series";
  }

  /** A list needs one column: with any other count the table is drawn. */
  lemma ListShapeFallsThrough(r: QueryResult, selected: Option<string>)
    requires r.data != [] && OrElse(selected, r.resultType) == "list" && |r.columns| != 1
    ensures Render(Some(r), selected) == Table
  {
    assert "list" != "number" && "list" != "chart" && "list" != "time_series";
  }

  /** A non-empty result with a format the view does not know is drawn as the table. */
  lemma UnknownFormatIsTable(r: QueryResult, selected: Option<string>)
    requires r.data != []
    requires OrElse(selected, r.resultType) !in ["number", "list", "chart", "time_series"]
    ensures Render(Some(r), selected) == Table
  {
  }

  /** A number view shows the one cell of the result under its column's name. */
  lemma NumberViewShowsTheCell(r: QueryResult, selected: Option<string>)
    requires r.data != [] && OrElse(selected, r.resultType) == "number"
    requires |r.data| == 1 && |r.columns| == 1
    ensures Render(Some(r), selected) == NumberView(FormatQueryValue(Cell(r.data[0], r.columns[0])), r.columns[0])
  {
  }
}

=== FILE: rows.dfy ===
/**
 * `renderTreeRow` of the statement tables: the rules drawn above and below
 * a row, the spacing after section boundaries, the row emphasis, the
 * indentation and the year cells, and the walk that renders a forest
 * against its flattened list to look one row ahead.
 */
module RowPolicy {
  import opened Wrappers
  import opened Text
  import opened Seqs
  import opened Labels
  import opened Statement
  import opened StatementTree
  import opened Numbers

  /** A horizontal rule: none, thin grey, thick grey, or thick dark grey. */
  datatype Rule = NoRule | Thin | Thick | Heaviest

  /** The margin below a row: none, `mb-1` or `mb-2`. */
  datatype Spacing = NoSpacing | Narrow | Wide

  /** The row style: header band, bold total, or plain line item. */
  datatype Emphasis = HeaderRow | TotalRow | PlainRow

  /** A year cell: blank in a header, otherwise a formatted amount with its colour, weight and highlight. */
  datatype Cell = Blank | Amount(shown: Accounting, red: bool, bold: bool, highlight: bool)

  datatype Row = Row(
    node: Node,
    depth: nat,
    top: Rule,
    bottom: Rule,
    spacing: Spacing,
    emphasis: Emphasis,
    padding: int,
    indented: bool,
    cells: seq<Cell>)

  /** The total test of a rendered row, on its display label. */
  predicate IsTotalRow(n: Node) {
    IsTotalRowLabel(Lower(n.caption), n.level)
  }

  predicate IsFinalRow(n: Node) {
    IsFinalTotal(Lower(n.caption))
  }

  /** The rule that marks a total: heavier at a section boundary and for a closing total. */
  function TotalRule(boundary: bool, final: bool): Rule {
    if boundary then (if final then Heaviest else Thick)
    else (if final then Thick else Thin)
  }

  /** The rule above a row: only totals have one. */
  function TopRule(n: Node): (r: Rule)
    ensures r != NoRule <==> IsTotalRow(n)
    ensures r == Heaviest <==> IsTotalRow(n) && n.isSectionBoundary && IsFinalRow(n)
    ensures r == Thin <==> IsTotalRow(n) && !n.isSectionBoundary && !IsFinalRow(n)
  {
    if IsTotalRow(n) then TotalRule(n.isSectionBoundary, IsFinalRow(n)) else NoRule
  }

  /**
   * The rule below a row, given the row that follows it in the flat list:
   * a thin rule under a balance-sheet section total, and under a line item
   * that closes a section the rule the following total carries.
   */
  function BottomRule(n: Node, next: Option<Node>): (r: Rule)
    ensures IsTotalRow(n) ==> (r == Thin <==> IsSectionTotal(Lower(n.caption))) && (r == Thin || r == NoRule)
    ensures !IsTotalRow(n) ==> (r != NoRule <==> next.Some? && IsTotalRow(next.value))
  {
    if IsTotalRow(n) then
      if IsSectionTotal(Lower(n.caption)) then Thin else NoRule
    else if next.Some? && IsTotalRow(next.value) then
      TotalRule(next.value.isSectionBoundary, IsFinalRow(next.value))
    else NoRule
  }

  /** A line item right before a total is underlined exactly as that total is overlined. */
  lemma BottomMatchesNextTop(n: Node, m: Node)
    requires !IsTotalRow(n)
    ensures BottomRule(n, Some(m)) == TopRule(m)
  {
  }

  /** The margin after a section boundary: wider after a statement-level total. */
  function SpacingOf(n: Node): (r: Spacing)
    ensures r == Wide <==> n.isSectionBoundary && n.level == Some(4)
    ensures r == Narrow <==> n.isSectionBoundary && n.level == Some(3)
  {
    if n.isSectionBoundary && n.level == Some(4) then Wide
    else if n.isSectionBoundary && n.level == Some(3) then Narrow
    else NoSpacing
  }

  /** For the nodes of a statement, the spacing follows the hierarchy level alone. */
  lemma SpacingByLevel(n: Node)
    requires n.isSectionBoundary <==> n.level == Some(3) || n.level == Some(4)
    ensures SpacingOf(n) == Wide <==> n.level == Some(4)
    ensures SpacingOf(n) == Narrow <==> n.level == Some(3)
    ensures SpacingOf(n) == NoSpacing <==> !n.isSectionBoundary
  {
  }

  /** A header is styled as a header even when its label reads as a total. */
  function EmphasisOf(n: Node): (r: Emphasis)
    ensures r == HeaderRow <==> n.isHeader
    ensures r == TotalRow <==> !n.isHeader && IsTotalRow(n)
  {
    if n.isHeader then HeaderRow else if IsTotalRow(n) then TotalRow else PlainRow
  }

  /** `node.values[y]`, undefined (shown as a dash) for a year the node has no entry for. */
  function ValueAt(n: Node, y: int): Option<real> {
    if y in n.values then n.values[y] else None
  }

  /** The year cells of a row; `selected` is the year picked in the year selector. */
  function Cells(n: Node, years: seq<int>, selected: int): (cs: seq<Cell>)
    ensures |cs| == |years|
    ensures forall k :: 0 <= k < |cs| ==> (cs[k] == Blank <==> n.isHeader)
    ensures forall k :: 0 <= k < |cs| && !n.isHeader ==>
      && cs[k].shown == FormatAccounting(ValueAt(n, years[k]), n.unit)
      && (cs[k].red <==> ValueAt(n, years[k]).Some? && ValueAt(n, years[k]).value < 0.0)
      && (cs[k].bold <==> IsTotalRow(n))
      && (cs[k].highlight <==> years[k] == selected)
  {
    seq(|years|, k requires 0 <= k < |years| =>
      if n.isHeader then Blank
      else
        var v := ValueAt(n, years[k]);
        Amount(FormatAccounting(v, n.unit), v.Some? && v.value < 0.0, IsTotalRow(n), years[k] == selected))
  }

  /** A figure is red exactly when it is shown in parentheses. */
  lemma RedIffParenthesised(n: Node, years: seq<int>, selected: int, k: int)
    requires 0 <= k < |years| && !n.isHeader
    ensures var c := Cells(n, years, selected)[k];
            c.red <==> c.shown.Figure? && c.shown.parenthesised
  {
  }

  /** One table row for `n` at `depth`, with `next` the node after it in the flat list. */
  function RowFor(n: Node, depth: nat, next: Option<Node>, years: seq<int>, selected: int): (r: Row)
    ensures r.node == n && r.depth == depth
    ensures r.padding == 16 + 24 * depth && r.padding >= 16
    ensures r.indented <==> depth > 0
  {
    Row(n, depth, TopRule(n), BottomRule(n, next), SpacingOf(n), EmphasisOf(n),
        16 + 24 * depth, depth > 0, Cells(n, years, selected))
  }

  /** A node flagged total when the tree was built is drawn as a total, unless it is a header. */
  lemma FlaggedTotalIsDrawnTotal(n: Node, depth: nat, next: Option<Node>, years: seq<int>, selected: int)
    requires n.isTotal <==> IsTotalLabel(Lower(n.caption), n.level)
    requires n.isTotal && !n.isHeader
    ensures RowFor(n, depth, next, years, selected).emphasis == TotalRow
    ensures RowFor(n, depth, next, years, selected).top != NoRule
  {
    TotalLabelIsTotalRow(Lower(n.caption), n.level);
  }

  /**
   * The label cell's style agrees with the year cells: a header row has
   * only blank cells (a header reading as a total included), a total row
   * only bold figures, a plain row only regular figures.
   */
  lemma EmphasisMatchesCells(n: Node, depth: nat, next: Option<Node>, years: seq<int>, selected: int)
    requires years != []
    ensures var r := RowFor(n, depth, next, years, selected);
            && (r.emphasis == HeaderRow <==> forall k :: 0 <= k < |r.cells| ==> r.cells[k] == Blank)
            && (r.emphasis == TotalRow <==> forall k :: 0 <= k < |r.cells| ==> r.cells[k].Amount? && r.cells[k].bold)
            && (r.emphasis == PlainRow <==> forall k :: 0 <= k < |r.cells| ==> r.cells[k].Amount? && !r.cells[k].bold)
  {
    var cs := RowFor(n, depth, next, years, selected).cells;
    assert cs == Cells(n, years, selected) && |cs| > 0;
    assert cs[0] == Blank <==> n.isHeader;
  }

  /* ---------------- walking the forest ---------------- */

  function SameLabel(l: string): Node -> bool {
    (n: Node) => n.normalizedLabel == l
  }

  /** The node after position `i` of the flat list, if there is one. */
  function NextAt(flat: seq<Node>, i: int): (r: Option<Node>)
    ensures r.Some? <==> 0 <= i && i + 1 < |flat|
    ensures r.Some? ==> r.value == flat[i + 1]
  {
    if 0 <= i < |flat| - 1 then Some(flat[i + 1]) else None
  }

  /** `nodeIndex >= 0 ? nodeIndex : flatNodeList.findIndex(...)` */
  function CurrentIndex(t: Tree, flat: seq<Node>, index: int): int {
    if index >= 0 then index else FindIndex(flat, SameLabel(Label(t)))
  }

  /** Where `renderTreeRow` draws a node: at which depth, and which node it looks ahead to. */
  datatype Placement = Placement(node: Node, depth: nat, next: Option<Node>)

  /** The walk of `renderTreeRow(t, depth, flat, index)`: the tree's node, then its children's. */
  function WalkTree(t: Tree, depth: nat, flat: seq<Node>, index: int): (ps: seq<Placement>)
    ensures |ps| == 1 + |Flatten(t.children)| && ps[0].node == t.node && ps[0].depth == depth
    decreases t
  {
    [Placement(t.node, depth, NextAt(flat, CurrentIndex(t, flat, index)))]
      + WalkChildren(t.children, depth + 1, flat)
  }

  /** The walk over a list of siblings, each located in the flat list by its label. */
  function WalkChildren(cs: seq<Tree>, depth: nat, flat: seq<Node>): (ps: seq<Placement>)
    ensures |ps| == |Flatten(cs)|
    decreases cs
  {
    if cs == [] then []
    else
      WalkTree(cs[0], depth, flat, FindIndex(flat, SameLabel(Label(cs[0]))))
        + WalkChildren(cs[1..], depth, flat)
  }

  /**
   * The walk of the statement body as written: `tree.flatMap((node, index)
   * => renderTreeRow(node, 0, flat, index))`, which passes each root its
   * position among the roots.
   */
  function WalkRootsFrom(ts: seq<Tree>, i: nat, flat: seq<Node>): seq<Placement>
    requires i <= |ts|
    decreases |ts| - i
  {
    if i == |ts| then []
    else WalkTree(ts[i], 0, flat, i) + WalkRootsFrom(ts, i + 1, flat)
  }

  /** The rows of a walk: each placement styled by the row policy. */
  function RowsOf(ps: seq<Placement>, years: seq<int>, selected: int): (rows: seq<Row>)
    ensures |rows| == |ps|
    ensures forall k :: 0 <= k < |ps| ==> rows[k] == RowFor(ps[k].node, ps[k].depth, ps[k].next, years, selected)
  {
    seq(|ps|, k requires 0 <= k < |ps| => RowFor(ps[k].node, ps[k].depth, ps[k].next, years, selected))
  }

  /** The statement body as written. */
  function RenderStatement(ts: seq<Tree>, years: seq<int>, selected: int): seq<Row> {
    RowsOf(WalkRootsFrom(ts, 0, Flatten(ts)), years, selected)
  }

  /** The corrected statement body: roots are located in the flat list by label, like children. */
  function RenderStatementFixed(ts: seq<Tree>, years: seq<int>, selected: int): seq<Row> {
    RowsOf(WalkChildren(ts, 0, Flatten(ts)), years, selected)
  }

  /** With distinct labels, looking a node up by its label finds its own position. */
  lemma FindOwnPosition(flat: seq<Node>, i: int)
    requires Distinct(Names(flat)) && 0 <= i < |flat|
    ensures FindIndex(flat, SameLabel(flat[i].normalizedLabel)) == i
  {
    var p := SameLabel(flat[i].normalizedLabel);
    var k := FindIndex(flat, p);
    assert p(flat[i]);
    assert 0 <= k <= i;
    assert flat[k].normalizedLabel == flat[i].normalizedLabel;
    assert Names(flat)[k] == Names(flat)[i];
  }

  /** The depth of each node of the flattened forest, for a forest drawn at `depth`. */
  function Depths(cs: seq<Tree>, depth: nat): (ds: seq<nat>)
    ensures |ds| == |Flatten(cs)|
    decreases cs
  {
    if cs == [] then []
    else [depth] + Depths(cs[0].children, depth + 1) + Depths(cs[1..], depth)
  }

  /** The placements the flat list calls for from position `off` on: each node, with the node after it. */
  function Expected(flat: seq<Node>, off: int, ds: seq<nat>): (ps: seq<Placement>)
    requires 0 <= off && off + |ds| <= |flat|
    ensures |ps| == |ds|
  {
    seq(|ds|, k requires 0 <= k < |ds| => Placement(flat[off + k], ds[k], NextAt(flat, off + k)))
  }

  lemma ExpectedConcat(flat: seq<Node>, off: int, d1: seq<nat>, d2: seq<nat>)
    requires 0 <= off && off + |d1| + |d2| <= |flat|
    ensures Expected(flat, off, d1 + d2) == Expected(flat, off, d1) + Expected(flat, off + |d1|, d2)
  {
  }

  /** The segment of `flat` from `off` on begins with `ns`. */
  ghost predicate SegmentAt(flat: seq<Node>, off: int, ns: seq<Node>) {
    0 <= off && off + |ns| <= |flat| && flat[off..off + |ns|] == ns
  }

  lemma SegmentSplit(flat: seq<Node>, off: int, a: seq<Node>, b: seq<Node>)
    requires SegmentAt(flat, off, a + b)
    ensures SegmentAt(flat, off, a) && SegmentAt(flat, off + |a|, b)
    ensures a != [] ==> flat[off] == a[0]
  {
    assert flat[off..off + |a|] == flat[off..off + |a + b|][..|a|];
    assert flat[off + |a|..off + |a| + |b|] == flat[off..off + |a + b|][|a|..];
    if a != [] {
      assert flat[off..off + |a|][0] == a[0];
    }
  }

  lemma {:induction false} WalkChildrenAligned(cs: seq<Tree>, depth: nat, flat: seq<Node>, off: int)
    requires SegmentAt(flat, off, Flatten(cs)) && Distinct(Names(flat))
    ensures WalkChildren(cs, depth, flat) == Expected(flat, off, Depths(cs, depth))
    decreases cs
  {
    if cs != [] {
      var t := cs[0];
      var ft, fr := [t.node] + Flatten(t.children), Flatten(cs[1..]);
      var mid := off + |ft|;
      assert SegmentAt(flat, off, ft) && SegmentAt(flat, mid, fr) && flat[off] == t.node by {
        assert Flatten(cs) == ft + fr;
        SegmentSplit(flat, off, ft, fr);
      }
      assert FindIndex(flat, SameLabel(Label(t))) == off by {
        FindOwnPosition(flat, off);
      }
      WalkTreeAligned(t, depth, flat, off);
      WalkChildrenAligned(cs[1..], depth, flat, mid);
      WalkChildrenStep(cs, depth, flat, off, mid);
    } else {
      assert Expected(flat, off, Depths(cs, depth)) == [];
    }
  }

  /** The siblings' walk is the first tree's walk, then the rest's, wherever both are aligned. */
  lemma WalkChildrenStep(cs: seq<Tree>, depth: nat, flat: seq<Node>, off: int, mid: int)
    requires cs != [] && 0 <= off && off + |Flatten(cs)| <= |flat|
    requires mid == off + 1 + |Flatten(cs[0].children)|
    requires FindIndex(flat, SameLabel(Label(cs[0]))) == off
    requires WalkTree(cs[0], depth, flat, off) == Expected(flat, off, [depth] + Depths(cs[0].children, depth + 1))
    requires WalkChildren(cs[1..], depth, flat) == Expected(flat, mid, Depths(cs[1..], depth))
    ensures WalkChildren(cs, depth, flat) == Expected(flat, off, Depths(cs, depth))
  {
    var d1, d2 := [depth] + Depths(cs[0].children, depth + 1), Depths(cs[1..], depth);
    WalkChildrenCons(cs, depth, flat, off);
    DepthsCons(cs, depth);
    assert off + |d1| == mid;
    ExpectedConcat(flat, off, d1, d2);
  }

  lemma WalkChildrenCons(cs: seq<Tree>, depth: nat, flat: seq<Node>, off: int)
    requires cs != [] && FindIndex(flat, SameLabel(Label(cs[0]))) == off
    ensures WalkChildren(cs, depth, flat) == WalkTree(cs[0], depth, flat, off) + WalkChildren(cs[1..], depth, flat)
  {
  }

  lemma DepthsCons(cs: seq<Tree>, depth: nat)
    requires cs != []
    ensures Depths(cs, depth) == [depth] + Depths(cs[0].children, depth + 1) + Depths(cs[1..], depth)
    ensures |[depth] + Depths(cs[0].children, depth + 1)| == 1 + |Flatten(cs[0].children)|
  {
  }

  lemma {:induction false} WalkTreeAligned(t: Tree, depth: nat, flat: seq<Node>, off: int)
    requires SegmentAt(flat, off, [t.node] + Flatten(t.children)) && Distinct(Names(flat))
    ensures WalkTree(t, depth, flat, off) == Expected(flat, off, [depth] + Depths(t.children, depth + 1))
    decreases t
  {
    SegmentSplit(flat, off, [t.node], Flatten(t.children));
    WalkChildrenAligned(t.children, depth + 1, flat, off + 1);
    ExpectedConcat(flat, off, [depth], Depths(t.children, depth + 1));
    assert Expected(flat, off, [depth]) == [Placement(t.node, depth, NextAt(flat, off))];
  }

  /**
   * With the correction, the statement has one row per node of the flat
   * list, in flat order, each styled by its own node, drawn at its depth in
   * the forest, and looking ahead to the node that follows it: so the line
   * item before a total carries that total's rule.
   */
  lemma FixedRowsFollowFlatList(ts: seq<Tree>, years: seq<int>, selected: int)
    requires Distinct(Keys(ts))
    ensures var flat, rows := Flatten(ts), RenderStatementFixed(ts, years, selected);
            && |rows| == |flat|
            && forall k :: 0 <= k < |rows| ==>
                 rows[k] == RowFor(flat[k], Depths(ts, 0)[k], NextAt(flat, k), years, selected)
  {
    var flat := Flatten(ts);
    assert flat[0..|flat|] == flat;
    WalkChildrenAligned(ts, 0, flat, 0);
  }

  /** In the corrected body, a line item directly before a total in the flat list is underlined as that total is overlined. */
  lemma FixedRuleBeforeTotal(ts: seq<Tree>, years: seq<int>, selected: int, k: int)
    requires Distinct(Keys(ts))
    requires 0 <= k && k + 1 < |Flatten(ts)|
    requires !IsTotalRow(Flatten(ts)[k]) && IsTotalRow(Flatten(ts)[k + 1])
    ensures k < |RenderStatementFixed(ts, years, selected)|
    ensures RenderStatementFixed(ts, years, selected)[k].bottom == TopRule(Flatten(ts)[k + 1])
    ensures TopRule(Flatten(ts)[k + 1]) != NoRule
  {
    FixedRowsFollowFlatList(ts, years, selected);
    BottomMatchesNextTop(Flatten(ts)[k], Flatten(ts)[k + 1]);
  }

  /* ---------------- the root index as written ---------------- */

  /** A forest of leaves flattens to its own nodes. */
  lemma {:induction false} LeavesFlatten(ts: seq<Tree>)
    requires forall i :: 0 <= i < |ts| ==> ts[i].children == []
    ensures |Flatten(ts)| == |ts|
    ensures forall j :: 0 <= j < |ts| ==> Flatten(ts)[j] == ts[j].node
    decreases |ts|
  {
    if ts != [] {
      LeavesFlatten(ts[1..]);
      assert Flatten(ts) == [ts[0].node] + Flatten(ts[1..]);
    }
  }

  lemma {:induction false} LeafRootsFrom(ts: seq<Tree>, i: nat, flat: seq<Node>)
    requires i <= |ts| && |flat| == |ts| && Distinct(Names(flat))
    requires forall j :: 0 <= j < |ts| ==> ts[j].children == [] && flat[j] == ts[j].node
    ensures WalkRootsFrom(ts, i, flat) == WalkChildren(ts[i..], 0, flat)
    decreases |ts| - i
  {
    if i < |ts| {
      LeafRootsFrom(ts, i + 1, flat);
      assert ts[i..][0] == ts[i] && ts[i..][1..] == ts[i + 1..];
      FindOwnPosition(flat, i);
    }
  }

  /**
   * The root index is right when no root has children: then every root's
   * position among the roots is its position in the flat list, and the
   * body as written draws what the corrected body draws.
   */
  lemma LeafRootsAgree(ts: seq<Tree>, years: seq<int>, selected: int)
    requires Distinct(Keys(ts))
    requires forall i :: 0 <= i < |ts| ==> ts[i].children == []
    ensures RenderStatement(ts, years, selected) == RenderStatementFixed(ts, years, selected)
  {
    LeavesFlatten(ts);
    LeafRootsFrom(ts, 0, Flatten(ts));
    assert ts[0..] == ts;
  }

  /** Every depth of a forest drawn at `depth` is at least `depth`. */
  lemma {:induction false} DepthsAtLeast(cs: seq<Tree>, depth: nat)
    ensures forall k :: 0 <= k < |Depths(cs, depth)| ==> Depths(cs, depth)[k] >= depth
    decreases cs
  {
    if cs != [] {
      DepthsAtLeast(cs[0].children, depth + 1);
      DepthsAtLeast(cs[1..], depth);
    }
  }

  /**
   * The placements of the walk as written over the roots `ts[i..]`, whose
   * flat list begins at `off`: each node of the flat list at its depth;
   * below the roots looking ahead to the next flat entry, and a root
   * looking ahead from its position among the roots.
   */
  ghost predicate PlacedAsWritten(ts: seq<Tree>, i: nat, flat: seq<Node>, off: int, ps: seq<Placement>)
    requires i <= |ts|
  {
    PlacedAt(ts, i, flat, off, Depths(ts[i..], 0), ps)
  }

  /** `ps` places `flat[off..]` at depths `ds`, roots (depth 0) looking ahead from a root position at or after `i`. */
  ghost predicate PlacedAt(ts: seq<Tree>, i: nat, flat: seq<Node>, off: int, ds: seq<nat>, ps: seq<Placement>) {
    && |ps| == |ds| && 0 <= off && off + |ds| <= |flat|
    && forall k :: 0 <= k < |ps| ==>
         && ps[k].node == flat[off + k] && ps[k].depth == ds[k]
         && (ds[k] > 0 ==> ps[k].next == NextAt(flat, off + k))
         && (ds[k] == 0 ==> exists j :: i <= j < |ts| && ts[j].node == flat[off + k] && ps[k].next == NextAt(flat, j))
  }

  /** The walk as written over one root at position `i` among the roots and `off` in the flat list. */
  lemma RootWalk(ts: seq<Tree>, i: nat, flat: seq<Node>, off: int)
    requires i < |ts| && SegmentAt(flat, off, [ts[i].node] + Flatten(ts[i].children)) && Distinct(Names(flat))
    ensures WalkTree(ts[i], 0, flat, i)
         == [Placement(flat[off], 0, NextAt(flat, i))] + Expected(flat, off + 1, Depths(ts[i].children, 1))
  {
    SegmentSplit(flat, off, [ts[i].node], Flatten(ts[i].children));
    WalkChildrenAligned(ts[i].children, 1, flat, off + 1);
  }

  lemma {:induction false} WalkRootsAligned(ts: seq<Tree>, i: nat, flat: seq<Node>, off: int)
    requires i <= |ts| && SegmentAt(flat, off, Flatten(ts[i..])) && Distinct(Names(flat))
    ensures PlacedAsWritten(ts, i, flat, off, WalkRootsFrom(ts, i, flat))
    decreases |ts| - i
  {
    if i == |ts| {
      assert ts[i..] == [];
    } else {
      var t := ts[i];
      var ft, fr := [t.node] + Flatten(t.children), Flatten(ts[i + 1..]);
      assert ts[i..][0] == t && ts[i..][1..] == ts[i + 1..];
      assert Flatten(ts[i..]) == ft + fr;
      SegmentSplit(flat, off, ft, fr);
      var mid := off + |ft|;
      RootWalk(ts, i, flat, off);
      WalkRootsAligned(ts, i + 1, flat, mid);
      var dc, dr := Depths(ts[i].children, 1), Depths(ts[i + 1..], 0);
      DepthsCons(ts[i..], 0);
      DepthsAtLeast(ts[i].children, 1);
      assert WalkRootsFrom(ts, i, flat) == WalkTree(ts[i], 0, flat, i) + WalkRootsFrom(ts, i + 1, flat);
      PlacedStep(ts, i, flat, off, mid, dc, dr, WalkTree(ts[i], 0, flat, i), WalkRootsFrom(ts, i + 1, flat));
    }
  }

  /** One root's placements followed by the rest's place the whole segment. */
  lemma PlacedStep(ts: seq<Tree>, i: nat, flat: seq<Node>, off: int, mid: int,
                   dc: seq<nat>, dr: seq<nat>, a: seq<Placement>, b: seq<Placement>)
    requires i < |ts| && 0 <= off && mid == off + 1 + |dc| && mid <= |flat|
    requires flat[off] == ts[i].node
    requires forall k :: 0 <= k < |dc| ==> dc[k] >= 1
    requires a == [Placement(flat[off], 0, NextAt(flat, i))] + Expected(flat, off + 1, dc)
    requires PlacedAt(ts, i + 1, flat, mid, dr, b)
    ensures PlacedAt(ts, i, flat, off, [0] + dc + dr, a + b)
  {
    var ps, ds := a + b, [0] + dc + dr;
    forall k | 0 <= k < |ps|
      ensures && ps[k].node == flat[off + k] && ps[k].depth == ds[k]
              && (ds[k] > 0 ==> ps[k].next == NextAt(flat, off + k))
              && (ds[k] == 0 ==> exists j :: i <= j < |ts| && ts[j].node == flat[off + k] && ps[k].next == NextAt(flat, j))
    {
      if k == 0 {
        assert ps[k] == Placement(flat[off], 0, NextAt(flat, i));
      } else if k < |a| {
        assert ps[k] == Expected(flat, off + 1, dc)[k - 1];
        assert ds[k] == dc[k - 1];
      } else {
        assert ps[k] == b[k - |a|] && ds[k] == dr[k - |a|];
        assert off + k == mid + (k - |a|);
      }
    }
  }

  /**
   * The statement body as written: one row per node of the flat list, in
   * flat order, each at its depth in the forest. Rows below the roots look
   * ahead to the next flat entry; a root looks ahead from its position
   * among the roots, which is its flat position only while no earlier root
   * has children.
   */
  lemma RowsFollowFlatList(ts: seq<Tree>, years: seq<int>, selected: int)
    requires Distinct(Keys(ts))
    ensures var flat, ds, rows := Flatten(ts), Depths(ts, 0), RenderStatement(ts, years, selected);
            && |rows| == |flat|
            && (forall k :: 0 <= k < |rows| ==> rows[k].node == flat[k] && rows[k].depth == ds[k])
            && (forall k :: 0 <= k < |rows| && ds[k] > 0 ==>
                  rows[k] == RowFor(flat[k], ds[k], NextAt(flat, k), years, selected))
            && (forall k :: 0 <= k < |rows| && ds[k] == 0 ==>
                  exists j :: 0 <= j < |ts| && ts[j].node == flat[k]
                              && rows[k] == RowFor(flat[k], 0, NextAt(flat, j), years, selected))
  {
    var flat := Flatten(ts);
    assert ts[0..] == ts;
    assert flat[0..|flat|] == flat;
    WalkRootsAligned(ts, 0, flat, 0);
  }


  function Plain(caption: string, key: string, order: int): Node {
    Node(caption, key, map[], "USD", Some(1), order, false, false, false)
  }

  function TotalAssets(): Node {
    Node("Total assets", "total_assets", map[], "USD", Some(4), 4, true, false, true)
  }

  /** Two assets with a child under the first, then the closing "Total assets". */
  function RootIndexExample(): seq<Tree> {
    [Tree(Plain("Land", "land", 1), [Tree(Plain("Plot", "plot", 2), [])]),
     Tree(Plain("Cash", "cash", 3), []),
     Tree(TotalAssets(), [])]
  }

  lemma ExampleFlat()
    ensures Flatten(RootIndexExample())
         == [Plain("Land", "land", 1), Plain("Plot", "plot", 2), Plain("Cash", "cash", 3), TotalAssets()]
  {
    var ts := RootIndexExample();
    assert Flatten(ts[0].children) == [Plain("Plot", "plot", 2)];
    assert Flatten(ts[2..]) == [TotalAssets()];
    assert Flatten(ts[1..]) == [Plain("Cash", "cash", 3), TotalAssets()];
  }

  lemma ExampleTotals()
    ensures !IsTotalRow(Plain("Cash", "cash", 3))
    ensures IsTotalRow(TotalAssets()) && IsFinalRow(TotalAssets()) && TotalAssets().isSectionBoundary
  {
    assert Lower("Cash") == "cash";
    assert Lower("Total assets") == "total assets";
    assert OccursAt("total assets", "total", 0);
  }

  /**
   * As written, the second root looks ahead from flat position 1, its
   * position among the roots, and sees itself instead of "Total assets":
   * the rule that closes the assets is missing, though the corrected body
   * draws it.
   */
  lemma RootIndexMissesRule()
    ensures var ts := RootIndexExample();
            var flat := Flatten(ts);
            && |flat| == 4 && flat[2] == ts[1].node
            && RenderStatement(ts, [], 0)[2].node == flat[2]
            && RenderStatement(ts, [], 0)[2].bottom == NoRule
            && RenderStatementFixed(ts, [], 0)[2].bottom == Heaviest
  {
    var ts := RootIndexExample();
    var cash := ts[1].node;
    ExampleFlat();
    ExampleTotals();
    var flat := Flatten(ts);
    var a0 := WalkTree(ts[0], 0, flat, 0);
    var rest := WalkRootsFrom(ts, 1, flat);
    assert WalkRootsFrom(ts, 0, flat) == a0 + rest;
    assert |a0| == 2;
    assert rest[0] == Placement(cash, 0, NextAt(flat, 1));
    assert RenderStatement(ts, [], 0)[2] == RowFor(cash, 0, NextAt(flat, 1), [], 0);
    assert NextAt(flat, 1) == Some(cash);
    FixedRuleBeforeTotalExample(ts, flat);
  }

  lemma FixedRuleBeforeTotalExample(ts: seq<Tree>, flat: seq<Node>)
    requires ts == RootIndexExample() && flat == Flatten(ts)
    requires flat == [Plain("Land", "land", 1), Plain("Plot", "plot", 2), Plain("Cash", "cash", 3), TotalAssets()]
    requires !IsTotalRow(flat[2]) && IsTotalRow(flat[3]) && IsFinalRow(flat[3]) && flat[3].isSectionBoundary
    ensures RenderStatementFixed(ts, [], 0)[2].bottom == Heaviest
  {
    assert Distinct(Keys(ts)) by {
      assert Keys(ts) == ["land", "plot", "cash", "total_assets"];
    }
    FixedRuleBeforeTotal(ts, [], 0, 2);
  }
}

=== FILE: seqs.dfy ===
/**
 * The array methods the components rely on: `filter`, `find`/`findIndex`,
 * first-occurrence de-duplication (the key order of an object or `Map`
 * filled in input order), and counting.
 */
module Seqs {
  import opened Wrappers

  predicate Distinct<T(==)>(xs: seq<T>) {
    forall i, j :: 0 <= i < j < |xs| ==> xs[i] != xs[j]
  }

  /** `xs.filter(p)`: keeps exactly the elements satisfying `p`, each as often as it occurs, in order. */
  function Filter<T(==,!new)>(xs: seq<T>, p: T -> bool): (r: seq<T>)
    ensures |r| <= |xs|
    ensures forall x :: multiset(r)[x] == if p(x) then multiset(xs)[x] else 0
    ensures forall i :: 0 <= i < |r| ==> p(r[i]) && r[i] in xs
    ensures Distinct(xs) ==> Distinct(r)
  {
    if xs == [] then []
    else
      var rest := Filter(xs[1..], p);
      var r := if p(xs[0]) then [xs[0]] + rest else rest;
      FilterStep(xs, p, rest, r);
      r
  }

  /** One step of `Filter`: its contract for the tail gives its contract for the whole. */
  lemma FilterStep<T(!new)>(xs: seq<T>, p: T -> bool, rest: seq<T>, r: seq<T>)
    requires xs != []
    requires |rest| <= |xs| - 1
    requires forall x :: multiset(rest)[x] == if p(x) then multiset(xs[1..])[x] else 0
    requires forall i :: 0 <= i < |rest| ==> p(rest[i]) && rest[i] in xs[1..]
    requires Distinct(xs[1..]) ==> Distinct(rest)
    requires r == if p(xs[0]) then [xs[0]] + rest else rest
    ensures |r| <= |xs|
    ensures forall x :: multiset(r)[x] == if p(x) then multiset(xs)[x] else 0
    ensures forall i :: 0 <= i < |r| ==> p(r[i]) && r[i] in xs
    ensures Distinct(xs) ==> Distinct(r)
  {
    assert xs == [xs[0]] + xs[1..];
    if Distinct(xs) {
      assert Distinct(xs[1..]);
      DistinctHead(xs, rest);
    }
  }

  /** The head of a sequence without repeats is not among elements drawn from its tail. */
  lemma DistinctHead<T>(xs: seq<T>, ys: seq<T>)
    requires xs != [] && Distinct(xs)
    requires forall i :: 0 <= i < |ys| ==> ys[i] in xs[1..]
    ensures xs[0] !in ys
  {
  }

  /** `x => x !== t` */
  function Except<T(==)>(t: T): T -> bool {
    (x: T) => x != t
  }

  /** Filtering one element out of a sequence without repeats that holds it removes exactly one element. */
  lemma FilterExceptOne<T(!new)>(xs: seq<T>, t: T)
    requires Distinct(xs) && t in xs
    ensures |Filter(xs, Except(t))| == |xs| - 1
  {
    var r := Filter(xs, Except(t));
    DistinctCounts(xs, t);
    var rest := multiset(xs) - multiset{t};
    assert multiset(r) == rest by {
      forall c ensures multiset(r)[c] == rest[c] {
        if c == t {
          assert !Except(t)(c);
        } else {
          assert Except(t)(c);
        }
      }
    }
    assert t in multiset(xs);
    assert |rest| == |multiset(xs)| - 1;
  }

  lemma FilterMembership<T(!new)>(xs: seq<T>, p: T -> bool, x: T)
    ensures x in Filter(xs, p) <==> x in xs && p(x)
  {
    assert x in Filter(xs, p) <==> multiset(Filter(xs, p))[x] > 0;
    assert x in xs <==> multiset(xs)[x] > 0;
  }

  /** `xs.findIndex(p)`: the first index satisfying `p`, or -1. */
  function FindIndex<T>(xs: seq<T>, p: T -> bool): (k: int)
    ensures -1 <= k < |xs|
    ensures k >= 0 ==> p(xs[k]) && forall j :: 0 <= j < k ==> !p(xs[j])
    ensures k == -1 ==> forall j :: 0 <= j < |xs| ==> !p(xs[j])
  {
    if xs == [] then -1
    else if p(xs[0]) then 0
    else
      var k := FindIndex(xs[1..], p);
      if k == -1 then -1 else k + 1
  }

  /** `xs.find(p)`: the first element satisfying `p`. */
  function Find<T>(xs: seq<T>, p: T -> bool): (r: Option<T>)
    ensures r.Some? <==> exists k :: 0 <= k < |xs| && p(xs[k])
    ensures r.Some? ==> p(r.value) && r.value == xs[FindIndex(xs, p)]
  {
    var k := FindIndex(xs, p);
    if k >= 0 then Some(xs[k]) else None
  }

  /** `x => p(x) && q(x)` */
  function Both<T>(p: T -> bool, q: T -> bool): T -> bool {
    (x: T) => p(x) && q(x)
  }

  /** Searching the filtered sequence for `q` finds the first element satisfying both the filter and `q`. */
  lemma {:induction false} FindInFilter<T(!new)>(xs: seq<T>, p: T -> bool, q: T -> bool)
    ensures Find(Filter(xs, p), q) == Find(xs, Both(p, q))
    decreases |xs|
  {
    if xs != [] {
      var x, tail := xs[0], xs[1..];
      FindInFilter(tail, p, q);
      FilterCons(xs, p);
      FindUnfold(xs, Both(p, q));
      if p(x) {
        FindCons(x, Filter(tail, p), q);
      }
    }
  }

  lemma FilterCons<T(!new)>(xs: seq<T>, p: T -> bool)
    requires xs != []
    ensures Filter(xs, p) == if p(xs[0]) then [xs[0]] + Filter(xs[1..], p) else Filter(xs[1..], p)
  {
  }

  lemma FindCons<T>(x: T, xs: seq<T>, p: T -> bool)
    ensures Find([x] + xs, p) == if p(x) then Some(x) else Find(xs, p)
  {
    FindIndexCons(x, xs, p);
    var k := FindIndex(xs, p);
    if !p(x) && k >= 0 {
      assert ([x] + xs)[k + 1] == xs[k];
    }
  }

  lemma FindUnfold<T>(xs: seq<T>, p: T -> bool)
    requires xs != []
    ensures Find(xs, p) == if p(xs[0]) then Some(xs[0]) else Find(xs[1..], p)
  {
    assert xs == [xs[0]] + xs[1..];
    FindCons(xs[0], xs[1..], p);
  }

  lemma FindIndexCons<T>(x: T, xs: seq<T>, p: T -> bool)
    ensures FindIndex([x] + xs, p) == if p(x) then 0 else if FindIndex(xs, p) < 0 then -1 else FindIndex(xs, p) + 1
  {
    assert ([x] + xs)[1..] == xs;
  }

  /** The head of a filtered sequence is the first element satisfying the filter. */
  lemma FilterHead<T(!new)>(xs: seq<T>, p: T -> bool)
    requires FindIndex(xs, p) >= 0
    ensures |Filter(xs, p)| > 0 && Filter(xs, p)[0] == xs[FindIndex(xs, p)]
    decreases |xs|
  {
    assert xs == [xs[0]] + xs[1..];
    if !p(xs[0]) {
      FilterHead(xs[1..], p);
    }
  }

  /** Searching a sequence with one more element at its end finds what the shorter search finds, else that element. */
  lemma FindIndexSnoc<T>(xs: seq<T>, p: T -> bool)
    requires xs != []
    ensures var k := FindIndex(xs[..|xs| - 1], p);
            FindIndex(xs, p) == if k >= 0 then k else if p(xs[|xs| - 1]) then |xs| - 1 else -1
  {
    var init := xs[..|xs| - 1];
    assert forall j :: 0 <= j < |init| ==> init[j] == xs[j];
  }

  /** The distinct elements of `xs` in order of first occurrence. */
  function Dedup<T(==,!new)>(xs: seq<T>): (r: seq<T>)
    ensures Distinct(r)
    ensures forall x :: x in r <==> x in xs
    ensures |r| <= |xs|
    ensures xs != [] ==> |r| > 0 && r[0] == xs[0]
  {
    if xs == [] then []
    else
      var d := Dedup(xs[..|xs| - 1]);
      var last := xs[|xs| - 1];
      assert xs == xs[..|xs| - 1] + [last];
      if last in d then d else d + [last]
  }

  /** How many times `x` occurs in `xs`. */
  function Count<T(==)>(xs: seq<T>, x: T): nat {
    multiset(xs)[x]
  }

  lemma DistinctConcat<T>(a: seq<T>, b: seq<T>)
    requires Distinct(a) && Distinct(b)
    requires forall x :: x in a ==> x !in b
    ensures Distinct(a + b)
  {
    forall i, j | 0 <= i < j < |a + b| ensures (a + b)[i] != (a + b)[j] {
      if i < |a| && j >= |a| {
        assert (a + b)[i] in a && (a + b)[j] in b;
      }
    }
  }

  /** A sequence without repetitions has as many elements as its set. */
  lemma {:induction false} DistinctCardinality<T>(xs: seq<T>)
    requires Distinct(xs)
    ensures |set x | x in xs| == |xs|
  {
    if xs != [] {
      DistinctCardinality(xs[1..]);
      assert (set x | x in xs) == (set x | x in xs[1..]) + {xs[0]};
      assert xs[0] !in xs[1..];
    }
  }

  /** A sequence without repetitions holds each element at most once. */
  lemma {:induction false} DistinctCounts<T>(xs: seq<T>, v: T)
    requires Distinct(xs)
    ensures multiset(xs)[v] <= 1
  {
    if xs != [] {
      assert xs == [xs[0]] + xs[1..];
      DistinctCounts(xs[1..], v);
      if xs[0] == v {
        assert v !in xs[1..];
      }
    }
  }

  /** Two sequences without repetitions that hold the same elements are the same bag. */
  lemma SameMembersSameBag<T>(xs: seq<T>, ys: seq<T>)
    requires Distinct(xs) && Distinct(ys)
    requires forall v :: v in xs <==> v in ys
    ensures multiset(xs) == multiset(ys)
  {
    forall v ensures multiset(xs)[v] == multiset(ys)[v] {
      DistinctCounts(xs, v);
      DistinctCounts(ys, v);
      assert v in xs <==> v in multiset(xs);
      assert v in ys <==> v in multiset(ys);
    }
  }

  /** Rearranging a sequence without repetitions cannot create one. */
  lemma DistinctPermutation<T>(xs: seq<T>, ys: seq<T>)
    requires Distinct(xs) && multiset(xs) == multiset(ys)
    ensures Distinct(ys)
  {
    forall i, j | 0 <= i < j < |ys| ensures ys[i] != ys[j] {
      if ys[i] == ys[j] {
        var v := ys[i];
        assert ys == ys[..i] + [v] + ys[i + 1..j] + [v] + ys[j + 1..];
        assert multiset(ys)[v] >= 2;
        DistinctCounts(xs, v);
        assert false;
      }
    }
  }

  /** The union of the bags `f(x)` over the elements of `xs`. */
  function SumBag<T, U>(f: T -> multiset<U>, xs: seq<T>): multiset<U>
    decreases |xs|
  {
    if xs == [] then multiset{} else f(xs[0]) + SumBag(f, xs[1..])
  }

  lemma {:induction false} SumBagConcat<T, U>(f: T -> multiset<U>, a: seq<T>, b: seq<T>)
    ensures SumBag(f, a + b) == SumBag(f, a) + SumBag(f, b)
    decreases |a|
  {
    if a == [] {
      assert a + b == b;
    } else {
      assert (a + b)[0] == a[0];
      assert (a + b)[1..] == a[1..] + b;
      SumBagConcat(f, a[1..], b);
    }
  }

  lemma SumBagCons<T, U>(f: T -> multiset<U>, x: T, xs: seq<T>)
    ensures SumBag(f, [x] + xs) == f(x) + SumBag(f, xs)
  {
    assert ([x] + xs)[0] == x && ([x] + xs)[1..] == xs;
  }

  /** The union over a sequence does not depend on the order of its elements. */
  lemma {:induction false} SumBagPermutation<T, U>(f: T -> multiset<U>, xs: seq<T>, ys: seq<T>)
    requires multiset(xs) == multiset(ys)
    ensures SumBag(f, xs) == SumBag(f, ys)
    decreases |xs|
  {
    if xs == [] {
      assert |ys| == |multiset(ys)| == 0;
    } else {
      var x := xs[0];
      assert x in multiset(ys);
      var k :| 0 <= k < |ys| && ys[k] == x;
      RemoveAtKeepsRest(xs, ys, k);
      SumBagPermutation(f, xs[1..], ys[..k] + ys[k + 1..]);
      SumBagRemoveAt(f, ys, k);
    }
  }

  /** Taking the head of `xs` out of `ys`, where it sits at `k`, leaves the same bag as the tail of `xs`. */
  lemma RemoveAtKeepsRest<T>(xs: seq<T>, ys: seq<T>, k: nat)
    requires multiset(xs) == multiset(ys) && xs != [] && k < |ys| && ys[k] == xs[0]
    ensures multiset(ys[..k] + ys[k + 1..]) == multiset(xs[1..])
  {
    var x := xs[0];
    var rest := ys[..k] + ys[k + 1..];
    assert ys == ys[..k] + [x] + ys[k + 1..];
    assert xs == [x] + xs[1..];
    assert multiset(ys) == multiset(rest) + multiset{x};
    assert multiset(xs) == multiset(xs[1..]) + multiset{x};
    assert multiset(rest) == multiset(ys) - multiset{x};
  }

  /** The union over `ys` is the bag of `ys[k]` and the union over the others. */
  lemma SumBagRemoveAt<T, U>(f: T -> multiset<U>, ys: seq<T>, k: nat)
    requires k < |ys|
    ensures SumBag(f, ys) == f(ys[k]) + SumBag(f, ys[..k] + ys[k + 1..])
  {
    var x, a, b := ys[k], ys[..k], ys[k + 1..];
    assert ys == a + ([x] + b);
    SumBagConcat(f, a, [x] + b);
    assert SumBag(f, [x] + b) == f(x) + SumBag(f, b) by {
      assert ([x] + b)[1..] == b;
    }
    SumBagConcat(f, a, b);
  }

  /** A subset is no larger than its superset. */
  lemma {:induction false} SubsetCardinality<T>(a: set<T>, b: set<T>)
    requires a <= b
    ensures |a| <= |b|
    decreases |a|
  {
    if a != {} {
      var x :| x in a;
      SubsetCardinality(a - {x}, b - {x});
    }
  }
}

=== FILE: sorting.dfy ===
/**
 * An insertion sort by a total preorder, the model of
 * `Array.prototype.sort` with a consistent comparator:
 * `le(a, b)` holds when the comparator puts `a` before or level with `b`.
 */
module Sorting {

  ghost predicate TotalPreorder<T(!new)>(le: (T, T) -> bool) {
    && (forall a, b :: le(a, b) || le(b, a))
    && (forall a, b, c :: le(a, b) && le(b, c) ==> le(a, c))
  }

  /** No two distinct elements are level with each other. */
  ghost predicate Antisymmetric<T(!new)>(le: (T, T) -> bool) {
    forall a, b :: le(a, b) && le(b, a) ==> a == b
  }

  predicate SortedBy<T>(xs: seq<T>, le: (T, T) -> bool) {
    forall i, j :: 0 <= i < j < |xs| ==> le(xs[i], xs[j])
  }

  /** Inserts `x` in front of the first element it is not after. */
  function Insert<T(==,!new)>(x: T, xs: seq<T>, le: (T, T) -> bool): (r: seq<T>)
    requires TotalPreorder(le)
    ensures multiset(r) == multiset(xs) + multiset{x}
    ensures SortedBy(xs, le) ==> SortedBy(r, le)
  {
    if xs == [] then [x]
    else if le(x, xs[0]) then
      assert SortedBy(xs, le) ==> SortedBy([x] + xs, le) by {
        if SortedBy(xs, le) {
          PrependSorted(x, xs, le);
        }
      }
      [x] + xs
    else
      var rest := Insert(x, xs[1..], le);
      assert xs == [xs[0]] + xs[1..];
      assert SortedBy(xs, le) ==> SortedBy([xs[0]] + rest, le) by {
        if SortedBy(xs, le) {
          HeadBeforeInserted(x, xs, rest, le);
        }
      }
      [xs[0]] + rest
  }

  /** An element placed before the head of a sorted sequence keeps it sorted. */
  lemma PrependSorted<T(!new)>(x: T, xs: seq<T>, le: (T, T) -> bool)
    requires TotalPreorder(le) && xs != [] && le(x, xs[0]) && SortedBy(xs, le)
    ensures SortedBy([x] + xs, le)
  {
    forall i, j | 0 <= i < j < |[x] + xs|
      ensures le(([x] + xs)[i], ([x] + xs)[j])
    {
      if i == 0 && j > 1 {
        assert le(xs[0], xs[j - 1]);
      }
    }
  }

  /**
   * When `x` goes after the head of a sorted sequence, the head stays
   * before the sorted insertion of `x` into the tail.
   */
  lemma HeadBeforeInserted<T(!new)>(x: T, xs: seq<T>, rest: seq<T>, le: (T, T) -> bool)
    requires TotalPreorder(le) && xs != [] && !le(x, xs[0]) && SortedBy(xs, le)
    requires SortedBy(rest, le) && multiset(rest) == multiset(xs[1..]) + multiset{x}
    ensures SortedBy([xs[0]] + rest, le)
  {
    forall i, j | 0 <= i < j < |[xs[0]] + rest|
      ensures le(([xs[0]] + rest)[i], ([xs[0]] + rest)[j])
    {
      if i == 0 {
        var y := rest[j - 1];
        assert y in multiset(rest);
        if y != x {
          assert y in multiset(xs[1..]);
          var k :| 0 <= k < |xs[1..]| && xs[1..][k] == y;
          assert le(xs[0], xs[k + 1]);
        }
      }
    }
  }

  /** `[...xs].sort(cmp)` */
  function SortBy<T(==,!new)>(xs: seq<T>, le: (T, T) -> bool): (r: seq<T>)
    requires TotalPreorder(le)
    ensures multiset(r) == multiset(xs)
    ensures |r| == |xs|
    ensures SortedBy(r, le)
  {
    if xs == [] then []
    else
      assert xs == [xs[0]] + xs[1..];
      Insert(xs[0], SortBy(xs[1..], le), le)
  }

  /** The head of a sorted sequence is level with or before every element. */
  lemma HeadIsLeast<T>(xs: seq<T>, le: (T, T) -> bool, y: T)
    requires SortedBy(xs, le) && |xs| > 0
    requires y in xs
    ensures xs[0] == y || le(xs[0], y)
  {
  }

  lemma TailMultiset<T>(xs: seq<T>, ys: seq<T>)
    requires |xs| > 0 && |ys| > 0 && xs[0] == ys[0]
    requires multiset(xs) == multiset(ys)
    ensures multiset(xs[1..]) == multiset(ys[1..])
  {
    assert xs == [xs[0]] + xs[1..];
    assert ys == [ys[0]] + ys[1..];
    assert multiset(xs[1..]) == multiset(xs) - multiset{xs[0]};
    assert multiset(ys[1..]) == multiset(ys) - multiset{ys[0]};
  }

  /**
   * When no two distinct elements are level, a sorted arrangement of a
   * multiset is unique: every correct sort of the same input agrees.
   */
  lemma {:induction false} SortedUnique<T(!new)>(xs: seq<T>, ys: seq<T>, le: (T, T) -> bool)
    requires Antisymmetric(le)
    requires SortedBy(xs, le) && SortedBy(ys, le)
    requires multiset(xs) == multiset(ys)
    ensures xs == ys
  {
    assert |xs| == |ys| by {
      assert |multiset(xs)| == |xs| && |multiset(ys)| == |ys|;
    }
    if xs != [] {
      assert xs[0] in ys by { assert xs[0] in multiset(ys); }
      assert ys[0] in xs by { assert ys[0] in multiset(xs); }
      HeadIsLeast(ys, le, xs[0]);
      HeadIsLeast(xs, le, ys[0]);
      assert xs[0] == ys[0];
      TailMultiset(xs, ys);
      SortedUnique(xs[1..], ys[1..], le);
      assert xs == [xs[0]] + xs[1..];
      assert ys == [ys[0]] + ys[1..];
    }
  }
}

=== FILE: statement.dfy ===
/**
 * The line items of a financial statement and the first pass of
 * `buildTree`: grouping the items by normalized label and building one
 * node per label, with a value for each displayed year.
 */
module Statement {
  import opened Wrappers
  import opened Text
  import opened Seqs
  import opened Labels

  /** One reported fact of a statement, for one label and one fiscal year. */
  datatype Item = Item(
    normalizedLabel: string,
    conceptName: string,
    preferredLabel: Option<string>,
    value: Option<real>,
    unit: string,
    periodYear: int,
    hierarchyLevel: Option<int>,
    parentLabel: Option<string>,
    orderIndex: Option<int>,
    isHeader: bool,
    side: Option<string>,
    equityComponent: Option<string>)

  /** A statement row: the merged facts of one label across the displayed years. */
  datatype Node = Node(
    caption: string,
    normalizedLabel: string,
    values: map<int, Option<real>>,
    unit: string,
    level: Option<int>,
    orderIndex: int,
    isTotal: bool,
    isHeader: bool,
    isSectionBoundary: bool)

  /** The order index of an item that has none, which sorts it last. */
  const MissingOrder: int := 999999

  function HasLabel(l: string): Item -> bool {
    (it: Item) => it.normalizedLabel == l
  }

  function InYear(y: int): Item -> bool {
    (it: Item) => it.periodYear == y
  }

  function HasLabelInYear(l: string, y: int): Item -> bool {
    Both(HasLabel(l), InYear(y))
  }

  function NormalizedLabels(items: seq<Item>): (r: seq<string>)
    ensures |r| == |items|
    ensures forall i :: 0 <= i < |items| ==> r[i] == items[i].normalizedLabel
  {
    seq(|items|, i requires 0 <= i < |items| => items[i].normalizedLabel)
  }

  /** The keys of `itemsByLabel`: every label of the items once, in order of first appearance. */
  function LabelsOf(items: seq<Item>): (r: seq<string>)
    ensures Distinct(r)
    ensures forall l :: l in r <==> exists i :: 0 <= i < |items| && items[i].normalizedLabel == l
  {
    var all := NormalizedLabels(items);
    assert forall l :: l in all <==> exists i :: 0 <= i < |items| && items[i].normalizedLabel == l by {
      forall l | l in all ensures exists i :: 0 <= i < |items| && items[i].normalizedLabel == l {
        var i :| 0 <= i < |all| && all[i] == l;
        assert items[i].normalizedLabel == l;
      }
    }
    Dedup(all)
  }

  /** The items of one label, in input order (`itemsByLabel[l]`). */
  function Group(items: seq<Item>, l: string): (r: seq<Item>)
    ensures forall i :: 0 <= i < |r| ==> r[i].normalizedLabel == l && r[i] in items
  {
    Filter(items, HasLabel(l))
  }

  /** The first item of a label: the one that supplies the node's label, parent, level and order. */
  function First(items: seq<Item>, l: string): (it: Item)
    requires l in LabelsOf(items)
    ensures it.normalizedLabel == l && it in items
  {
    items[FindIndex(items, HasLabel(l))]
  }

  /** Searching a label's group for a year finds the first item of that label and year in the whole list. */
  lemma FindInGroup(items: seq<Item>, l: string, y: int)
    ensures Find(Group(items, l), InYear(y)) == Find(items, HasLabelInYear(l, y))
  {
    FindInFilter(items, HasLabel(l), InYear(y));
  }

  /** `found?.value ?? null` */
  function ValueOf(found: Option<Item>): Option<real> {
    match found
    case Some(it) => it.value
    case None => None
  }

  /** The value shown for year `y`: that of the first item of the group in that year, or null. */
  function ValueForYear(group: seq<Item>, y: int): Option<real> {
    ValueOf(Find(group, InYear(y)))
  }

  /** The unit of the group's item for year `y`, when there is one with a non-empty unit. */
  function YearUnit(group: seq<Item>, y: int): Option<string> {
    match Find(group, InYear(y))
    case Some(it) => if it.unit != "" then Some(it.unit) else None
    case None => None
  }

  /**
   * The unit left after the loop over the years, starting from `u`: each
   * year whose item has a non-empty unit overwrites it, so the last such
   * year decides, and `u` survives only when there is none.
   */
  function UnitOverYears(group: seq<Item>, years: seq<int>, u: string): (r: string)
    ensures (forall j :: 0 <= j < |years| ==> YearUnit(group, years[j]).None?) ==> r == u
    ensures forall j :: (0 <= j < |years| && YearUnit(group, years[j]).Some?
                         && (forall k :: j < k < |years| ==> YearUnit(group, years[k]).None?))
                        ==> r == YearUnit(group, years[j]).value
    decreases |years|
  {
    if years == [] then u
    else
      var r := UnitOverYears(group, years[1..], YearUnit(group, years[0]).GetOr(u));
      assert forall k :: 1 <= k < |years| ==> years[1..][k - 1] == years[k];
      r
  }

  /** The value map of a node: one entry per displayed year. */
  function YearValues(group: seq<Item>, years: seq<int>): (m: map<int, Option<real>>)
    ensures forall y :: y in m <==> y in years
  {
    map y | y in years :: ValueForYear(group, y)
  }

  /** The node built for label `l` in the first pass of `buildTree`. */
  function NodeOf(items: seq<Item>, years: seq<int>, l: string): (n: Node)
    requires l in LabelsOf(items)
    ensures n.normalizedLabel == l
    ensures forall y :: y in n.values <==> y in years
    ensures forall y :: y in years ==> n.values[y] == ValueOf(Find(items, HasLabelInYear(l, y)))
    ensures n.level == First(items, l).hierarchyLevel
    ensures n.orderIndex == First(items, l).orderIndex.GetOr(MissingOrder)
    ensures n.isSectionBoundary <==> n.level == Some(3) || n.level == Some(4)
    ensures n.isHeader <==> (First(items, l).isHeader
                             || (First(items, l).value.None? && forall y :: y in years ==> n.values[y].None?))
    ensures n.caption == if Truthy(First(items, l).preferredLabel) then First(items, l).preferredLabel.value
      else HumanizeLabel(l, First(items, l).conceptName)
    ensures n.isTotal <==> IsTotalLabel(Lower(n.caption), n.level)
  {
    var group := Group(items, l);
    var first := First(items, l);
    assert group[0] == first by {
      FilterHead(items, HasLabel(l));
    }
    var values := YearValues(group, years);
    assert forall y :: y in years ==> values[y] == ValueOf(Find(items, HasLabelInYear(l, y))) by {
      forall y | y in years
        ensures values[y] == ValueOf(Find(items, HasLabelInYear(l, y)))
      {
        FindInGroup(items, l, y);
      }
    }
    var caption := if Truthy(first.preferredLabel) then first.preferredLabel.value else HumanizeLabel(l, first.conceptName);
    var level := first.hierarchyLevel;
    Node(
      caption := caption,
      normalizedLabel := l,
      values := values,
      unit := UnitOverYears(group, years, first.unit),
      level := level,
      orderIndex := first.orderIndex.GetOr(MissingOrder),
      isTotal := IsTotalLabel(Lower(caption), level),
      isHeader := first.isHeader || (first.value.None? && forall y | y in years :: values[y].None?),
      isSectionBoundary := level.Some? && (level.value == 3 || level.value == 4))
  }
}

=== FILE: text.dfy ===
/**
 * ASCII string helpers standing in for the JavaScript string methods the
 * components use: case mapping, `includes`, `startsWith`, `trim`, and the
 * character order of `localeCompare` / the default `Array.prototype.sort`.
 * Case mapping and the whitespace class are restricted to ASCII.
 */
module Text {

  /** The ASCII members of JavaScript's `\s` class (space, tab, LF, VT, FF, CR). */
  predicate IsSpace(c: char) {
    c == ' ' || ('\t' <= c <= '\r')
  }

  predicate IsUpper(c: char) { 'A' <= c <= 'Z' }

  predicate IsLower(c: char) { 'a' <= c <= 'z' }

  predicate IsDigit(c: char) { '0' <= c <= '9' }

  /** JavaScript's `\w` without the `u` flag: `[A-Za-z0-9_]`. */
  predicate IsWordChar(c: char) {
    IsUpper(c) || IsLower(c) || IsDigit(c) || c == '_'
  }

  function UpperChar(c: char): (r: char)
    ensures IsLower(c) ==> IsUpper(r)
    ensures !IsLower(c) ==> r == c
  {
    if IsLower(c) then (c as int - 32) as char else c
  }

  function LowerChar(c: char): (r: char)
    ensures IsUpper(c) ==> IsLower(r)
    ensures !IsUpper(c) ==> r == c
  {
    if IsUpper(c) then (c as int + 32) as char else c
  }

  /** `toLowerCase()` */
  function Lower(s: string): string {
    seq(|s|, i requires 0 <= i < |s| => LowerChar(s[i]))
  }

  /** `toUpperCase()` */
  function Upper(s: string): string {
    seq(|s|, i requires 0 <= i < |s| => UpperChar(s[i]))
  }

  /** `sub` occurs in `s` starting at index `i`. */
  predicate OccursAt(s: string, sub: string, i: int) {
    0 <= i && i + |sub| <= |s| && s[i..i + |sub|] == sub
  }

  /** `s.includes(sub)` */
  predicate Contains(s: string, sub: string) {
    exists i | 0 <= i <= |s| - |sub| :: OccursAt(s, sub, i)
  }

  /** `s.startsWith(p)` */
  predicate StartsWith(s: string, p: string) {
    |p| <= |s| && s[..|p|] == p
  }

  /** `s.endsWith(p)` */
  predicate EndsWith(s: string, p: string) {
    |p| <= |s| && s[|s| - |p|..] == p
  }

  /** A string that contains `sub` also contains every part of `sub`. */
  lemma ContainsPart(s: string, sub: string, part: string, k: int)
    requires Contains(s, sub)
    requires OccursAt(sub, part, k)
    ensures Contains(s, part)
  {
    var i :| 0 <= i <= |s| - |sub| && OccursAt(s, sub, i);
    assert s[i..i + |sub|] == sub;
    forall j | 0 <= j < |part|
      ensures s[i + k + j] == part[j]
    {
      assert s[i..i + |sub|][k + j] == sub[k + j];
      assert sub[k..k + |part|][j] == part[j];
    }
    assert s[i + k..i + k + |part|] == part;
    assert OccursAt(s, part, i + k);
  }

  /** A string that does not hold the first character of `sub` cannot contain `sub`. */
  lemma AbsentFirstChar(s: string, sub: string)
    requires |sub| > 0
    requires sub[0] !in s
    ensures !Contains(s, sub)
  {
    forall i | 0 <= i && i + |sub| <= |s|
      ensures !OccursAt(s, sub, i)
    {
      assert s[i] in s;
      assert s[i..i + |sub|][0] == s[i];
    }
  }

  /**
   * `a + b + c` cannot contain `sub` when the first character of `sub`
   * occurs only as the first of the two characters of `b`, and is not
   * followed there by the second character of `sub`.
   */
  lemma AbsentAfterJoin(a: string, b: string, c: string, sub: string)
    requires |sub| >= 2 && |b| == 2 && b[1] != sub[1] && b[1] != sub[0]
    requires sub[0] !in a && sub[0] !in c
    ensures !Contains(a + b + c, sub)
  {
    var s := a + b + c;
    forall i | 0 <= i && i + |sub| <= |s|
      ensures !OccursAt(s, sub, i)
    {
      var w := s[i..i + |sub|];
      assert w[0] == s[i] && w[1] == s[i + 1];
      if i < |a| {
        assert s[i] == a[i] && a[i] in a;
      } else if i == |a| {
        assert s[i + 1] == b[1];
      } else if i == |a| + 1 {
        assert s[i] == b[1];
      } else {
        assert s[i] == c[i - |a| - 2] && c[i - |a| - 2] in c;
      }
    }
  }

  function TrimStart(s: string): (r: string)
    ensures |r| <= |s| && r == s[|s| - |r|..]
    ensures r == [] || !IsSpace(r[0])
    ensures forall i :: 0 <= i < |s| - |r| ==> IsSpace(s[i])
  {
    if |s| > 0 && IsSpace(s[0]) then TrimStart(s[1..]) else s
  }

  /** `trimEnd()`: drops the trailing whitespace and nothing else. */
  function TrimEnd(s: string): (r: string)
    ensures |r| <= |s| && r == s[..|r|]
    ensures r == [] || !IsSpace(r[|r| - 1])
    ensures forall i :: |r| <= i < |s| ==> IsSpace(s[i])
  {
    if |s| > 0 && IsSpace(s[|s| - 1]) then TrimEnd(s[..|s| - 1]) else s
  }

  /** The number of whitespace characters `trim()` removes from the front of `s`. */
  function Lead(s: string): nat {
    |s| - |TrimStart(s)|
  }

  /** `trim()`: the middle of `s` between its leading and trailing whitespace. */
  function Trim(s: string): (r: string)
    ensures r == [] || (!IsSpace(r[0]) && !IsSpace(r[|r| - 1]))
    ensures Lead(s) + |r| <= |s| && r == s[Lead(s)..Lead(s) + |r|]
    ensures forall i :: 0 <= i < Lead(s) ==> IsSpace(s[i])
    ensures forall i :: Lead(s) + |r| <= i < |s| ==> IsSpace(s[i])
  {
    TrimEnd(TrimStart(s))
  }

  /** Regrouping a five-part concatenation. */
  lemma Join4(x: string, a: string, b: string, c: string, d: string)
    ensures x + (a + b + c + d) == x + a + b + c + d
  {}

  /** `trim()` keeps a part of the string. */
  lemma TrimContained(s: string)
    ensures Contains(s, Trim(s))
  {
    assert OccursAt(s, Trim(s), Lead(s));
  }

  /** What a prefix contains, the whole string contains. */
  lemma ContainsInPrefix(s: string, n: nat, sub: string)
    requires n <= |s| && Contains(s[..n], sub)
    ensures Contains(s, sub)
  {
    var i :| 0 <= i <= n - |sub| && OccursAt(s[..n], sub, i);
    assert s[..n][i..i + |sub|] == s[i..i + |sub|];
    assert OccursAt(s, sub, i);
  }

  /** A string is blank when `trim()` leaves nothing. */
  predicate IsBlank(s: string) {
    forall i :: 0 <= i < |s| ==> IsSpace(s[i])
  }

  lemma TrimEmptyIffBlank(s: string)
    ensures Trim(s) == [] <==> IsBlank(s)
  {
    if Trim(s) != [] {
      assert s[Lead(s)] == Trim(s)[0];
    }
  }

  /** A string with a non-space first and last character is unchanged by `trim()`. */
  lemma TrimOfTrimmed(s: string)
    requires s == [] || (!IsSpace(s[0]) && !IsSpace(s[|s| - 1]))
    ensures Trim(s) == s
  {
  }

  /**
   * Lexicographic order on character codes: the order the default
   * `Array.prototype.sort` gives strings, and the model of `localeCompare`.
   */
  predicate LexLe(a: string, b: string) {
    a == [] || (b != [] && (a[0] < b[0] || (a[0] == b[0] && LexLe(a[1..], b[1..]))))
  }

  lemma {:induction false} LexLeTotal(a: string, b: string)
    ensures LexLe(a, b) || LexLe(b, a)
  {
    if a != [] && b != [] && a[0] == b[0] {
      LexLeTotal(a[1..], b[1..]);
    }
  }

  lemma {:induction false} LexLeTransitive(a: string, b: string, c: string)
    requires LexLe(a, b) && LexLe(b, c)
    ensures LexLe(a, c)
  {
    if a != [] && b != [] && c != [] && a[0] == b[0] && b[0] == c[0] {
      LexLeTransitive(a[1..], b[1..], c[1..]);
    }
  }

  lemma {:induction false} LexLeAntisymmetric(a: string, b: string)
    requires LexLe(a, b) && LexLe(b, a)
    ensures a == b
  {
    if a != [] && b != [] {
      LexLeAntisymmetric(a[1..], b[1..]);
      assert a == [a[0]] + a[1..];
      assert b == [b[0]] + b[1..];
    }
  }
}

=== FILE: tree.dfy ===
/**
 * The statement tree: nodes with ordered children, the pre-order
 * `flattenTree`, and the recursive `sortNodes` with its three-key
 * comparator.
 */
module StatementTree {
  import opened Wrappers
  import opened Text
  import opened Seqs
  import opened Sorting
  import opened Statement

  datatype Tree = Tree(node: Node, children: seq<Tree>)

  function Label(t: Tree): string {
    t.node.normalizedLabel
  }

  /** The labels of the trees of a forest, left to right. */
  function Tops(ts: seq<Tree>): (r: seq<string>)
    ensures |r| == |ts|
    ensures forall i :: 0 <= i < |ts| ==> r[i] == Label(ts[i])
  {
    seq(|ts|, i requires 0 <= i < |ts| => Label(ts[i]))
  }

  /** `flattenTree`: each node, then its subtree, then the following siblings. */
  function Flatten(ts: seq<Tree>): seq<Node>
    decreases ts
  {
    if ts == [] then [] else [ts[0].node] + Flatten(ts[0].children) + Flatten(ts[1..])
  }

  /** The normalized labels of a sequence of nodes. */
  function Names(ns: seq<Node>): (r: seq<string>)
    ensures |r| == |ns|
    ensures forall i :: 0 <= i < |ns| ==> r[i] == ns[i].normalizedLabel
  {
    seq(|ns|, i requires 0 <= i < |ns| => ns[i].normalizedLabel)
  }

  /** The labels of the flattened forest, in display order. */
  function Keys(ts: seq<Tree>): seq<string> {
    Names(Flatten(ts))
  }

  lemma NamesConcat(a: seq<Node>, b: seq<Node>)
    ensures Names(a + b) == Names(a) + Names(b)
  {
  }

  /** The labels of a non-empty forest: the first root, its subtree, then the rest. */
  lemma TopsCons(ts: seq<Tree>)
    requires ts != []
    ensures Tops(ts) == [Label(ts[0])] + Tops(ts[1..])
  {
  }

  lemma KeysCons(ts: seq<Tree>)
    requires ts != []
    ensures Keys(ts) == [Label(ts[0])] + Keys(ts[0].children) + Keys(ts[1..])
  {
    NamesConcat([ts[0].node] + Flatten(ts[0].children), Flatten(ts[1..]));
    NamesConcat([ts[0].node], Flatten(ts[0].children));
  }

  lemma {:induction false} FlattenConcat(a: seq<Tree>, b: seq<Tree>)
    ensures Flatten(a + b) == Flatten(a) + Flatten(b)
    decreases |a|
  {
    if a == [] {
      assert a + b == b;
    } else {
      assert (a + b)[0] == a[0];
      assert (a + b)[1..] == a[1..] + b;
      FlattenConcat(a[1..], b);
    }
  }

  /**
   * Pre-order: the flat list holds everything before the `i`-th tree, then
   * that tree's node, then all of its descendants, then the later siblings.
   */
  lemma {:induction false} FlattenPreorder(ts: seq<Tree>, i: int)
    requires 0 <= i < |ts|
    ensures Flatten(ts)
      == Flatten(ts[..i]) + [ts[i].node] + Flatten(ts[i].children) + Flatten(ts[i + 1..])
  {
    var b := ts[i..];
    assert ts == ts[..i] + b;
    FlattenConcat(ts[..i], b);
    assert b[0] == ts[i] && b[1..] == ts[i + 1..];
    assert Flatten(b) == [ts[i].node] + Flatten(ts[i].children) + Flatten(ts[i + 1..]);
  }

  /** Every root's label is among the labels of the flattened forest. */
  lemma TopsInKeys(ts: seq<Tree>, i: int)
    requires 0 <= i < |ts|
    ensures Label(ts[i]) in Keys(ts)
  {
    FlattenPreorder(ts, i);
    var pre := Flatten(ts[..i]);
    assert Flatten(ts)[|pre|] == ts[i].node;
    assert Keys(ts)[|pre|] == Label(ts[i]);
  }

  /** Where a label of the flattened forest comes from. */
  lemma KeysMember(ts: seq<Tree>, x: string)
    requires ts != [] && x in Keys(ts)
    ensures x == Label(ts[0]) || x in Keys(ts[0].children) || x in Keys(ts[1..])
  {
    KeysCons(ts);
  }

  /* ---------------- bags of labels ---------------- */

  function TopBag(t: Tree): multiset<string> {
    multiset{Label(t)}
  }

  /** The labels of a tree: its own and those of its descendants. */
  function KeyBag(t: Tree): multiset<string> {
    multiset{Label(t)} + multiset(Keys(t.children))
  }

  lemma {:induction false} TopsBag(ts: seq<Tree>)
    ensures multiset(Tops(ts)) == SumBag(TopBag, ts)
    decreases |ts|
  {
    if ts != [] {
      TopsBag(ts[1..]);
      assert Tops(ts) == [Label(ts[0])] + Tops(ts[1..]);
    }
  }

  lemma {:induction false} KeysBag(ts: seq<Tree>)
    ensures multiset(Keys(ts)) == SumBag(KeyBag, ts)
    decreases |ts|
  {
    if ts != [] {
      KeysBag(ts[1..]);
      KeysCons(ts);
    }
  }

  /* ---------------- sorting ---------------- */

  /** `hierarchy_level ?? 0` */
  function LevelKey(t: Tree): int {
    t.node.level.GetOr(0)
  }

  /**
   * The comparator of `sortNodes` as an order: by order index ascending,
   * then by hierarchy level descending, then by display label.
   */
  predicate TreeLe(a: Tree, b: Tree) {
    || a.node.orderIndex < b.node.orderIndex
    || (a.node.orderIndex == b.node.orderIndex
        && (LevelKey(a) > LevelKey(b)
            || (LevelKey(a) == LevelKey(b) && LexLe(a.node.caption, b.node.caption))))
  }

  lemma TreeLeTotalPreorder()
    ensures TotalPreorder(TreeLe)
  {
    forall a, b ensures TreeLe(a, b) || TreeLe(b, a) {
      LexLeTotal(a.node.caption, b.node.caption);
    }
    forall a, b, c | TreeLe(a, b) && TreeLe(b, c) ensures TreeLe(a, c) {
      if a.node.orderIndex == b.node.orderIndex == c.node.orderIndex
        && LevelKey(a) == LevelKey(b) == LevelKey(c)
      {
        LexLeTransitive(a.node.caption, b.node.caption, c.node.caption);
      }
    }
  }

  /** Every level of the forest, the roots and each child list, is in comparator order. */
  predicate SortedEverywhere(ts: seq<Tree>)
    decreases ts
  {
    && SortedBy(ts, TreeLe)
    && forall i :: 0 <= i < |ts| ==> SortedEverywhere(ts[i].children)
  }

  /** `sortNodes`: sorts one level and, recursively, every child list. */
  function SortForest(ts: seq<Tree>): (r: seq<Tree>)
    ensures SortedEverywhere(r)
    ensures |r| == |ts|
    ensures SumBag(TopBag, r) == SumBag(TopBag, ts)
    ensures SumBag(KeyBag, r) == SumBag(KeyBag, ts)
    decreases ts, 1
  {
    TreeLeTotalPreorder();
    var each := SortEach(ts);
    var r := SortBy(each, TreeLe);
    assert forall i :: 0 <= i < |r| ==> SortedEverywhere(r[i].children) by {
      forall i | 0 <= i < |r| ensures SortedEverywhere(r[i].children) {
        assert r[i] in multiset(each);
        var j :| 0 <= j < |each| && each[j] == r[i];
      }
    }
    SumBagPermutation(TopBag, r, each);
    SumBagPermutation(KeyBag, r, each);
    r
  }

  /** Each tree of the level with its own children sorted; the level order is kept. */
  function SortEach(ts: seq<Tree>): (r: seq<Tree>)
    ensures |r| == |ts|
    ensures forall i :: 0 <= i < |r| ==> r[i].node == ts[i].node && SortedEverywhere(r[i].children)
    ensures SumBag(TopBag, r) == SumBag(TopBag, ts)
    ensures SumBag(KeyBag, r) == SumBag(KeyBag, ts)
    decreases ts, 0
  {
    if ts == [] then []
    else
      var t := SortTree(ts[0]);
      var rest := SortEach(ts[1..]);
      SortEachStep(ts, t, rest);
      SumBagCons(TopBag, t, rest);
      SumBagCons(KeyBag, t, rest);
      assert TopBag(t) == TopBag(ts[0]);
      [t] + rest
  }

  /** Each tree of `[t] + rest` keeps the node of `ts` at its place and has sorted children. */
  lemma SortEachStep(ts: seq<Tree>, t: Tree, rest: seq<Tree>)
    requires ts != [] && t.node == ts[0].node && SortedEverywhere(t.children)
    requires |rest| == |ts| - 1
    requires forall i :: 0 <= i < |rest| ==> rest[i].node == ts[i + 1].node && SortedEverywhere(rest[i].children)
    ensures forall i :: 0 <= i < |[t] + rest| ==> ([t] + rest)[i].node == ts[i].node && SortedEverywhere(([t] + rest)[i].children)
  {
    var r := [t] + rest;
    forall i | 0 <= i < |r| ensures r[i].node == ts[i].node && SortedEverywhere(r[i].children) {
      if i > 0 {
        assert r[i] == rest[i - 1];
      }
    }
  }

  function SortTree(t: Tree): (r: Tree)
    ensures r.node == t.node && SortedEverywhere(r.children)
    ensures KeyBag(r) == KeyBag(t)
    ensures SumBag(TopBag, r.children) == SumBag(TopBag, t.children)
    decreases t
  {
    var cs := SortForest(t.children);
    KeysBag(cs);
    KeysBag(t.children);
    Tree(t.node, cs)
  }

  /** Sorting keeps the labels of the forest, each as often as before. */
  lemma SortKeepsKeys(ts: seq<Tree>)
    ensures multiset(Keys(SortForest(ts))) == multiset(Keys(ts))
    ensures multiset(Tops(SortForest(ts))) == multiset(Tops(ts))
  {
    KeysBag(ts);
    KeysBag(SortForest(ts));
    TopsBag(ts);
    TopsBag(SortForest(ts));
  }
}

=== FILE: units.dfy ===
/**
 * The unit and scale captions of a statement: `getCommonUnit`, the most
 * frequent unit of its items, and `getUnitScale`, the "(millions USD)"
 * caption printed under the statement title.
 */
module StatementUnits {
  import opened Wrappers
  import opened Seqs
  import opened Statement
  import opened Numbers

  /** `items.map(i => i.unit)` */
  function AllUnits(items: seq<Item>): (r: seq<string>)
    ensures |r| == |items|
    ensures forall k :: 0 <= k < |items| ==> r[k] == items[k].unit
  {
    seq(|items|, k requires 0 <= k < |items| => items[k].unit)
  }

  /** A unit that takes part in the vote: non-empty and not `pure`. */
  function Countable(): string -> bool {
    (u: string) => u != "" && u != "pure"
  }

  /** `items.map(i => i.unit).filter(u => u && u !== 'pure')` */
  function Units(items: seq<Item>): (r: seq<string>)
    ensures forall i :: 0 <= i < |r| ==> r[i] != "" && r[i] != "pure"
    ensures forall u :: u in r <==> u in AllUnits(items) && Countable()(u)
  {
    forall u ensures u in Filter(AllUnits(items), Countable()) <==> u in AllUnits(items) && Countable()(u) {
      FilterMembership(AllUnits(items), Countable(), u);
    }
    Filter(AllUnits(items), Countable())
  }

  /** `units[m]` occurs more often than every unit before it and at least as often as every unit. */
  ghost predicate FirstMostCommon(units: seq<string>, m: int, upTo: int)
    requires 0 <= m < |units| && upTo <= |units|
  {
    && (forall j :: 0 <= j < m ==> Count(units, units[j]) < Count(units, units[m]))
    && (forall j :: 0 <= j < upTo ==> Count(units, units[j]) <= Count(units, units[m]))
  }

  /**
   * The `reduce` of `getCommonUnit` from position `k` with the accumulator
   * at index `m`: it keeps the accumulator unless the next unit occurs
   * strictly more often.
   */
  function ReduceCommon(units: seq<string>, k: nat, m: nat): (r: nat)
    requires m < |units| && m < k <= |units|
    requires FirstMostCommon(units, m, k)
    ensures r < |units| && FirstMostCommon(units, r, |units|)
    decreases |units| - k
  {
    if k == |units| then m
    else if Count(units, units[m]) >= Count(units, units[k]) then ReduceCommon(units, k + 1, m)
    else ReduceCommon(units, k + 1, k)
  }

  /** `getCommonUnit`: the first of the most frequent units, or USD when there is none. */
  function CommonUnit(items: seq<Item>): (r: string)
    ensures Units(items) == [] ==> r == "USD"
    ensures Units(items) != [] ==> exists m :: 0 <= m < |Units(items)| && Units(items)[m] == r
                                    && FirstMostCommon(Units(items), m, |Units(items)|)
    ensures r != "pure"
  {
    var units := Units(items);
    if units == [] then "USD" else units[ReduceCommon(units, 1, 0)]
  }

  /** The winner of the vote is unique: any unit that is first among the most frequent is it. */
  lemma CommonUnitUnique(items: seq<Item>, m: int)
    requires 0 <= m < |Units(items)| && FirstMostCommon(Units(items), m, |Units(items)|)
    ensures CommonUnit(items) == Units(items)[m]
  {
    var units := Units(items);
    var m' :| 0 <= m' < |units| && units[m'] == CommonUnit(items) && FirstMostCommon(units, m', |units|);
    var c, c' := Count(units, units[m]), Count(units, units[m']);
    assert c' <= c && (m' < m ==> c' < c);
    assert FirstMostCommon(units, m', |units|);
    assert forall j :: 0 <= j < |units| ==> Count(units, units[j]) <= c';
    assert c <= c' && (m < m' ==> c < c');
  }

  /** A value that picks the scale: present and non-zero. */
  function NonZero(): Item -> bool {
    (it: Item) => it.value.Some? && it.value.value != 0.0
  }

  /** The caption's scale for a sample of magnitude `a`: never below thousands. */
  function CaptionScale(a: real): (s: Scale)
    ensures s != Ones
    ensures s == Billions <==> a >= 1000000000.0
    ensures s == Millions <==> 1000000.0 <= a < 1000000000.0
  {
    if a >= 1000000000.0 then Billions
    else if a >= 1000000.0 then Millions
    else Thousands
  }

  /** `getUnitScale` as written: the scale of the first non-zero value, and the common unit. */
  function UnitScale(items: seq<Item>): (r: (Scale, string))
    ensures items == [] ==> r == (Millions, "USD")
    ensures items != [] ==> r.1 == CommonUnit(items)
    ensures Find(items, NonZero()).None? ==> r.0 == Millions
    ensures Find(items, NonZero()).Some? ==>
      r.0 == CaptionScale(Abs(Find(items, NonZero()).value.value.value))
  {
    if items == [] then (Millions, "USD")
    else
      match Find(items, NonZero())
      case None => (Millions, CommonUnit(items))
      case Some(sample) => (CaptionScale(Abs(sample.value.value)), CommonUnit(items))
  }

  /** The caption agrees with the cell ladder from a thousand up. */
  lemma CaptionMatchesLadder(a: real)
    requires a >= 1000.0
    ensures CaptionScale(a) == ThresholdScale(a)
  {
  }

  /* ---------------- the caption of a DKK or EUR statement ---------------- */

  /** A statement of one DKK item of 232,261 million. */
  function DkkStatement(): seq<Item> {
    [Item("revenue", "Revenue", None, Some(232261000000.0), "DKK", 2024, Some(1), None, Some(1), false, None, None)]
  }

  /**
   * As written, the caption of a DKK statement whose first value is at
   * least a billion says billions, while every DKK cell is in millions.
   */
  lemma DkkCaptionDisagrees()
    ensures UnitScale(DkkStatement()).0 == Billions
    ensures FormatAccounting(Some(232261000000.0), "DKK").scale == Millions
  {
    var items := DkkStatement();
    assert NonZero()(items[0]);
    assert Units(items) == ["DKK"];
    assert IsMillionsCurrency("DKK");
  }

  /** The corrected caption: statements in a millions currency are captioned in millions. */
  function FixedUnitScale(items: seq<Item>): (r: (Scale, string))
    ensures r.1 == UnitScale(items).1
    ensures IsMillionsCurrency(r.1) ==> r.0 == Millions
    ensures !IsMillionsCurrency(r.1) ==> r == UnitScale(items)
  {
    var (scale, unit) := UnitScale(items);
    if IsMillionsCurrency(unit) then (Millions, unit) else (scale, unit)
  }

  /**
   * With the corrected caption, every non-per-share cell in the statement's
   * own unit is in the scale the caption names, when that unit is DKK or EUR.
   */
  lemma FixedCaptionMatchesCells(items: seq<Item>, it: Item)
    requires it in items && it.value.Some?
    requires it.unit == FixedUnitScale(items).1 && IsMillionsCurrency(it.unit)
    requires !IsPerShareUnit(it.unit)
    ensures FormatAccounting(it.value, it.unit).scale == FixedUnitScale(items).0
  {
  }
}

=== FILE: view.dfy ===
/**
 * `renderStatement`: a statement's body is the rows of its sorted tree, in
 * the order of the flattened tree; a balance sheet is drawn as two such
 * bodies side by side, one for the assets and one for the liabilities and
 * equity, each built from only the items of its side.
 */
module StatementView {
  import opened Wrappers
  import opened Seqs
  import opened Statement
  import opened StatementTree
  import opened StatementLink
  import opened BuildTree
  import opened RowPolicy

  /** The shown labels of a built tree come from the items it was built from. */
  lemma BuildLabels(items: seq<Item>, years: seq<int>, x: string)
    requires x in Keys(Build(items, years))
    ensures x in LabelsOf(items)
  {
    if items != [] {
      var g := GraphOf(items, years);
      GraphOfWf(items, years);
      SortKeepsKeys(Built(g));
      assert x in multiset(Keys(Build(items, years)));
      assert x in multiset(Keys(Built(g)));
    }
  }

  /**
   * The body of a statement as drawn: nothing for no items, else one row
   * per node of the flattened tree, in flat order, each at its own depth.
   * A row below the roots is ruled against the flat entry after it; a root
   * is ruled against the flat entry after its position among the roots.
   */
  function StatementBody(items: seq<Item>, years: seq<int>, selected: int): (r: Option<seq<Row>>)
    ensures r.None? <==> items == []
    ensures r.Some? ==> |r.value| == |Flatten(Build(items, years))|
    ensures r.Some? ==> forall k :: 0 <= k < |r.value| ==>
      var flat, ds := Flatten(Build(items, years)), Depths(Build(items, years), 0);
      r.value[k].node == flat[k] && r.value[k].depth == ds[k]
    ensures r.Some? ==> forall k :: 0 <= k < |r.value| && Depths(Build(items, years), 0)[k] > 0 ==>
      var flat, ds := Flatten(Build(items, years)), Depths(Build(items, years), 0);
      r.value[k] == RowFor(flat[k], ds[k], NextAt(flat, k), years, selected)
    ensures r.Some? ==> forall k :: 0 <= k < |r.value| && Depths(Build(items, years), 0)[k] == 0 ==>
      var ts, flat := Build(items, years), Flatten(Build(items, years));
      exists j :: 0 <= j < |ts| && ts[j].node == flat[k] && r.value[k] == RowFor(flat[k], 0, NextAt(flat, j), years, selected)
  {
    if items == [] then None
    else
      var ts := Build(items, years);
      BuildShows(items, years, "");
      RowsFollowFlatList(ts, years, selected);
      Some(RenderStatement(ts, years, selected))
  }

  /**
   * The body with the root lookahead corrected: every row, roots included,
   * is ruled against the flat entry after it.
   */
  function StatementBodyFixed(items: seq<Item>, years: seq<int>, selected: int): (r: Option<seq<Row>>)
    ensures r.None? <==> items == []
    ensures r.Some? ==> |r.value| == |Flatten(Build(items, years))|
    ensures r.Some? ==> forall k :: 0 <= k < |r.value| ==>
      var flat := Flatten(Build(items, years));
      r.value[k] == RowFor(flat[k], Depths(Build(items, years), 0)[k], NextAt(flat, k), years, selected)
  {
    if items == [] then None
    else
      var ts := Build(items, years);
      BuildShows(items, years, "");
      FixedRowsFollowFlatList(ts, years, selected);
      Some(RenderStatementFixed(ts, years, selected))
  }

  /** When no root has children, the body as drawn is the corrected body. */
  lemma BodiesAgreeOnLeafRoots(items: seq<Item>, years: seq<int>, selected: int)
    requires forall i :: 0 <= i < |Build(items, years)| ==> Build(items, years)[i].children == []
    ensures StatementBody(items, years, selected) == StatementBodyFixed(items, years, selected)
  {
    if items != [] {
      BuildShows(items, years, "");
      LeafRootsAgree(Build(items, years), years, selected);
    }
  }

  /** The labels of a body's rows. */
  function RowLabels(rows: seq<Row>): (r: seq<string>)
    ensures |r| == |rows|
    ensures forall k :: 0 <= k < |rows| ==> r[k] == rows[k].node.normalizedLabel
  {
    seq(|rows|, k requires 0 <= k < |rows| => rows[k].node.normalizedLabel)
  }

  /**
   * Every row of a body is a distinct label of the items, and when no parent
   * chain loops every label of the items has its row.
   */
  lemma BodyShowsEachLabelOnce(items: seq<Item>, years: seq<int>, selected: int)
    requires items != []
    ensures Distinct(RowLabels(StatementBody(items, years, selected).value))
    ensures forall x :: x in RowLabels(StatementBody(items, years, selected).value) ==> x in LabelsOf(items)
    ensures Acyclic(GraphOf(items, years)) ==>
      multiset(RowLabels(StatementBody(items, years, selected).value)) == multiset(LabelsOf(items))
  {
    var rows := StatementBody(items, years, selected).value;
    var ts := Build(items, years);
    assert RowLabels(rows) == Keys(ts);
    BuildShows(items, years, "");
    forall x | x in RowLabels(rows) ensures x in LabelsOf(items) {
      BuildLabels(items, years, x);
    }
    if Acyclic(GraphOf(items, years)) {
      BuildShowsAll(items, years);
    }
  }

  /* ---------------- the balance sheet ---------------- */

  const Assets := "assets"
  const LiabilitiesEquity := "liabilities_equity"

  /** `item => item.side === s` */
  function OnSide(s: string): Item -> bool {
    (it: Item) => it.side == Some(s)
  }

  /** An item on neither side of the balance sheet. */
  function OffSheet(): Item -> bool {
    (it: Item) => it.side != Some(Assets) && it.side != Some(LiabilitiesEquity)
  }

  /** `items.filter(item => item.side === s)`, in the items' order. */
  function SideItems(items: seq<Item>, s: string): (r: seq<Item>)
    ensures forall it :: multiset(r)[it] == if it.side == Some(s) then multiset(items)[it] else 0
    ensures forall it :: it in r <==> it in items && it.side == Some(s)
  {
    var r := Filter(items, OnSide(s));
    assert forall it :: it in r <==> it in items && it.side == Some(s) by {
      forall it ensures it in r <==> it in items && it.side == Some(s) {
        FilterMembership(items, OnSide(s), it);
      }
    }
    r
  }

  /**
   * A balance sheet: nothing for no items, else the assets body and the
   * liabilities-and-equity body, each built from its side's items alone.
   */
  function BalanceSheet(items: seq<Item>, years: seq<int>, selected: int): (r: Option<(seq<Row>, seq<Row>)>)
    ensures r.None? <==> items == []
    ensures r.Some? ==> r.value.0 == StatementBody(SideItems(items, Assets), years, selected).GetOr([])
    ensures r.Some? ==> r.value.1 == StatementBody(SideItems(items, LiabilitiesEquity), years, selected).GetOr([])
  {
    if items == [] then None
    else
      var left := RenderStatement(Build(SideItems(items, Assets), years), years, selected);
      var right := RenderStatement(Build(SideItems(items, LiabilitiesEquity), years), years, selected);
      Some((left, right))
  }

  /**
   * The two sides and the items on neither side split the items: every
   * item is in exactly one of the three, as often as in the items.
   */
  lemma SidesPartition(items: seq<Item>)
    ensures multiset(SideItems(items, Assets)) + multiset(SideItems(items, LiabilitiesEquity))
            + multiset(Filter(items, OffSheet())) == multiset(items)
  {
    var a, l, o := SideItems(items, Assets), SideItems(items, LiabilitiesEquity), Filter(items, OffSheet());
    forall it ensures (multiset(a) + multiset(l) + multiset(o))[it] == multiset(items)[it] {
      if it.side == Some(Assets) {
        assert multiset(l)[it] == 0 && multiset(o)[it] == 0;
      } else if it.side == Some(LiabilitiesEquity) {
        assert multiset(a)[it] == 0 && multiset(o)[it] == 0;
      } else {
        assert multiset(a)[it] == 0 && multiset(l)[it] == 0;
      }
    }
  }

  /**
   * Each row of a side's body is a label that some item of that side
   * carries: an item on the other side, or on neither, never places a row.
   */
  lemma SideRowsComeFromSide(items: seq<Item>, years: seq<int>, selected: int, s: string, x: string)
    requires items != [] && (s == Assets || s == LiabilitiesEquity)
    requires var sides := BalanceSheet(items, years, selected).value;
             x in RowLabels(if s == Assets then sides.0 else sides.1)
    ensures exists i :: 0 <= i < |items| && items[i].normalizedLabel == x && items[i].side == Some(s)
  {
    var side := SideItems(items, s);
    assert side != [];
    BodyShowsEachLabelOnce(side, years, selected);
    var i :| 0 <= i < |side| && side[i].normalizedLabel == x;
    assert side[i] in items;
    var j :| 0 <= j < |items| && items[j] == side[i];
  }
}

=== FILE: warehouse.dfy ===
/**
 * The data warehouse view: the statement-type classification of a metric,
 * the label humanizer, the cross-company comparison (one row per metric,
 * one column per company, grouped by statement type), the single-company
 * listing with its 100-row cap, and the per-year merge behind the time
 * series chart.
 */
module Warehouse {
  import opened Wrappers
  import opened Text
  import opened Seqs
  import opened Sorting

  /** A row of a warehouse query; `label` is `normalized_label || ''`. */
  datatype DataRow = DataRow(
    company: string,
    metric: string,
    fiscalYear: Option<int>,
    value: Option<real>,
    unit: string,
    level: Option<int>,
    periodLabel: Option<string>)

  datatype StatementType = BalanceSheet | IncomeStatement | CashFlow | Other

  /* ---------------- statement type ---------------- */

  /** The lower-cased label names a balance-sheet quantity. */
  predicate BalanceWords(l: string) {
    Contains(l, "asset") || Contains(l, "liabilit") || Contains(l, "equity") || Contains(l, "cash") || Contains(l, "debt")
  }

  /** The lower-cased label names an income-statement quantity. */
  predicate IncomeWords(l: string) {
    Contains(l, "revenue") || Contains(l, "income") || Contains(l, "profit")
    || Contains(l, "earnings") || Contains(l, "eps") || Contains(l, "expense")
  }

  /** The lower-cased label names a cash flow. */
  predicate CashFlowWords(l: string) {
    Contains(l, "cash_flow") || Contains(l, "cashflow") || Contains(l, "capex")
  }

  /** `inferStatementType` as written: the first category whose test matches. */
  function InferStatementType(name: string, periodType: Option<string>): (t: StatementType)
    ensures name == [] ==> t == Other
    ensures name != [] && periodType == Some("instant") ==> t == BalanceSheet
    ensures t == IncomeStatement ==> IncomeWords(Lower(name)) && !BalanceWords(Lower(name))
    ensures t == CashFlow ==> CashFlowWords(Lower(name)) && !BalanceWords(Lower(name)) && !IncomeWords(Lower(name))
    ensures t == BalanceSheet ==> periodType == Some("instant") || BalanceWords(Lower(name))
    ensures t == Other && name != [] ==>
      !BalanceWords(Lower(name)) && !IncomeWords(Lower(name)) && !CashFlowWords(Lower(name))
  {
    if name == [] then Other
    else
      var l := Lower(name);
      if periodType == Some("instant") || BalanceWords(l) then BalanceSheet
      else if IncomeWords(l) then IncomeStatement
      else if CashFlowWords(l) then CashFlow
      else Other
  }

  /** A label containing "cash" is a balance-sheet metric, whatever else it says. */
  lemma CashIsBalanceSheet(name: string, periodType: Option<string>)
    requires Contains(Lower(name), "cash")
    ensures InferStatementType(name, periodType) == BalanceSheet
  {
  }

  /**
   * As written, the `cash_flow` and `cashflow` tests are never reached: a
   * label is classed as a cash flow only when it mentions "capex" and not
   * "cash".
   */
  lemma CashFlowOnlyByCapex(name: string, periodType: Option<string>)
    requires InferStatementType(name, periodType) == CashFlow
    ensures Contains(Lower(name), "capex") && !Contains(Lower(name), "cash")
  {
    var l := Lower(name);
    if Contains(l, "cash_flow") {
      assert OccursAt("cash_flow", "cash", 0);
      ContainsPart(l, "cash_flow", "cash", 0);
    }
    if Contains(l, "cashflow") {
      assert OccursAt("cashflow", "cash", 0);
      ContainsPart(l, "cashflow", "cash", 0);
    }
  }

  /** The operating cash flow is classed with the balance sheet. */
  lemma OperatingCashFlowMisclassed()
    ensures InferStatementType("operating_cash_flow", None) == BalanceSheet
  {
    var l := Lower("operating_cash_flow");
    assert l == "operating_cash_flow";
    assert OccursAt(l, "cash", 10);
  }

  /** The lower-cased label spells out a cash flow. */
  predicate CashFlowNamed(l: string) {
    Contains(l, "cash_flow") || Contains(l, "cashflow")
  }

  /** The classification with the cash-flow tests ahead of the balance-sheet words. */
  function FixedInferStatementType(name: string, periodType: Option<string>): (t: StatementType)
    ensures name != [] && periodType != Some("instant") && CashFlowNamed(Lower(name)) ==> t == CashFlow
  {
    if name == [] then Other
    else if periodType != Some("instant") && CashFlowNamed(Lower(name)) then CashFlow
    else InferStatementType(name, periodType)
  }

  /** The corrected classification differs from the original only on cash-flow labels. */
  lemma FixedAgreesElsewhere(name: string, periodType: Option<string>)
    requires !CashFlowNamed(Lower(name))
    ensures FixedInferStatementType(name, periodType) == InferStatementType(name, periodType)
  {
  }

  /** With the correction, the operating cash flow is a cash flow. */
  lemma OperatingCashFlowFixed()
    ensures FixedInferStatementType("operating_cash_flow", None) == CashFlow
  {
    var l := Lower("operating_cash_flow");
    assert l == "operating_cash_flow";
    assert OccursAt(l, "cash_flow", 10);
  }

  /* ---------------- labels ---------------- */

  /** `label.replace(/_/g, ' ')` */
  function Unscore(s: string): (r: string)
    ensures |r| == |s|
    ensures forall i :: 0 <= i < |s| ==> r[i] == if s[i] == '_' then ' ' else s[i]
  {
    seq(|s|, i requires 0 <= i < |s| => if s[i] == '_' then ' ' else s[i])
  }

  /** Position `i` starts a word: a word character not preceded by one (`\b\w`). */
  predicate WordStart(s: string, i: int)
    requires 0 <= i < |s|
  {
    IsWordChar(s[i]) && (i == 0 || !IsWordChar(s[i - 1]))
  }

  /** The warehouse `humanizeLabel`: underscores become spaces and each word's first character is upper-cased. */
  function HumanizeWarehouse(name: string): (r: string)
    ensures |r| == |name|
  {
    var u := Unscore(name);
    seq(|u|, i requires 0 <= i < |u| => if WordStart(u, i) then UpperChar(u[i]) else u[i])
  }

  /**
   * The humanized label has no underscore, agrees with the label up to case
   * and underscores, never lower-cases a letter, and starts every word with
   * a character that is not a lower-case letter.
   */
  lemma HumanizeWarehouseShape(name: string)
    ensures var r := HumanizeWarehouse(name);
            && (forall i :: 0 <= i < |r| ==> r[i] != '_')
            && Lower(r) == Lower(Unscore(name))
            && (forall i :: 0 <= i < |r| && IsUpper(name[i]) ==> IsUpper(r[i]))
            && (forall i :: 0 <= i < |r| && WordStart(r, i) ==> !IsLower(r[i]))
  {
    var r, u := HumanizeWarehouse(name), Unscore(name);
    forall i | 0 <= i < |r| ensures IsWordChar(r[i]) <==> IsWordChar(u[i]) {
    }
    forall i | 0 <= i < |r| ensures Lower(r)[i] == Lower(u)[i] {
    }
  }

  /** Humanizing twice is humanizing once. */
  lemma HumanizeWarehouseIdempotent(name: string)
    ensures HumanizeWarehouse(HumanizeWarehouse(name)) == HumanizeWarehouse(name)
  {
    var r, u := HumanizeWarehouse(name), Unscore(name);
    assert Unscore(r) == r;
    forall i | 0 <= i < |r| ensures IsWordChar(r[i]) <==> IsWordChar(u[i]) {
    }
    forall i | 0 <= i < |r| ensures (if WordStart(r, i) then UpperChar(r[i]) else r[i]) == r[i] {
    }
  }

  /**
   * A humanized label is never the string "year", so in a merged time-series
   * record a series never overwrites the year.
   */
  lemma HumanizedIsNeverYear(name: string)
    ensures HumanizeWarehouse(name) != "year"
  {
    var r := HumanizeWarehouse(name);
    if |r| == 4 {
      HumanizeWarehouseShape(name);
      assert WordStart(r, 0) <==> IsWordChar(r[0]);
    }
  }

  /* ---------------- the cross-company comparison ---------------- */

  /** `a <= b` in the order of the default `Array.prototype.sort` is a total order. */
  lemma LexLeOrder()
    ensures TotalPreorder(LexLe) && Antisymmetric(LexLe)
  {
    forall a, b ensures LexLe(a, b) || LexLe(b, a) {
      LexLeTotal(a, b);
    }
    forall a, b, c | LexLe(a, b) && LexLe(b, c) ensures LexLe(a, c) {
      LexLeTransitive(a, b, c);
    }
    forall a, b | LexLe(a, b) && LexLe(b, a) ensures a == b {
      LexLeAntisymmetric(a, b);
    }
  }

  function MetricIs(m: string): DataRow -> bool {
    (r: DataRow) => r.metric == m
  }

  function AtCell(m: string, c: string): DataRow -> bool {
    (r: DataRow) => r.metric == m && r.company == c
  }

  /**
   * The `forEach` filling `metricsByLabel`, keyed by metric and company: a
   * row is stored only while its cell is empty, so each cell holds the
   * first row of its metric and company.
   */
  function CellMap(rows: seq<DataRow>): (cells: map<(string, string), DataRow>)
    ensures forall m, c :: (m, c) in cells <==> FindIndex(rows, AtCell(m, c)) >= 0
    ensures forall m, c :: (m, c) in cells ==> cells[(m, c)] == rows[FindIndex(rows, AtCell(m, c))]
    decreases |rows|
  {
    if rows == [] then map[]
    else
      var prev := CellMap(rows[..|rows| - 1]);
      var r := rows[|rows| - 1];
      var cells := if (r.metric, r.company) in prev then prev else prev[(r.metric, r.company) := r];
      forall m, c ensures && ((m, c) in cells <==> FindIndex(rows, AtCell(m, c)) >= 0)
                          && ((m, c) in cells ==> cells[(m, c)] == rows[FindIndex(rows, AtCell(m, c))]) {
        FindIndexSnoc(rows, AtCell(m, c));
      }
      cells
  }

  function MetricNames(rows: seq<DataRow>): (r: seq<string>)
    ensures |r| == |rows|
    ensures forall i :: 0 <= i < |rows| ==> r[i] == rows[i].metric
  {
    seq(|rows|, i requires 0 <= i < |rows| => rows[i].metric)
  }

  function CompanyNames(rows: seq<DataRow>): (r: seq<string>)
    ensures |r| == |rows|
    ensures forall i :: 0 <= i < |rows| ==> r[i] == rows[i].company
  {
    seq(|rows|, i requires 0 <= i < |rows| => rows[i].company)
  }

  /** `Object.keys(metricsByLabel)`: the metrics in order of first appearance. */
  function Metrics(rows: seq<DataRow>): (ms: seq<string>)
    ensures Distinct(ms)
    ensures forall m :: m in ms <==> exists i :: 0 <= i < |rows| && rows[i].metric == m
  {
    Dedup(MetricNames(rows))
  }

  /** The keys of `metricsByLabel[m]`: the companies reporting `m`, in order of first appearance. */
  function CompaniesOf(rows: seq<DataRow>, m: string): seq<string> {
    Dedup(CompanyNames(Filter(rows, MetricIs(m))))
  }

  /**
   * The first company stored under a metric is that of the metric's first
   * row, and its cell holds that very row.
   */
  lemma FirstCompanyCell(rows: seq<DataRow>, m: string)
    requires m in Metrics(rows)
    ensures FindIndex(rows, MetricIs(m)) >= 0
    ensures var k := FindIndex(rows, MetricIs(m));
            && |CompaniesOf(rows, m)| > 0
            && CompaniesOf(rows, m)[0] == rows[k].company
            && FindIndex(rows, AtCell(m, rows[k].company)) == k
  {
    var i :| 0 <= i < |rows| && rows[i].metric == m;
    assert MetricIs(m)(rows[i]);
    FilterHead(rows, MetricIs(m));
    var k := FindIndex(rows, MetricIs(m));
    var k' := FindIndex(rows, AtCell(m, rows[k].company));
    assert AtCell(m, rows[k].company)(rows[k]);
    assert k' >= 0 && MetricIs(m)(rows[k']);
  }

  /** `Object.values(metricsByLabel[m])[0]`: the row of the first company stored under `m`. */
  function FirstRow(rows: seq<DataRow>, m: string): (r: DataRow)
    requires m in Metrics(rows)
    ensures r.metric == m && r in rows
  {
    FirstCompanyCell(rows, m);
    CellMap(rows)[(m, CompaniesOf(rows, m)[0])]
  }

  /** The row standing for a metric is the metric's first row overall. */
  lemma FirstRowIsFirst(rows: seq<DataRow>, m: string)
    requires m in Metrics(rows)
    ensures FindIndex(rows, MetricIs(m)) >= 0
    ensures FirstRow(rows, m) == rows[FindIndex(rows, MetricIs(m))]
  {
    FirstCompanyCell(rows, m);
  }

  /** The statement type of a metric, read from its first row. */
  function TypeOf(rows: seq<DataRow>, m: string): StatementType
    requires m in Metrics(rows)
  {
    InferStatementType(m, FirstRow(rows, m).periodLabel)
  }

  function TypesOf(rows: seq<DataRow>): (r: seq<StatementType>)
    ensures |r| == |Metrics(rows)|
    ensures forall i :: 0 <= i < |r| ==> r[i] == TypeOf(rows, Metrics(rows)[i])
  {
    var ms := Metrics(rows);
    seq(|ms|, i requires 0 <= i < |ms| => TypeOf(rows, ms[i]))
  }

  /** `Object.keys(byStatementType)`: the statement types in order of their first metric. */
  function TypeOrder(rows: seq<DataRow>): (ts: seq<StatementType>)
    ensures Distinct(ts)
    ensures forall t :: t in ts <==> exists m :: m in Metrics(rows) && TypeOf(rows, m) == t
  {
    var ts := Dedup(TypesOf(rows));
    forall t ensures t in ts <==> exists m :: m in Metrics(rows) && TypeOf(rows, m) == t {
      TypeOrderMember(rows, t);
    }
    ts
  }

  lemma TypeOrderMember(rows: seq<DataRow>, t: StatementType)
    ensures t in TypesOf(rows) <==> exists m :: m in Metrics(rows) && TypeOf(rows, m) == t
  {
    var ms, ts := Metrics(rows), TypesOf(rows);
    if t in ts {
      var i :| 0 <= i < |ts| && ts[i] == t;
      assert ms[i] in ms && TypeOf(rows, ms[i]) == t;
    }
    if exists m :: m in ms && TypeOf(rows, m) == t {
      var m :| m in ms && TypeOf(rows, m) == t;
      var i :| 0 <= i < |ms| && ms[i] == m;
      assert ts[i] == t;
    }
  }

  function OfType(rows: seq<DataRow>, t: StatementType): string -> bool {
    (m: string) => m in Metrics(rows) && TypeOf(rows, m) == t
  }

  /** A section of the comparison: a statement type and its metrics. */
  datatype Section = Section(kind: StatementType, metrics: seq<string>)

  /** `byStatementType[t].sort()`: the metrics of type `t`, sorted. */
  function SectionMetrics(rows: seq<DataRow>, t: StatementType): (ms: seq<string>)
    ensures Distinct(ms) && SortedBy(ms, LexLe)
    ensures forall m :: m in ms <==> m in Metrics(rows) && TypeOf(rows, m) == t
  {
    LexLeOrder();
    var kept := Filter(Metrics(rows), OfType(rows, t));
    var ms := SortBy(kept, LexLe);
    DistinctPermutation(kept, ms);
    assert forall m :: m in ms <==> m in Metrics(rows) && TypeOf(rows, m) == t by {
      forall m ensures m in ms <==> m in Metrics(rows) && TypeOf(rows, m) == t {
        FilterMembership(Metrics(rows), OfType(rows, t), m);
        assert m in ms <==> m in multiset(ms);
        assert m in kept <==> m in multiset(kept);
      }
    }
    ms
  }

  /** The cross-company comparison: one section per statement type, in order of first appearance. */
  function CrossCompany(rows: seq<DataRow>): (ss: seq<Section>)
    ensures |ss| == |TypeOrder(rows)|
    ensures forall i :: 0 <= i < |ss| ==> ss[i] == Section(TypeOrder(rows)[i], SectionMetrics(rows, TypeOrder(rows)[i]))
  {
    SectionsFor(rows, TypeOrder(rows))
  }

  /** One section for each of the given types, in their order. */
  function SectionsFor(rows: seq<DataRow>, ts: seq<StatementType>): (ss: seq<Section>)
    ensures |ss| == |ts|
    ensures forall i :: 0 <= i < |ss| ==> ss[i] == Section(ts[i], SectionMetrics(rows, ts[i]))
  {
    seq(|ts|, i requires 0 <= i < |ts| => Section(ts[i], SectionMetrics(rows, ts[i])))
  }

  /**
   * Every metric of the rows has exactly one row in the comparison: it is
   * in the section of its type and in no other, and the sections hold
   * nothing else. Each section is non-empty, sorted and without repeats,
   * and no two sections share a type.
   */
  lemma CrossCompanyPartition(rows: seq<DataRow>, m: string)
    ensures var ss := CrossCompany(rows);
            && (m in Metrics(rows) <==> exists i :: 0 <= i < |ss| && m in ss[i].metrics)
            && (m in Metrics(rows) ==> forall i :: 0 <= i < |ss| ==> (m in ss[i].metrics <==> ss[i].kind == TypeOf(rows, m)))
            && (forall i, j :: 0 <= i < j < |ss| ==> ss[i].kind != ss[j].kind)
            && (forall i :: 0 <= i < |ss| ==> ss[i].metrics != [] && SortedBy(ss[i].metrics, LexLe) && Distinct(ss[i].metrics))
  {
    var ss, ts := CrossCompany(rows), TypeOrder(rows);
    if m in Metrics(rows) {
      var t := TypeOf(rows, m);
      assert t in ts;
      var i :| 0 <= i < |ts| && ts[i] == t;
      assert m in ss[i].metrics;
    }
    forall i | 0 <= i < |ss| ensures ss[i].metrics != [] {
      assert ts[i] in ts;
      var m' :| m' in Metrics(rows) && TypeOf(rows, m') == ts[i];
      assert m' in ss[i].metrics;
    }
  }

  /**
   * As the views group them, a metric whose name mentions "cash", a cash
   * flow included, sits in the balance-sheet section of the comparison and
   * in the balance-sheet block of the listing, and never under Cash Flow.
   */
  lemma CashMetricsGroupedAsBalanceSheet(rows: seq<DataRow>, x: DataRow)
    requires x in rows && Contains(Lower(x.metric), "cash")
    ensures var ss := CrossCompany(rows);
            && (exists i :: 0 <= i < |ss| && ss[i].kind == BalanceSheet && x.metric in ss[i].metrics)
            && (forall i :: 0 <= i < |ss| && ss[i].kind == CashFlow ==> x.metric !in ss[i].metrics)
    ensures var bs := Listing(rows);
            && (exists i :: 0 <= i < |bs| && bs[i].kind == BalanceSheet)
            && RowType(x) == BalanceSheet
  {
    var m := x.metric;
    assert m in Metrics(rows) by {
      var k :| 0 <= k < |rows| && rows[k] == x;
      assert MetricNames(rows)[k] == m;
    }
    CashIsBalanceSheet(m, FirstRow(rows, m).periodLabel);
    CashIsBalanceSheet(m, x.periodLabel);
    CrossCompanyPartition(rows, m);
    ListingPartition(rows, x);
  }

  /* ---------------- row style ---------------- */

  /** The comparison's row style for a hierarchy level: whether it is a total, and its extra indent. */
  function LevelStyle(level: Option<int>): (s: (bool, int))
    ensures s.0 <==> level.None? || level.value >= 3
    ensures s.1 >= 0 && s.1 % 16 == 0
    ensures level.None? || level.value == 0 || level.value >= 4 ==> s.1 == 0
    ensures level.Some? && level.value != 0 && level.value < 4 ==> s.1 == 16 * (4 - level.value)
  {
    var total := level.None? || (level.value != 0 && level.value >= 3);
    var indent := if level.Some? && level.value != 0 then (if 4 - level.value > 0 then 4 - level.value else 0) * 16 else 0;
    (total, indent)
  }

  /**
   * Among the levels 1 to 4, a deeper level is indented less, and a total
   * row is indented less than any row that is not a total.
   */
  lemma LevelStyleOrder(a: int, b: int)
    requires 1 <= a < b <= 4
    ensures LevelStyle(Some(a)).1 > LevelStyle(Some(b)).1
    ensures LevelStyle(Some(b)).0 && !LevelStyle(Some(a)).0 ==> LevelStyle(Some(b)).1 <= 16 < LevelStyle(Some(a)).1
  {
  }

  /* ---------------- the single-company listing ---------------- */

  /** The statement type of a row of the single-company listing. */
  function RowType(r: DataRow): StatementType {
    InferStatementType(r.metric, r.periodLabel)
  }

  function IsKind(t: StatementType): DataRow -> bool {
    (r: DataRow) => RowType(r) == t
  }

  function RowTypes(rows: seq<DataRow>): (r: seq<StatementType>)
    ensures |r| == |rows|
    ensures forall i :: 0 <= i < |rows| ==> r[i] == RowType(rows[i])
  {
    seq(|rows|, i requires 0 <= i < |rows| => RowType(rows[i]))
  }

  /** At most this many rows of a statement type are listed. */
  const ListLimit := 100

  /** `rows.slice(0, 100)` */
  function Truncate(rows: seq<DataRow>): (r: seq<DataRow>)
    ensures |r| <= ListLimit && |r| <= |rows| && r == rows[..|r|]
    ensures |rows| <= ListLimit <==> r == rows
    ensures |rows| > ListLimit ==> |r| == ListLimit
  {
    if |rows| <= ListLimit then rows else rows[..ListLimit]
  }

  /** A statement type's block: its row count, the rows listed, and whether the "Showing first 100" note appears. */
  datatype Block = Block(kind: StatementType, count: nat, shown: seq<DataRow>, note: bool)

  /** The listing: the rows grouped by statement type in input order, one block per type present. */
  function Listing(rows: seq<DataRow>): (bs: seq<Block>)
    ensures |bs| == |Dedup(RowTypes(rows))|
    ensures forall i :: 0 <= i < |bs| ==>
      var group := Filter(rows, IsKind(bs[i].kind));
      && bs[i].kind == Dedup(RowTypes(rows))[i]
      && bs[i].count == |group|
      && bs[i].shown == Truncate(group)
      && (bs[i].note <==> |group| > ListLimit)
  {
    var ts := Dedup(RowTypes(rows));
    seq(|ts|, i requires 0 <= i < |ts| =>
      var group := Filter(rows, IsKind(ts[i]));
      Block(ts[i], |group|, Truncate(group), |group| > ListLimit))
  }

  /**
   * The blocks split the rows: each row belongs to the block of its type
   * and to no other, as often as it occurs, and every row's type has a
   * block. A block lists all its rows exactly when it has no note.
   */
  lemma ListingPartition(rows: seq<DataRow>, x: DataRow)
    ensures var bs := Listing(rows);
            && (x in rows ==> exists i :: 0 <= i < |bs| && bs[i].kind == RowType(x))
            && (forall i :: 0 <= i < |bs| ==>
                  multiset(Filter(rows, IsKind(bs[i].kind)))[x] == if bs[i].kind == RowType(x) then multiset(rows)[x] else 0)
            && (forall i, j :: 0 <= i < j < |bs| ==> bs[i].kind != bs[j].kind)
            && (forall i :: 0 <= i < |bs| ==> (bs[i].shown == Filter(rows, IsKind(bs[i].kind)) <==> !bs[i].note))
  {
    var bs, ts := Listing(rows), Dedup(RowTypes(rows));
    if x in rows {
      ListingHasType(rows, x);
    }
    forall i, j | 0 <= i < j < |bs| ensures bs[i].kind != bs[j].kind {
      assert bs[i].kind == ts[i] && bs[j].kind == ts[j];
    }
  }

  lemma ListingHasType(rows: seq<DataRow>, x: DataRow)
    requires x in rows
    ensures exists i :: 0 <= i < |Listing(rows)| && Listing(rows)[i].kind == RowType(x)
  {
    var ts := Dedup(RowTypes(rows));
    var k :| 0 <= k < |rows| && rows[k] == x;
    assert RowTypes(rows)[k] == RowType(x);
    assert RowType(x) in ts;
    var i :| 0 <= i < |ts| && ts[i] == RowType(x);
    assert Listing(rows)[i].kind == RowType(x);
  }

  /* ---------------- the time series ---------------- */

  /** One charted value: its year, its series (the humanized metric), and the value. */
  datatype Entry = Entry(year: Option<int>, series: string, value: real)

  /** A merged record of the chart: a year and the value of each series in it. */
  datatype Point = Point(year: Option<int>, series: map<string, real>)

  /** Rows with a value whose metric is selected. */
  function Charted(selected: seq<string>): DataRow -> bool {
    (r: DataRow) => r.value.Some? && r.metric in selected
  }

  /** The filter and map steps: each charted row as an entry, in input order. */
  function Entries(rows: seq<DataRow>, selected: seq<string>): (es: seq<Entry>)
    ensures forall e :: e in es <==>
      exists r :: r in rows && Charted(selected)(r) && e == Entry(r.fiscalYear, HumanizeWarehouse(r.metric), r.value.value)
  {
    var kept := Filter(rows, Charted(selected));
    var es := seq(|kept|, i requires 0 <= i < |kept| => Entry(kept[i].fiscalYear, HumanizeWarehouse(kept[i].metric), kept[i].value.value));
    assert forall e :: e in es <==>
      exists r :: r in rows && Charted(selected)(r) && e == Entry(r.fiscalYear, HumanizeWarehouse(r.metric), r.value.value) by {
      forall e | e in es
        ensures exists r :: r in rows && Charted(selected)(r) && e == Entry(r.fiscalYear, HumanizeWarehouse(r.metric), r.value.value)
      {
        var i :| 0 <= i < |es| && es[i] == e;
        assert kept[i] in rows && Charted(selected)(kept[i]);
      }
      forall r | r in rows && Charted(selected)(r)
        ensures Entry(r.fiscalYear, HumanizeWarehouse(r.metric), r.value.value) in es
      {
        FilterMembership(rows, Charted(selected), r);
        var i :| 0 <= i < |kept| && kept[i] == r;
        assert es[i] == Entry(r.fiscalYear, HumanizeWarehouse(r.metric), r.value.value);
      }
    }
    es
  }

  function EntryYears(es: seq<Entry>): (r: seq<Option<int>>)
    ensures |r| == |es|
    ensures forall i :: 0 <= i < |es| ==> r[i] == es[i].year
  {
    seq(|es|, i requires 0 <= i < |es| => es[i].year)
  }

  function PointYears(ps: seq<Point>): (r: seq<Option<int>>)
    ensures |r| == |ps|
    ensures forall i :: 0 <= i < |ps| ==> r[i] == ps[i].year
  {
    seq(|ps|, i requires 0 <= i < |ps| => ps[i].year)
  }

  /** The last entry of year `y` and series `s`, or -1. */
  function LastEntry(es: seq<Entry>, y: Option<int>, s: string): (k: int)
    ensures -1 <= k < |es|
    ensures k >= 0 ==> es[k].year == y && es[k].series == s
    ensures k >= 0 ==> forall j :: k < j < |es| ==> es[j].year != y || es[j].series != s
    ensures k == -1 ==> forall j :: 0 <= j < |es| ==> es[j].year != y || es[j].series != s
    decreases |es|
  {
    if es == [] then -1
    else if es[|es| - 1].year == y && es[|es| - 1].series == s then |es| - 1
    else LastEntry(es[..|es| - 1], y, s)
  }

  function YearIs(y: Option<int>): Point -> bool {
    (p: Point) => p.year == y
  }

  /** The `reduce` callback: merge into the record of the entry's year, or push a new record. */
  function Absorb(ps: seq<Point>, e: Entry): seq<Point> {
    var k := FindIndex(ps, YearIs(e.year));
    if k >= 0 then ps[k := Point(ps[k].year, ps[k].series[e.series := e.value])]
    else ps + [Point(e.year, map[e.series := e.value])]
  }

  /**
   * The merged records of a list of entries: one per distinct year, in
   * order of first appearance, each holding for every series of that year
   * the value of its last entry.
   */
  ghost predicate MergedFrom(es: seq<Entry>, ps: seq<Point>) {
    && PointYears(ps) == Dedup(EntryYears(es))
    && (forall i, s :: 0 <= i < |ps| ==> (s in ps[i].series <==> LastEntry(es, ps[i].year, s) >= 0))
    && (forall i, s :: 0 <= i < |ps| && s in ps[i].series ==> ps[i].series[s] == es[LastEntry(es, ps[i].year, s)].value)
  }

  /** The `reduce` over the entries. */
  function Merge(es: seq<Entry>): (ps: seq<Point>)
    ensures MergedFrom(es, ps)
    decreases |es|
  {
    if es == [] then []
    else
      var prev := Merge(es[..|es| - 1]);
      MergeStep(es, prev);
      Absorb(prev, es[|es| - 1])
  }

  /** Absorbing one more entry into the records of the earlier ones gives the records of all. */
  lemma MergeStep(es: seq<Entry>, prev: seq<Point>)
    requires es != [] && MergedFrom(es[..|es| - 1], prev)
    ensures MergedFrom(es, Absorb(prev, es[|es| - 1]))
  {
    var ps := Absorb(prev, es[|es| - 1]);
    AbsorbYears(es, prev);
    forall i, s | 0 <= i < |ps|
      ensures s in ps[i].series <==> LastEntry(es, ps[i].year, s) >= 0
      ensures s in ps[i].series ==> ps[i].series[s] == es[LastEntry(es, ps[i].year, s)].value
    {
      AbsorbSeries(es, prev, i, s);
    }
  }

  /** The record of the entry's year is found exactly when an earlier entry has that year. */
  lemma AbsorbFinds(es: seq<Entry>, prev: seq<Point>)
    requires es != [] && PointYears(prev) == Dedup(EntryYears(es[..|es| - 1]))
    ensures var k := FindIndex(prev, YearIs(es[|es| - 1].year));
            k >= 0 <==> es[|es| - 1].year in EntryYears(es[..|es| - 1])
  {
    var e := es[|es| - 1];
    var k := FindIndex(prev, YearIs(e.year));
    if k >= 0 {
      assert PointYears(prev)[k] == e.year;
    }
    if e.year in PointYears(prev) {
      var i :| 0 <= i < |prev| && PointYears(prev)[i] == e.year;
      assert YearIs(e.year)(prev[i]);
    }
  }

  lemma AbsorbYears(es: seq<Entry>, prev: seq<Point>)
    requires es != [] && PointYears(prev) == Dedup(EntryYears(es[..|es| - 1]))
    ensures PointYears(Absorb(prev, es[|es| - 1])) == Dedup(EntryYears(es))
  {
    assert EntryYears(es)[..|es| - 1] == EntryYears(es[..|es| - 1]);
    AbsorbFinds(es, prev);
  }

  lemma AbsorbSeries(es: seq<Entry>, prev: seq<Point>, i: int, s: string)
    requires es != [] && MergedFrom(es[..|es| - 1], prev)
    requires 0 <= i < |Absorb(prev, es[|es| - 1])|
    ensures var p := Absorb(prev, es[|es| - 1])[i];
            && (s in p.series <==> LastEntry(es, p.year, s) >= 0)
            && (s in p.series ==> p.series[s] == es[LastEntry(es, p.year, s)].value)
  {
    var k := FindIndex(prev, YearIs(es[|es| - 1].year));
    if k >= 0 && i == k {
      AbsorbHit(es, prev, s);
    } else if i < |prev| {
      AbsorbOther(es, prev, i, s);
    } else {
      AbsorbNew(es, prev, s);
    }
  }

  /** The record of the entry's year gains or updates the entry's series and keeps the others. */
  lemma AbsorbHit(es: seq<Entry>, prev: seq<Point>, s: string)
    requires es != [] && MergedFrom(es[..|es| - 1], prev)
    requires FindIndex(prev, YearIs(es[|es| - 1].year)) >= 0
    ensures var p := Absorb(prev, es[|es| - 1])[FindIndex(prev, YearIs(es[|es| - 1].year))];
            && (s in p.series <==> LastEntry(es, p.year, s) >= 0)
            && (s in p.series ==> p.series[s] == es[LastEntry(es, p.year, s)].value)
  {
    var k := FindIndex(prev, YearIs(es[|es| - 1].year));
    assert prev[k].year == es[|es| - 1].year;
  }

  /** A record of another year is left as it was, and the new entry does not bear on it. */
  lemma AbsorbOther(es: seq<Entry>, prev: seq<Point>, i: int, s: string)
    requires es != [] && MergedFrom(es[..|es| - 1], prev)
    requires 0 <= i < |prev| && i != FindIndex(prev, YearIs(es[|es| - 1].year))
    ensures var p := Absorb(prev, es[|es| - 1])[i];
            && (s in p.series <==> LastEntry(es, p.year, s) >= 0)
            && (s in p.series ==> p.series[s] == es[LastEntry(es, p.year, s)].value)
  {
    var e := es[|es| - 1];
    var k := FindIndex(prev, YearIs(e.year));
    assert prev[i].year != e.year by {
      if k >= 0 {
        assert PointYears(prev)[i] != PointYears(prev)[k];
      } else {
        assert !YearIs(e.year)(prev[i]);
      }
    }
    assert Absorb(prev, e)[i] == prev[i];
  }

  /** A new record holds exactly the entry's series, since no earlier entry has its year. */
  lemma AbsorbNew(es: seq<Entry>, prev: seq<Point>, s: string)
    requires es != [] && MergedFrom(es[..|es| - 1], prev)
    requires FindIndex(prev, YearIs(es[|es| - 1].year)) < 0
    ensures |Absorb(prev, es[|es| - 1])| == |prev| + 1
    ensures var p := Absorb(prev, es[|es| - 1])[|prev|];
            && (s in p.series <==> LastEntry(es, p.year, s) >= 0)
            && (s in p.series ==> p.series[s] == es[LastEntry(es, p.year, s)].value)
  {
    var init, e := es[..|es| - 1], es[|es| - 1];
    AbsorbFinds(es, prev);
    assert forall j :: 0 <= j < |init| ==> init[j].year in EntryYears(init);
    assert LastEntry(init, e.year, s) < 0;
  }

  /**
   * `timeSeriesData`: the merged records of the charted rows, when exactly
   * one company and at least one metric are selected; otherwise none.
   */
  function TimeSeries(companies: nat, selected: seq<string>, rows: seq<DataRow>): (ps: seq<Point>)
    ensures companies != 1 || selected == [] ==> ps == []
    ensures companies == 1 && selected != [] ==> MergedFrom(Entries(rows, selected), ps)
  {
    if companies == 1 && selected != [] then Merge(Entries(rows, selected)) else []
  }

  /** A year is among the entries' years exactly when some charted row has it. */
  lemma ChartedYears(rows: seq<DataRow>, selected: seq<string>, y: Option<int>)
    ensures y in EntryYears(Entries(rows, selected)) <==> exists r :: r in rows && Charted(selected)(r) && r.fiscalYear == y
  {
    var es := Entries(rows, selected);
    if exists r :: r in rows && Charted(selected)(r) && r.fiscalYear == y {
      var r :| r in rows && Charted(selected)(r) && r.fiscalYear == y;
      var e := Entry(r.fiscalYear, HumanizeWarehouse(r.metric), r.value.value);
      assert e in es;
      var i :| 0 <= i < |es| && es[i] == e;
      assert EntryYears(es)[i] == y;
    }
    if y in EntryYears(es) {
      var i :| 0 <= i < |es| && EntryYears(es)[i] == y;
      assert es[i] in es;
    }
  }

  /**
   * The time series has one record per year of a charted row, and no two
   * records share a year.
   */
  lemma TimeSeriesYears(companies: nat, selected: seq<string>, rows: seq<DataRow>, y: Option<int>)
    requires companies == 1 && selected != []
    ensures var ps := TimeSeries(companies, selected, rows);
            && Distinct(PointYears(ps))
            && (y in PointYears(ps) <==> exists r :: r in rows && Charted(selected)(r) && r.fiscalYear == y)
  {
    ChartedYears(rows, selected, y);
  }

  /**
   * A record's series are exactly the humanized names of the metrics charted
   * in its year, each holding the value of the last such row.
   */
  lemma TimeSeriesSeries(companies: nat, selected: seq<string>, rows: seq<DataRow>, i: nat, s: string)
    requires companies == 1 && selected != [] && i < |TimeSeries(companies, selected, rows)|
    ensures var p := TimeSeries(companies, selected, rows)[i];
            s in p.series <==> exists r :: r in rows && Charted(selected)(r) && r.fiscalYear == p.year && HumanizeWarehouse(r.metric) == s
  {
    var es := Entries(rows, selected);
    var p := TimeSeries(companies, selected, rows)[i];
    if exists r :: r in rows && Charted(selected)(r) && r.fiscalYear == p.year && HumanizeWarehouse(r.metric) == s {
      var r :| r in rows && Charted(selected)(r) && r.fiscalYear == p.year && HumanizeWarehouse(r.metric) == s;
      var e := Entry(r.fiscalYear, HumanizeWarehouse(r.metric), r.value.value);
      assert e in es;
      var j :| 0 <= j < |es| && es[j] == e;
      assert LastEntry(es, p.year, s) >= 0;
    }
    if s in p.series {
      var k := LastEntry(es, p.year, s);
      assert es[k] in es;
    }
  }
}

=== FILE: wrappers.dfy ===
/** The optional value used for the JavaScript `null` / `undefined` fields of the model. */
module Wrappers {

  datatype Option<+T> = None | Some(value: T) {

    /** The value, or `d` when there is none (the `??` operator). */
    function GetOr(d: T): T {
      match this
      case Some(v) => v
      case None => d
    }
  }

  /** JavaScript truthiness of an optional string: present and non-empty. */
  predicate Truthy(s: Option<string>) {
    s.Some? && s.value != ""
  }

  /** `a || b` on an optional string: `b` stands in for a missing or empty `a`. */
  function OrElse(a: Option<string>, b: string): (r: string)
    ensures Truthy(a) ==> r == a.value
    ensures !Truthy(a) ==> r == b
    ensures b != "" ==> r != ""
  {
    if Truthy(a) then a.value else b
  }
}
